=== FILE: README.md ===
# Product catalogue and AI mapping: a Dafny model

This project models the core of a two-service system.

- **integration-service** maps rows of uploaded files onto a target schema
  with a generative language model. `AiMappingService` builds the prompt,
  classifies the generation endpoint's reply and repairs the model's free
  text into a JSON object. `BatchMappingService` runs the mapper row by row
  and exports mapped rows as CSV. `FileParserService` turns an uploaded CSV,
  JSON or XML file into rows and infers a type per column.
- **product-service** is a multi-tenant product catalogue. A tenant id
  arrives in the `X-Tenant-Id` header. The request filter validates it and
  keeps it in a per-request tenant context. The repository queries and the
  service operations are scoped to that tenant. Every change writes a
  history row. Search filters, sort orders, bean-validation constraints and
  the exception-to-HTTP-status table complete the picture.

The repository carries two generations of the product service: the
top-level `src/` tree and the `product-service/` tree. Each modelled file is
modelled as written, and where both generations have a file, both are
modelled and compared (`TenantFilters.DoFilter` against
`TenantFilters.LegacyDoFilter`, `ProductSearch.BuildSort` against
`ProductSearch.LegacyBuildSort`).

## Layout

| file | module | what it holds |
|---|---|---|
| wrappers.dfy | `Wrappers` | `Option` for Java null, `Result` for a call that returns or throws |
| text.dfy | `Text` | `String.trim`, `isBlank`, `indexOf`, ASCII lower-casing, decimal rendering, concatenation offsets |
| json.dfy | `Json` | the JSON tree (objects as ordered key/value lists) and Jackson as a `Codec` parameter |
| patterns.dfy | `Patterns` | the small regular-expression fragment `String.matches` is used with |
| repair.dfy | `ResponseRepair` | fence stripping, first-brace extraction, balanced-brace scan, un-stringification |
| mapping.dfy | `AiMapping` | prompt building, reply classification, `mapData`, `generateMappingRules` |
| batch.dfy | `BatchMapping` | the batch loop and its accounting, CSV export and its read-back |
| fileparser.dfy | `FileParser` | format dispatch, top-level normalisation, type and schema detection, sampling |
| tenancy.dfy | `Tenancy` | tenant-id validation, the tenant context cell, the provider's two readers, the listener's rule |
| errors.dfy | `ErrorHandling` | the thrown exceptions, their class hierarchy and the controller advice |
| tenantfilter.dfy | `TenantFilters` | both request filters as decision tables |
| products.dfy | `Products` | the Product entity, its constructor, both history builders, the persist listener |
| store.dfy | `ProductStore` | the product table, the four repository queries, `save` and `deleteById` |
| productservice.dfy | `ProductServices` | the tenant-scoped service operations and the Kafka entry point |
| search.dfy | `ProductSearch` | the search specification with SQL `LIKE`, and both sort builders |
| validation.dfy | `Validation` | the bean-validation constraints of the request DTO, the entity and the filter DTO |

Library calls are parameters of the model, never assumed behaviour.
Jackson's `readValue`/`writeValueAsString` are the two functions of a
`Json.Codec`. The CSV, JSON and XML readers are the functions of
`FileParser.Readers`. The generation endpoint is a function from the request
to a `Reply`. Clocks, UUIDs and durations are inputs.

## Model

| member | source | states |
|---|---|---|
| Text.TrimStart | integration-service/src/main/java/com/example/integrationservice/service/AiMappingService.java:186 | Drops exactly the leading characters at or below ' ', as `String.trim` does, and stops at the first other one |
| Text.TrimEnd | integration-service/src/main/java/com/example/integrationservice/service/AiMappingService.java:186 | Drops exactly the trailing characters at or below ' ' and stops at the last other one |
| Text.Trim | integration-service/src/main/java/com/example/integrationservice/service/AiMappingService.java:186 | The result is a slice of the input that neither starts nor ends with a character at or below ' ' |
| Text.TrimDropsOnlySpace | integration-service/src/main/java/com/example/integrationservice/service/AiMappingService.java:186 | Everything `trim` removes is a character at or below ' ' |
| Text.TrimNoOp | integration-service/src/main/java/com/example/integrationservice/service/AiMappingService.java:197 | Trimming a text that starts and ends with a character above ' ' changes nothing |
| Text.IndexOf | integration-service/src/main/java/com/example/integrationservice/service/AiMappingService.java:199 | `indexOf` gives the first position of the character, or -1 exactly when it does not occur |
| Text.AsciiLower | integration-service/src/main/java/com/example/integrationservice/service/FileParserService.java:41 | Lower-casing keeps the length and lowers each character on its own |
| Text.NullToText | integration-service/src/main/java/com/example/integrationservice/service/AiMappingService.java:176-180 | `String.format` renders a null argument as "null" and any other text as itself |
| Text.NatToDecimalInjective | integration-service/src/main/java/com/example/integrationservice/service/BatchMappingService.java:60 | Different row positions render to different decimal texts |
| Json.Keys | integration-service/src/main/java/com/example/integrationservice/service/AiMappingService.java:242-268 | The key list of an object, in order |
| Json.Get | integration-service/src/main/java/com/example/integrationservice/service/AiMappingService.java:104-105 | A key's value is found exactly when the key is present |
| Json.ReadMap | integration-service/src/main/java/com/example/integrationservice/service/AiMappingService.java:208 | Reading a text as a map succeeds with the object's fields when the text parses to an object, gives null for a JSON null, and passes a parse failure through |
| Patterns.FinalStar | integration-service/src/main/java/com/example/integrationservice/service/FileParserService.java:139 | A trailing `.*` matches exactly the texts made only of its class |
| Patterns.LoneBetween | product-service/src/main/java/com/example/productservice/security/TenantValidator.java:25 | `[class]{lo,hi}` matches exactly the texts of that class whose length is within the bounds |
| Patterns.LeadingRepeat | integration-service/src/main/java/com/example/integrationservice/service/FileParserService.java:139-142 | `[class]{n}` followed by the rest matches exactly when the first n characters are in the class and the rest matches the remainder |
| ResponseRepair.StripFencesIsSlice | integration-service/src/main/java/com/example/integrationservice/service/AiMappingService.java:188-196 | Dropping a leading "```json", a leading "```" and a trailing "```" leaves a slice of the text |
| ResponseRepair.CloseFromSpec | integration-service/src/main/java/com/example/integrationservice/service/AiMappingService.java:223-236 | The brace scan stops at the first position where the '{'/'}' depth returns to 0, on a '}', and reports none when the depth stays positive to the end |
| ResponseRepair.ExtractJsonIsShortestBalanced | integration-service/src/main/java/com/example/integrationservice/service/AiMappingService.java:219-240 | The extracted text starts at the given '{' and is either the shortest balanced prefix, with depth at least 1 on every proper prefix and a final '}', or the whole remainder when the depth never returns to 0 |
| ResponseRepair.ExtractJsonFromResponse | integration-service/src/main/java/com/example/integrationservice/service/AiMappingService.java:219-240 | The loop with its depth counter computes the same text as the scan's definition: a slice from the first '{' that is balanced or runs to the end |
| ResponseRepair.FixValue | integration-service/src/main/java/com/example/integrationservice/service/AiMappingService.java:242-268 | A string that starts with '{' and ends with '}', or '[' and ']', and parses is replaced by the parsed tree; an object is repaired field by field with the same keys; every other value is kept |
| ResponseRepair.FixStringified | integration-service/src/main/java/com/example/integrationservice/service/AiMappingService.java:242-268 | The repair keeps every key and the key order and repairs each value on its own |
| ResponseRepair.FixValueNoOp | integration-service/src/main/java/com/example/integrationservice/service/AiMappingService.java:242-268 | The repair changes nothing when no string at any object depth would be re-parsed |
| ResponseRepair.ParseMappedData | integration-service/src/main/java/com/example/integrationservice/service/AiMappingService.java:184-217 | Succeeds exactly when the cleaned candidate parses as an object, with that object's keys; every failure carries the "AI mapping returned invalid JSON: " prefix |
| ResponseRepair.CandidateOfCleanObject | integration-service/src/main/java/com/example/integrationservice/service/AiMappingService.java:186-205 | A trimmed response that starts with '{' and ends with '}' reaches the parser unchanged |
| ResponseRepair.CandidateWithoutExtraction | integration-service/src/main/java/com/example/integrationservice/service/AiMappingService.java:199-205 | When the first '{' is at position 0 or absent, the cleaned text goes to the parser as it is, trailing prose included |
| ResponseRepair.CandidateWithExtraction | integration-service/src/main/java/com/example/integrationservice/service/AiMappingService.java:199-205 | When the first '{' comes later, only the balanced extraction from it goes to the parser |
| ResponseRepair.StripJsonFence | integration-service/src/main/java/com/example/integrationservice/service/AiMappingService.java:188-196 | A "```json" fence and a closing "```" are removed around the body |
| ResponseRepair.StripBareFence | integration-service/src/main/java/com/example/integrationservice/service/AiMappingService.java:191-196 | A bare "```" fence and a closing "```" are removed around the body |
| ResponseRepair.JsonFenceCleans | integration-service/src/main/java/com/example/integrationservice/service/AiMappingService.java:186-197 | A clean object inside a "```json" fence comes out as the trimmed object |
| ResponseRepair.BracedCandidate | integration-service/src/main/java/com/example/integrationservice/service/AiMappingService.java:199-205 | A cleaned text starting with '{' is parsed as it is |
| ResponseRepair.JsonFenceIsTransparent | integration-service/src/main/java/com/example/integrationservice/service/AiMappingService.java:186-205 | Wrapping a clean object in a "```json" fence does not change what is parsed |
| ResponseRepair.BareFenceIsTransparent | integration-service/src/main/java/com/example/integrationservice/service/AiMappingService.java:186-205 | Wrapping a clean object in a bare "```" fence does not change what is parsed |
| ResponseRepair.ExtractJsonAfterProse | integration-service/src/main/java/com/example/integrationservice/service/AiMappingService.java:219-240 | The scan from the start of a balanced object returns exactly that object, whatever follows |
| ResponseRepair.FirstBraceAfterProse | integration-service/src/main/java/com/example/integrationservice/service/AiMappingService.java:199 | With no '{' in the prose, the first '{' is where the object starts |
| ResponseRepair.ObjectAfterProse | integration-service/src/main/java/com/example/integrationservice/service/AiMappingService.java:199-202 | Prose without '{' followed by a balanced object: the first brace is found after the prose and the object is extracted whole |
| ResponseRepair.ProseAroundObjectIsCut | integration-service/src/main/java/com/example/integrationservice/service/AiMappingService.java:199-205 | Explanatory prose before a balanced object and text after it are cut away before parsing |
| ResponseRepair.CleanObjectParsesAsIs | integration-service/src/main/java/com/example/integrationservice/service/AiMappingService.java:184-210 | A clean object with nothing stringified is returned exactly as parsed |
| ResponseRepair.NoBraceFails | integration-service/src/main/java/com/example/integrationservice/service/AiMappingService.java:199-216 | A reply without any '{' is handed over unchanged and, with a parser that needs a '{' to give an object, fails with the invalid-JSON prefix |
| AiMapping.RequestFor | integration-service/src/main/java/com/example/integrationservice/service/AiMappingService.java:85-90 | The request goes to host + "/api/generate" with the configured model, the prompt and streaming off |
| AiMapping.ClassifyReply | integration-service/src/main/java/com/example/integrationservice/service/AiMappingService.java:99-121 | The text is returned exactly when the reply is a map with a "response" field; a missing field, HTML, other text and other types each raise their own message; only a transport failure reports the service as unavailable at the URL with the model |
| AiMapping.ReplyMessagesIdentifyKind | integration-service/src/main/java/com/example/integrationservice/service/AiMappingService.java:102-121 | Two replies that fail with the same message are of the same kind, so the messages are distinct |
| AiMapping.MessageOfKind | integration-service/src/main/java/com/example/integrationservice/service/AiMappingService.java:102-121 | Each failing reply kind is recognisable from fixed positions of its message |
| AiMapping.SampleSection | integration-service/src/main/java/com/example/integrationservice/service/AiMappingService.java:125-128 | The sample section is empty exactly when the sample is null or empty, and otherwise is the "TARGET SAMPLE DATA" header followed by the sample |
| AiMapping.BuildPrompt | integration-service/src/main/java/com/example/integrationservice/service/AiMappingService.java:124-182 | Fails exactly when serialising the source data fails; otherwise is the prompt filled with the schemas, the sample section, the serialised data and the rules |
| AiMapping.PromptKeepsArgumentsInOrder | integration-service/src/main/java/com/example/integrationservice/service/AiMappingService.java:130-181 | The prompt contains source schema, target schema, sample section, serialised data and rules verbatim and in that order |
| AiMapping.RulesPromptKeepsSchemas | integration-service/src/main/java/com/example/integrationservice/service/AiMappingService.java:292-315 | The rules prompt contains the source schema and then the target schema verbatim |
| AiMapping.CallGeneration | integration-service/src/main/java/com/example/integrationservice/service/AiMappingService.java:84-122 | A call succeeds exactly when the reply carries a "response" field; a transport failure reports the service unavailable at host + "/api/generate" |
| AiMapping.MapData | integration-service/src/main/java/com/example/integrationservice/service/AiMappingService.java:41-82 | Never throws; the status is "SUCCESS" exactly when the prompt, the call and the parse all succeed, and then carries the parsed object and the raw reply text and no error; otherwise "FAILED" without data, whose error message is the message of the step that failed (serialisation, the call, or the parse); both carry the given id and times |
| AiMapping.EmptyObjectIsSuccess | integration-service/src/main/java/com/example/integrationservice/service/AiMappingService.java:53-57 | An empty parsed object is still a success; the emptiness check only logs |
| AiMapping.FailuresAreReported | integration-service/src/main/java/com/example/integrationservice/service/AiMappingService.java:70-81 | A transport failure and a parse failure each give "FAILED" with the exception's message, the latter with the invalid-JSON prefix |
| AiMapping.GenerateMappingRules | integration-service/src/main/java/com/example/integrationservice/service/AiMappingService.java:270-290 | Returns the reply text exactly when the reply has a "response" field; every failure is rethrown with the "Failed to generate mapping rules: " prefix |
| BatchMapping.RowRequest | integration-service/src/main/java/com/example/integrationservice/service/BatchMappingService.java:45-50 | Each row's request uses the row as source data and the same serialised schema, target schema and rules |
| BatchMapping.RunRow | integration-service/src/main/java/com/example/integrationservice/service/BatchMappingService.java:44-72 | A row maps exactly when the mapper answers "SUCCESS", carrying its mapped data; a failure records the mapper's message or "Unknown error"; a schema serialisation failure fails the row with its message, or escapes the loop when it has none |
| BatchMapping.RowOutcomeUnique | integration-service/src/main/java/com/example/integrationservice/service/BatchMappingService.java:44-72 | The description of a row's outcome through the mapper's response admits exactly one result, so every iteration meeting it agrees with the reference |
| BatchMapping.RowResults | integration-service/src/main/java/com/example/integrationservice/service/BatchMappingService.java:41-73 | One result per row, in order, each computed from that row alone |
| BatchMapping.FailedPositions | integration-service/src/main/java/com/example/integrationservice/service/BatchMappingService.java:57-71 | The failed rows' positions, ascending |
| BatchMapping.TallyCounts | integration-service/src/main/java/com/example/integrationservice/service/BatchMappingService.java:41-84 | Each row bumps exactly one counter, so successes + failures equals the row count |
| BatchMapping.TallyAccounting | integration-service/src/main/java/com/example/integrationservice/service/BatchMappingService.java:41-84 | The mapped data are exactly the successful rows' data in input order; each error names the decimal position of a failed row with its message; the counters match the list lengths |
| BatchMapping.TallyStep | integration-service/src/main/java/com/example/integrationservice/service/BatchMappingService.java:54-71 | One loop step appends to exactly one of the two lists and bumps its counter |
| BatchMapping.RowIndicesDistinct | integration-service/src/main/java/com/example/integrationservice/service/BatchMappingService.java:57-71 | No two error entries name the same row |
| BatchMapping.MapRow | integration-service/src/main/java/com/example/integrationservice/service/BatchMappingService.java:44-72 | One iteration: the row maps exactly when the mapper answers "SUCCESS", with its data; otherwise it fails with the mapper's message or "Unknown error"; a serialisation failure fails the row with its message, or escapes when it has none |
| BatchMapping.MapBatch | integration-service/src/main/java/com/example/integrationservice/service/BatchMappingService.java:25-92 | Completes exactly when no row's exception escapes, and then totals, successes, failures, mapped data and errors (null when none) summarise the rows; the download URL is built from the batch id; otherwise stops at the first escaping row |
| BatchMapping.CsvLines | integration-service/src/main/java/com/example/integrationservice/service/BatchMappingService.java:99-111 | A header of the first row's keys joined by ",", then one record per row, each line ending in a newline |
| BatchMapping.QuotedValues | integration-service/src/main/java/com/example/integrationservice/service/BatchMappingService.java:105-110 | Quoting each value of a row and joining with "," gives the row's record |
| BatchMapping.ExportToCsv | integration-service/src/main/java/com/example/integrationservice/service/BatchMappingService.java:94-114 | Empty exactly when there are no rows; otherwise the header line and one record line per row |
| BatchMapping.UndoubleDoubleQuotes | integration-service/src/main/java/com/example/integrationservice/service/BatchMappingService.java:107 | Undoubling recovers the original text, as the quoted-field rule of section 2 of RFC 4180 intends |
| BatchMapping.ReadQuotedDoubled | integration-service/src/main/java/com/example/integrationservice/service/BatchMappingService.java:107-108 | Reading a quoted field back gives the original value and the rest of the line |
| BatchMapping.RecordRoundTrip | integration-service/src/main/java/com/example/integrationservice/service/BatchMappingService.java:110 | A record of quoted values reads back to exactly the values |
| BatchMapping.RecordsReadBack | integration-service/src/main/java/com/example/integrationservice/service/BatchMappingService.java:104-110 | A row's record reads back to the text of each of its values, with null as empty |
| FileParser.FormatOf | integration-service/src/main/java/com/example/integrationservice/service/FileParserService.java:41-51 | CSV, JSON or XML is chosen by the suffix of the lower-cased name, tried in that order; no other suffix is accepted |
| FileParser.AsciiLowerAppend | integration-service/src/main/java/com/example/integrationservice/service/FileParserService.java:41 | Lower-casing distributes over concatenation |
| FileParser.AsciiLowerIdempotent | integration-service/src/main/java/com/example/integrationservice/service/FileParserService.java:41 | Lower-casing twice is lower-casing once |
| FileParser.FormatIgnoresCase | integration-service/src/main/java/com/example/integrationservice/service/FileParserService.java:41-51 | The format does not depend on the name's case |
| FileParser.SuffixSelectsFormat | integration-service/src/main/java/com/example/integrationservice/service/FileParserService.java:43-48 | Any name ending in ".csv", ".json" or ".xml", in any case, gets that format |
| FileParser.JsonRows | integration-service/src/main/java/com/example/integrationservice/service/FileParserService.java:84-98 | An array gives its items, an object a one-row list, a JSON null a message-less failure, anything else "JSON must be an array or object" |
| FileParser.CsvRows | integration-service/src/main/java/com/example/integrationservice/service/FileParserService.java:66-71 | One row per CSV record, in order |
| FileParser.XmlRows | integration-service/src/main/java/com/example/integrationservice/service/FileParserService.java:102-107 | An XML document gives exactly one row |
| FileParser.ParseFile | integration-service/src/main/java/com/example/integrationservice/service/FileParserService.java:29-55 | A null or blank name gives "Invalid file" before the emptiness check; an empty file "File is empty: <name>"; an unknown suffix "Unsupported file format: <name>"; otherwise the rows of the chosen reader |
| FileParser.ReaderFailurePassesThrough | integration-service/src/main/java/com/example/integrationservice/service/FileParserService.java:43-48 | A reader's failure reaches the caller unchanged |
| FileParser.DatePatternTooShort | integration-service/src/main/java/com/example/integrationservice/service/FileParserService.java:139 | A text shorter than ten characters is never date-like |
| FileParser.DatePatternPieces | integration-service/src/main/java/com/example/integrationservice/service/FileParserService.java:139 | The date pattern matches exactly when each of its pieces matches its slice |
| FileParser.DatePatternMeaning | integration-service/src/main/java/com/example/integrationservice/service/FileParserService.java:139 | `\d{4}-\d{2}-\d{2}.*` matches exactly four ASCII digits, '-', two digits, '-', two digits, then characters that end no line |
| FileParser.UuidGroupsMeaning | integration-service/src/main/java/com/example/integrationservice/service/FileParserService.java:142 | The UUID groups read as 36 characters with lower-case hex digits and dashes at 8, 13, 18 and 23 |
| FileParser.UuidPatternMeaning | integration-service/src/main/java/com/example/integrationservice/service/FileParserService.java:142 | The UUID pattern matches exactly the lower-case 8-4-4-4-12 textual form of section 3 of RFC 4122 |
| FileParser.DetectType | integration-service/src/main/java/com/example/integrationservice/service/FileParserService.java:126-153 | null gives "String", a long-sized integer "Integer", other numbers "BigDecimal", booleans "Boolean", arrays "List", objects "Map"; a date-like string "LocalDateTime" before a lower-case UUID "UUID"; every other string "String"; the result is always one of the eight type names |
| FileParser.UpperCaseUuidIsString | integration-service/src/main/java/com/example/integrationservice/service/FileParserService.java:142-145 | An upper-case UUID is typed "String" |
| FileParser.DateLikeExamples | integration-service/src/main/java/com/example/integrationservice/service/FileParserService.java:139-140 | A date-time string is typed "LocalDateTime"; a date followed by a line end is not |
| FileParser.DetectSchema | integration-service/src/main/java/com/example/integrationservice/service/FileParserService.java:109-124 | Empty for null or no rows; otherwise one column per key of the first row, in order, each with a type name |
| FileParser.SchemaFromFirstRowOnly | integration-service/src/main/java/com/example/integrationservice/service/FileParserService.java:114-121 | Rows after the first do not affect the schema, and each column's type is that of the first row's value |
| FileParser.SampleRows | integration-service/src/main/java/com/example/integrationservice/service/FileParserService.java:155-159 | An empty list for null rows; otherwise the prefix of length min(sampleSize, size); a negative sample size fails as `subList` does |
| FileParser.SampleBounds | integration-service/src/main/java/com/example/integrationservice/service/FileParserService.java:155-159 | A larger sample extends a smaller one, and a sample at least as large as the rows is all of them |
| Tenancy.IsValidTenant | product-service/src/main/java/com/example/productservice/security/TenantValidator.java:20-26 | True exactly when the id is non-null, 1 to 50 characters long and every character is in [a-zA-Z0-9_-]; null, "" and blank ids are false |
| Tenancy.BlankCheckSubsumed | product-service/src/main/java/com/example/productservice/security/TenantValidator.java:21-25 | For a non-null id the explicit blank pre-check changes nothing: the result equals the full match of the pattern `[a-zA-Z0-9_-]{1,50}` |
| Tenancy.TenantIdExamples | product-service/src/main/java/com/example/productservice/security/TenantValidator.java:20-26 | "a", "tenant-1", "TENANT_A" and 50 × 'a' are valid; null, "", "   ", ids with '@', '#' or '.', and 51 × 'a' are not |
| Tenancy.ValidateTenantId | product-service/src/main/java/com/example/productservice/security/TenantValidator.java:36-43 | Fails exactly when `IsValidTenant` is false, and then with the "Invalid tenant ID format…" message; otherwise has no effect |
| Tenancy.SetTenant | src/main/java/com/example/productservice/security/TenantContext.java:10-14 | A non-null tenant replaces the cell's value; a null one leaves the cell as it was |
| Tenancy.ClearTenant | src/main/java/com/example/productservice/security/TenantContext.java:20-22 | After `clear` the cell holds no tenant |
| Tenancy.CurrentTenantId | product-service/src/main/java/com/example/productservice/security/TenantProvider.java:9-15 | Returns the context value exactly when it is non-null and not blank; otherwise fails with "Tenant ID is not set in context…" |
| Tenancy.TenantIdOrNull | product-service/src/main/java/com/example/productservice/security/TenantProvider.java:17-19 | Returns the context value verbatim, null and blank included, and never fails |
| Tenancy.ContextLifeCycle | src/main/java/com/example/productservice/security/TenantContext.java:4-22 | A set tenant is read back; `set(null)` keeps the previous value; `clear` after `set` reads back null; a fresh context makes the strict reader fail |
| Tenancy.ReadersAgree | product-service/src/main/java/com/example/productservice/security/TenantProvider.java:9-19 | When the strict reader succeeds both readers agree; a blank "   " tenant fails the strict reader but is returned by the lenient one |
| Tenancy.ValidTenantIsCurrent | product-service/src/main/java/com/example/productservice/security/TenantProvider.java:9-15 | A tenant that passes validation and is set in the context is what the strict reader returns |
| Tenancy.FillTenant | src/main/java/com/example/productservice/listener/TenantEntityListener.java:13-18 | The persist/update hook keeps an entity's own tenant; a null one becomes the context tenant, which may itself be null or blank |
| ErrorHandling.ConflictOf | src/main/java/com/example/productservice/exception/ConflictException.java:12-15 | A conflict raised with a message only carries the code "CONFLICT" |
| ErrorHandling.TenantMissingDefault | src/main/java/com/example/productservice/exception/TenantMissingException.java:4-6 | The no-argument tenant-missing exception is of the tenant-missing class and carries "Tenant ID is required. Please provide X-Tenant-Id header." |
| ErrorHandling.ResolveHandler | product-service/src/main/java/com/example/productservice/controller/GlobalExceptionHandler.java:27-188 | The handler chosen for a class is a declared handler on the way up the class hierarchy, and a class with its own handler gets that handler |
| ErrorHandling.UnhandledFallToRoot | product-service/src/main/java/com/example/productservice/controller/GlobalExceptionHandler.java:177-188 | Illegal-state, unreadable-body, data-access, other runtime and servlet exceptions all reach the catch-all `Exception` handler |
| ErrorHandling.FieldErrorMap | product-service/src/main/java/com/example/productservice/controller/GlobalExceptionHandler.java:57-60 | The field map's keys are exactly the failing fields; each field maps to the message of its last failure |
| ErrorHandling.Handle | product-service/src/main/java/com/example/productservice/controller/GlobalExceptionHandler.java:27-188 | In every branch the body's status equals the HTTP status and the path is the request URI; the answer is 500 exactly when the catch-all handles it, and then carries "INTERNAL_SERVER_ERROR" and the fixed text; only validation failures carry a field map |
| ErrorHandling.ClientErrorTable | product-service/src/main/java/com/example/productservice/controller/GlobalExceptionHandler.java:27-51 | Product-not-found and resource-not-found give 404 with their own codes; unauthorized gives 401; tenant-missing and illegal-argument give 400; each passes its message through |
| ErrorHandling.OwnCodeTable | product-service/src/main/java/com/example/productservice/controller/GlobalExceptionHandler.java:86-110 | Business failures give 400 and conflicts give 409, each with the code and message it carries |
| ErrorHandling.ServerErrorTable | product-service/src/main/java/com/example/productservice/controller/GlobalExceptionHandler.java:177-188 | Illegal-state, unreadable-body, translated data-access and any other runtime exception give 500 "INTERNAL_SERVER_ERROR" with the fixed text, whatever their message |
| ErrorHandling.RoutingErrors | product-service/src/main/java/com/example/productservice/controller/GlobalExceptionHandler.java:138-162 | An unsupported method gives 405 "METHOD_NOT_ALLOWED" and an unknown endpoint 404 "ENDPOINT_NOT_FOUND", each with a fixed text |
| ErrorHandling.ProductNotFoundTakesPrecedence | product-service/src/main/java/com/example/productservice/controller/GlobalExceptionHandler.java:27-51 | Product-not-found is a resource-not-found with a handler of its own, and its own code wins over the parent's |
| ErrorHandling.ArgumentNotValidBody | product-service/src/main/java/com/example/productservice/controller/GlobalExceptionHandler.java:53-70 | Bean-validation failures give 400 "VALIDATION_ERROR", the text "Validation failed" and one map entry per failing field |
| ErrorHandling.ConflictDefaultCode | product-service/src/main/java/com/example/productservice/controller/GlobalExceptionHandler.java:99-110 | A conflict raised without a code answers 409 with the code "CONFLICT" and its message |
| TenantFilters.CheckedRun | product-service/src/main/java/com/example/productservice/filter/TenantFilter.java:44-64 | The header check and the validated run: a missing or blank header answers 400 "TENANT_MISSING" without the chain and leaves the context alone; an invalid id answers 400 "INVALID_TENANT_ID" with the validator's message and clears the context; a valid id runs the chain exactly once with that tenant and clears the context afterwards; an illegal-argument failure of the chain is reported as "INVALID_TENANT_ID" |
| TenantFilters.DoFilter | product-service/src/main/java/com/example/productservice/filter/TenantFilter.java:33-86 | A URI on the static-asset skip list goes to the chain once with the context untouched and no header check; any other URI follows the header decision table |
| TenantFilters.LegacyDoFilter | src/main/java/com/example/productservice/filter/TenantFilter.java:33-58 | The older filter applies the header decision table to every URI: missing header 400 "TENANT_MISSING", invalid id 400 "INVALID_TENANT_ID", valid id one chain run and a cleared context |
| TenantFilters.FiltersAgreeOffTheSkipList | product-service/src/main/java/com/example/productservice/filter/TenantFilter.java:39-42 | Off the skip list the two filter generations behave identically; on it, a request without a header reaches the chain in the newer filter and not in the older one |
| TenantFilters.ChainSeesValidTenant | product-service/src/main/java/com/example/productservice/filter/TenantFilter.java:53-57 | During the chain run the context holds the valid tenant, and the strict reader returns it |
| TenantFilters.DownstreamIllegalArgumentLooksLikeBadTenant | product-service/src/main/java/com/example/productservice/filter/TenantFilter.java:53-61 | An illegal-argument exception from the downstream chain is answered as "INVALID_TENANT_ID" after the chain ran once |
| TenantFilters.SkippedExamples | product-service/src/main/java/com/example/productservice/filter/TenantFilter.java:67-86 | "/", "/index.html", "/static/…", "/favicon.ico", a ".woff2" font and any ".css" path skip the tenant check |
| TenantFilters.ApiPathChecked | product-service/src/main/java/com/example/productservice/filter/TenantFilter.java:67-86 | "/api/products" is not on the skip list |
| TenantFilters.MissingHeaderAnswersLikeTheAdvice | product-service/src/main/java/com/example/productservice/filter/TenantFilter.java:46-51 | The filter's own answer to a missing or blank header is exactly the body the advice gives the default tenant-missing exception: 400, "TENANT_MISSING", the same text and the same path |
| Products.NewProduct | product-service/src/main/java/com/example/productservice/model/Product.java:45-49 | The (name, price) constructor sets only name, price and eventTime; every other field is null |
| Products.History | product-service/src/main/java/com/example/productservice/kafka/HistoryBuilder.java:13-24 | The history copies name, description, category, price, stockQuantity, eventType and eventTime; its originalProductId is the source's id; its own id and tenantId are unset |
| Products.HistoryAs | product-service/src/main/java/com/example/productservice/kafka/HistoryBuilder.java:26-31 | The two-argument copy carries the given event type and the current time, has no id and no tenant, points back at the source's id, and keeps the five catalogue fields |
| Products.HistoryBuildersAgree | product-service/src/main/java/com/example/productservice/kafka/HistoryBuilder.java:13-31 | Both overloads keep the five catalogue fields and the original id, and differ from each other only in eventType and eventTime |
| Products.WithListenerTenant | src/main/java/com/example/productservice/listener/TenantEntityListener.java:13-18 | The listener changes at most tenantId: a set tenantId is kept, an unset one becomes the context tenant |
| Products.ListenerIdempotent | src/main/java/com/example/productservice/listener/TenantEntityListener.java:13-18 | Running the listener twice is running it once, and once a tenant is filled in no later context changes it |
| Products.CopyCatalogueFields | src/main/java/com/example/productservice/service/ProductService.java:66-70 | The update copies exactly name, description, category, price and stockQuantity and keeps the id, tenant, original id, event type and event time |
| ProductStore.PositionOf | src/main/java/com/example/productservice/repository/ProductRepository.java:16-17 | The position found holds a row with the id; no position means no row has it |
| ProductStore.FindCurrentProductsByTenant | src/main/java/com/example/productservice/repository/ProductRepository.java:13-14 | Exactly the tenant's rows whose event type is null or "CREATED" |
| ProductStore.FindAllByTenantId | src/main/java/com/example/productservice/repository/ProductRepository.java:19-20 | Exactly the tenant's rows, whatever their event type |
| ProductStore.FindByIdAndTenantId | src/main/java/com/example/productservice/repository/ProductRepository.java:16-17 | Present exactly when a row has the id and belongs to the tenant, and then it is that row; a null id matches nothing |
| ProductStore.InsertKeepsOrder | src/main/java/com/example/productservice/repository/ProductRepository.java:11 | Inserting a row by event time keeps a list newest first |
| ProductStore.SortNewestFirst | src/main/java/com/example/productservice/repository/ProductRepository.java:11 | A permutation of its input, ordered by event time descending, rows without a time last |
| ProductStore.FindHistory | src/main/java/com/example/productservice/repository/ProductRepository.java:11 | Exactly the rows with the original id and the tenant, newest first |
| ProductStore.SaveFrame | src/main/java/com/example/productservice/service/ProductService.java:55 | Saving keeps every row whose id differs from the saved row's and adds the saved row; a row without an id, or with one the table lacks, lands under the next id and grows the table by one, while a known id keeps the size |
| ProductStore.Save | src/main/java/com/example/productservice/service/ProductService.java:55 | The listener runs first; a row with an existing id is replaced in place; any other row is appended under the next id; the table stays well formed and the saved row is returned |
| ProductStore.DeleteById | src/main/java/com/example/productservice/service/ProductService.java:86 | A null id fails with "The given id must not be null"; otherwise exactly the row with the id is removed, and a missing id changes nothing |
| ProductStore.QueriesStayInTenant | src/main/java/com/example/productservice/repository/ProductRepository.java:11-20 | No query returns a row of another tenant, and the current rows and the by-id row are among the tenant's rows |
| ProductStore.SavedRowIsFound | src/main/java/com/example/productservice/repository/ProductRepository.java:16-17 | A row saved under a tenant is found by its id under that tenant and under no other |
| ProductServices.GetAllProducts | src/main/java/com/example/productservice/service/ProductService.java:33-36 | Fails exactly when no non-blank tenant is set; otherwise returns exactly the tenant's current rows |
| ProductServices.GetProductById | src/main/java/com/example/productservice/service/ProductService.java:38-42 | Returns the row exactly when the id exists and belongs to the current tenant; otherwise "Product with id <id> not found", so another tenant's row looks absent |
| ProductServices.GetProductHistory | src/main/java/com/example/productservice/service/ProductService.java:44-49 | Exactly the current tenant's rows whose original id is the id, newest first |
| ProductServices.CreateProduct | src/main/java/com/example/productservice/service/ProductService.java:51-58 | The saved product is the input with event type "CREATED" and the given time; its tenant comes from the listener; it is stored and published; every other row survives, and a product without an id is appended under the next id |
| ProductServices.UpdateProduct | src/main/java/com/example/productservice/service/ProductService.java:60-76 | Fails, saving nothing, exactly when the id is not the current tenant's; otherwise the table holds exactly the other rows, the row with the five catalogue fields overwritten under the same id, and an "UPDATED" history copy of the old row under the next id; the row is published |
| ProductServices.UpdatedProductReadsBack | src/main/java/com/example/productservice/service/ProductService.java:60-76 | After an update the tenant reads the row back with the new catalogue fields, and its history holds the "UPDATED" copy of the old row |
| ProductServices.DeleteProduct | src/main/java/com/example/productservice/service/ProductService.java:78-88 | Fails, changing nothing, exactly when the id is not the current tenant's; otherwise the table loses exactly that row and gains a "DELETED" history copy, which is published |
| ProductServices.ProcessProductEvent | src/main/java/com/example/productservice/service/ProductService.java:90-120 | CREATED saves the event; UPDATED changes nothing without a known tenant; DELETED deletes by id without a tenant check, and a null id is refused by the repository, whose proxy reports it as a data-access failure (not an illegal argument); any other type changes nothing; a null type fails |
| ProductServices.UpdatedEventTouchesOwnedRowOnly | src/main/java/com/example/productservice/service/ProductService.java:101-113 | An UPDATED event changes nothing unless the row belongs to the known tenant, and then overwrites exactly its five catalogue fields |
| ProductServices.HandleProductEvent | src/main/java/com/example/productservice/service/ProductService.java:116-138 | The class is transactional, so the call is one transaction. A null event writes nothing; otherwise a history row is saved first, and the event is processed only if asked; a null event type is swallowed and keeps the history row; a DELETED event without an id fails inside the repository's transactional `deleteById`, which marks the shared transaction rollback-only: the catch swallows the failure, the commit undoes the history write, and Spring's unexpected-rollback failure escapes; this is the only failing case |
| ProductServices.CreatedProductIsVisibleToItsTenantOnly | src/main/java/com/example/productservice/service/ProductService.java:33-58 | A created product is found by id and listed for its tenant, and is not found by another tenant |
| ProductServices.DeletedProductIsGone | src/main/java/com/example/productservice/service/ProductService.java:78-88 | After a delete the id is no longer found, and the "DELETED" copy is in the id's history |
| ProductServices.UnprocessedEventOnlyRecordsHistory | src/main/java/com/example/productservice/service/ProductService.java:126-134 | An event that is not processed leaves every existing row and appends exactly one row |
| ProductServices.ServiceFailuresAsAnswered | src/main/java/com/example/productservice/service/ProductService.java:38-42 | A missing tenant reaches the client as 500; a missing product as 404 "PRODUCT_NOT_FOUND" with the not-found message |
| ProductSearch.PercentMatchesAll | product-service/src/main/java/com/example/productservice/repository/ProductSpecification.java:30-36 | The `LIKE` pattern "%" matches every text |
| ProductSearch.LiteralThenPercent | product-service/src/main/java/com/example/productservice/repository/ProductSpecification.java:30-36 | For a pattern without wildcards w, "w%" matches exactly the texts starting with w |
| ProductSearch.PercentThen | product-service/src/main/java/com/example/productservice/repository/ProductSpecification.java:30-36 | "%q" matches exactly when q matches some suffix of the text |
| ProductSearch.LikeIsContains | product-service/src/main/java/com/example/productservice/repository/ProductSpecification.java:30-36 | For a pattern without wildcards w, "%w%" matches exactly the texts containing w |
| ProductSearch.Search | product-service/src/main/java/com/example/productservice/repository/ProductSpecification.java:19-60 | A row is found exactly when the tenant matches, the event type is null or "CREATED", the lower-cased name or description is `LIKE` the search, the category is equal, and every non-null bound holds inclusively |
| ProductSearch.EmptyFilterIsCurrentListing | product-service/src/main/java/com/example/productservice/repository/ProductSpecification.java:21-58 | A filter without criteria finds exactly what the current-products query returns |
| ProductSearch.NarrowerFilterFindsLess | product-service/src/main/java/com/example/productservice/repository/ProductSpecification.java:21-58 | Adding a criterion never enlarges the result, and every hit is a current row of the tenant |
| ProductSearch.LiteralSearchIsSubstring | product-service/src/main/java/com/example/productservice/repository/ProductSpecification.java:30-36 | A search text without '%' or '_' finds the rows whose lower-cased name or description contains it |
| ProductSearch.PercentSearchFindsAll | product-service/src/main/java/com/example/productservice/repository/ProductSpecification.java:31 | The search text "%" is not escaped and matches every name |
| ProductSearch.UnderscoreMatchesOneChar | product-service/src/main/java/com/example/productservice/repository/ProductSpecification.java:31 | The search text "a_c" is not escaped: '_' matches exactly one character |
| ProductSearch.UnderscoreHit | product-service/src/main/java/com/example/productservice/repository/ProductSpecification.java:31 | "a_c%" matches "abcx" |
| ProductSearch.DirectionOf | product-service/src/main/java/com/example/productservice/repository/SortBuilder.java:34-36 | Descending exactly when the order equals "desc" ignoring case; any other text gives ascending |
| ProductSearch.SortBy | product-service/src/main/java/com/example/productservice/repository/SortBuilder.java:38 | A single order on the property; a blank property is refused with "Property must not be null or empty" |
| ProductSearch.BuildSort | product-service/src/main/java/com/example/productservice/repository/SortBuilder.java:26-39 | One order on the sort property, "name" when null, descending exactly when the order equals "desc" ignoring case and ascending when null; fails exactly on a blank property, with Spring's "Property must not be null or empty" |
| ProductSearch.LegacyBuildSort | src/main/java/com/example/productservice/repository/SortBuilder.java:13-22 | One order on the sort property, "name" when null, descending exactly when the order equals "desc" ignoring case; fails exactly on a blank property, with Spring's "Property must not be null or empty" |
| ProductSearch.SortBuildersAgree | src/main/java/com/example/productservice/repository/SortBuilder.java:13-22 | The two sort-builder generations give the same result on every filter |
| ProductSearch.SortExamples | product-service/src/main/java/com/example/productservice/repository/SortBuilder.java:26-39 | The builder defaults give name ascending; "DESC" gives descending; "descending" gives ascending; an unknown property passes through; a blank one is refused |
| Validation.NotBlankMeaning | src/main/java/com/example/productservice/dto/ProductRequestDTO.java:16-26 | `@NotBlank` holds exactly for a non-null text with a character above ' ' |
| Validation.FailsAppend | src/main/java/com/example/productservice/dto/ProductRequestDTO.java:16-35 | A field fails in a list of violations exactly when it fails in one of its parts |
| Validation.TextErrors | src/main/java/com/example/productservice/dto/ProductRequestDTO.java:16-26 | No violation exactly when the text is present, not blank and within its length bound; every violation names the field |
| Validation.RequestViolations | src/main/java/com/example/productservice/dto/ProductRequestDTO.java:16-35 | No violation exactly when the request is valid; each field fails exactly when its own constraints fail: name, description, category non-blank within 255, 2000 and 100 characters, price present and above 0, stock present and at least 0 |
| Validation.PriceErrors | src/main/java/com/example/productservice/dto/ProductRequestDTO.java:28-29 | The price has no violation exactly when it is present and strictly positive |
| Validation.StockErrors | src/main/java/com/example/productservice/dto/ProductRequestDTO.java:33-35 | The stock has no violation exactly when it is present and at least 0 |
| Validation.SeveralFieldsFailTogether | src/main/java/com/example/productservice/dto/ProductRequestDTO.java:16-35 | A request with blank name and category, price -10 and stock -5 reports exactly those four fields in the error map |
| Validation.RequestBoundaries | src/main/java/com/example/productservice/dto/ProductRequestDTO.java:28-35 | Price 0.0 and -1.5 are rejected, stock 0 is accepted and -10 rejected, a blank or missing name is rejected |
| Validation.EntityViolations | product-service/src/main/java/com/example/productservice/model/Product.java:24-39 | No violation exactly when the entity is valid; only the five catalogue fields are ever named; name, description, category, price and stock each fail exactly when their own constraint fails |
| Validation.ViolationsFollowCatalogueFields | product-service/src/main/java/com/example/productservice/model/Product.java:24-43 | The entity's violations depend only on its five catalogue fields |
| Validation.ValidRequestMakesValidEntity | product-service/src/main/java/com/example/productservice/model/Product.java:24-39 | A valid request copied into an entity gives a valid entity |
| Validation.HistoryCopyStaysValid | product-service/src/main/java/com/example/productservice/kafka/HistoryBuilder.java:13-31 | A history copy of a valid entity is valid |
| Validation.ShortConstructorIsInvalid | product-service/src/main/java/com/example/productservice/model/Product.java:45-49 | The (name, price) constructor never gives a valid entity: the stock is missing |
| Validation.CriteriaViolations | product-service/src/main/java/com/example/productservice/dto/ProductFilterDTO.java:16-32 | No violation exactly when search is at most 255 and category at most 100 characters, and every present bound is at least 0 |
| Validation.PagingViolations | product-service/src/main/java/com/example/productservice/dto/ProductFilterDTO.java:34-50 | No violation exactly when the sort property is one of the four sortable ones, the order is exactly "asc" or "desc", page is at least 0 and size is in 1..100, nulls passing |
| Validation.FilterViolations | product-service/src/main/java/com/example/productservice/dto/ProductFilterDTO.java:16-50 | No violation exactly when every filter constraint holds; each violation names a filter field |
| Validation.DefaultFilterIsValid | product-service/src/main/java/com/example/productservice/dto/ProductFilterDTO.java:36-50 | The builder defaults (sort "name", order "asc", page 0, size 20) satisfy every constraint |
| Validation.ValidFilterSorts | product-service/src/main/java/com/example/productservice/dto/ProductFilterDTO.java:34-41 | A valid filter always sorts, on a sortable property, descending exactly when the order is "desc" |
| Validation.OrderCaseDisagreement | product-service/src/main/java/com/example/productservice/dto/ProductFilterDTO.java:39-41 | "DESC" fails the filter's case-sensitive check although the sort builder accepts it as descending |
| Validation.CrossedBoundsFindNothing | product-service/src/main/java/com/example/productservice/dto/ProductFilterDTO.java:22-26 | Nothing requires minPrice ≤ maxPrice, and a valid filter with crossed price bounds finds no row |

## Left out

- The HTTP surface: both controllers, the servlet writing of the filter's error body, and the random error id and timestamp of every error body. The filter's answer is modelled as the status, code, message and path it would write.
- The prompt's fixed instruction wording is reproduced verbatim, but no lemma reasons about what the wording says; only where the arguments land in it is stated.
- The sampling temperature 0.3 sent to the generation endpoint is floating-point configuration with no effect on the logic and is not part of the request datatype.
- The real generation call, Jackson, Apache Commons CSV and the XML mapper are parameters (`Codec`, `Readers`, the endpoint function). Nothing about their behaviour is assumed beyond what each lemma requires.
- `exportToJSON` is a single call of Jackson's pretty printer and has nothing of its own to model.
- Kafka plumbing (consumers, producers, topics) is left out. Publishing is modelled as the `published` list of a write, and the topic-routing flag is the `processEvent` parameter.
- Clocks, UUIDs and elapsed times are inputs (`Stamp`, `now`, `batchId`, `mappingId`).
- Logging is left out everywhere; no modelled branch depends on it. The one exception is that the JSON reader's log line dereferences the parsed value, so a JSON `null` top level fails with a message-less NullPointerException, which `FileParser.JsonRows` models.
- `ThreadLocal` per-thread isolation: the tenant context is one explicit cell passed in and out.
- The JVM's helpful NullPointerException texts are not modelled: a NullPointerException carries no message. This matters for the batch loop, where a message-less exception makes `Map.of` throw and abort the batch (`BatchMapping.MapBatch` reports the row).
- Characters are Dafny `char`s, not UTF-16 code units. Lower-casing is ASCII only. That is exact for the file-suffix test and the `desc` comparison, where the only non-ASCII case, 'ſ' (U+017F) upper-casing to 'S', is modelled explicitly. For the search `LIKE`, the database's non-ASCII case folding is not modelled.
- The product store keeps rows in a sequence in ascending id order, not in a map. The listing order of queries without `ORDER BY` is unspecified in the source, and the model uses id order. In the history query the model sorts rows without an event time last; where the database puts nulls in a descending sort depends on the vendor and is not modelled.
- ProductStore.Save: never fails. The NOT NULL tenant column and bean validation on persist are not modelled, nor is the rollback a failing save would cause, so a save without a tenant succeeds in the model where the database would refuse it. Hibernate's treatment of a detached entity with an unknown id (a merge that inserts under a fresh id) is modelled as an insert.
- ProductStore.DeleteById: follows Spring Data 3: a missing id is ignored, and a null id is refused with "The given id must not be null". The repository itself raises an illegal-argument failure; the caller sees what the repository proxy translates it to, a data-access failure (`InvalidDataAccessApiUsageException`), which is how the service model reports it.
- ProductServices.GetProductById: takes the id as a number; a null id, which the controller cannot produce from a path variable, is not modelled there.
- The top-level `Product` entity has no tenantId field, although the top-level service and repository query one. The model uses the product-service entity, which inherits the tenant column, for both generations.
- The classes of exceptions not shown in the source (`ResourceNotFoundException`, `BusinessException`, `UnauthorizedException`, `ValidationException`) are assumed to extend `RuntimeException`, and `ProductNotFoundException` to extend `ResourceNotFoundException`, as the handler precedence requires.
- Paging (`page`, `size`) is validated but not applied to search results, and search results are returned in table order rather than the database's sorted order. The sort builders' result is modelled on its own.
- The `LIKE` pattern is modelled with '%' and '_' as wildcards and no escape character; a backslash in the search text is taken literally.
- `@Digits(integer = 10, fraction = 2)` on the request price is left out. Prices are reals compared only by order, and floating-point behaviour is not modelled.
- Validation.RequestViolations: when one field fails two constraints at once, the order in which the validator reports them is unspecified. The model reports them in declaration order, so the field map keeps the last declared failure.
- JSON objects are ordered lists of key/value pairs, as Jackson's `LinkedHashMap` keeps them. Duplicate keys are not modelled.
- The unchecked cast in the JSON reader, which accepts arrays whose items are not objects, is kept: rows are JSON values. A null row in a batch is not modelled.
- The Lombok no-argument constructors and setters are modelled by the entity's fields being optional; only the (name, price) constructor has a member of its own.

=== FILE: batch.dfy ===
/** `BatchMappingService`: the row-by-row mapping loop with its success and
    failure accounting, and the CSV export of mapped rows. */
module BatchMapping {
  import opened Wrappers
  import opened Text
  import opened Json
  import opened AiMapping

  /** The id and clock readings one `mapData` call draws for itself. */
  datatype Stamp = Stamp(mappingId: string, processedAt: int, elapsedMs: int)

  /** One entry of `errors`: the `row_index` and `error` entries. */
  datatype RowError = RowError(rowIndex: string, error: string)

  datatype BatchResult = BatchResult(
    batchId: string,
    fileName: string,
    totalRowsProcessed: int,
    successfulMappings: int,
    failedMappings: int,
    mappedData: seq<seq<Field>>,
    errors: Option<seq<RowError>>,
    processingTimeMs: int,
    processedAt: int,
    downloadUrl: string)

  /** A batch either returns its result or is cut short at a row whose
      caught exception had a null message, which `Map.of` refuses with a
      NullPointerException that escapes the loop. */
  datatype BatchOutcome = Completed(result: BatchResult) | Aborted(row: nat)

  const UnknownError: string := "Unknown error"

  function DownloadUrl(batchId: string): string {
    "/api/integration/batch/" + batchId + "/download"
  }

  /** The request built for one row: the row itself as source data, and the
      batch-wide schema text, target schema and rules. */
  function RowRequest(row: seq<Field>, schemaText: string, targetSchema: Option<string>, mappingRules: Option<string>)
    : (q: MappingRequest)
    ensures q.sourceData == Some(row) && q.sourceSchema == Some(schemaText)
    ensures q.targetSchema == targetSchema && q.mappingRules == mappingRules && q.targetSample.None?
  {
    MappingRequest(Some(row), Some(schemaText), targetSchema, mappingRules, None)
  }

  /** What one row contributes. */
  datatype RowResult = Mapped(data: seq<Field>) | RowFailed(error: string) | Escaped

  /** What one row contributes, stated through the mapper's response: a
      schema serialisation failure without a message escapes the loop, one
      with a message fails the row; otherwise the row maps exactly when the
      mapper answers SUCCESS, and a failure records the mapper's message or
      "Unknown error". */
  predicate RowOutcome(svc: Service, schema: Json, targetSchema: Option<string>, mappingRules: Option<string>,
                       row: seq<Field>, st: Stamp, r: RowResult)
  {
    && (r.Escaped? <==> svc.codec.write(schema) == Err(None))
    && (svc.codec.write(schema).Err? && svc.codec.write(schema).error.Some? ==>
          r == RowFailed(svc.codec.write(schema).error.value))
    && (svc.codec.write(schema).Ok? ==>
          var resp := MapData(svc, RowRequest(row, svc.codec.write(schema).value, targetSchema, mappingRules),
                              st.mappingId, st.processedAt, st.elapsedMs);
          && (r.Mapped? <==> resp.status == Success)
          && (r.Mapped? ==> Some(r.data) == resp.mappedData)
          && (r.RowFailed? ==> r.error == resp.errorMessage.GetOr(UnknownError)))
  }

  /** The outcome description leaves no freedom: two results that both meet
      it are the same. */
  lemma RowOutcomeUnique(svc: Service, schema: Json, targetSchema: Option<string>, mappingRules: Option<string>,
                         row: seq<Field>, st: Stamp, a: RowResult, b: RowResult)
    requires RowOutcome(svc, schema, targetSchema, mappingRules, row, st, a)
    requires RowOutcome(svc, schema, targetSchema, mappingRules, row, st, b)
    ensures a == b
  {
  }

  /** Reference meaning of one loop iteration: serialise the schema, map the
      row, and classify the response. */
  function RunRow(svc: Service, schema: Json, targetSchema: Option<string>, mappingRules: Option<string>,
                  row: seq<Field>, st: Stamp): (r: RowResult)
    ensures RowOutcome(svc, schema, targetSchema, mappingRules, row, st, r)
  {
    match svc.codec.write(schema)
    case Err(None) => Escaped
    case Err(Some(m)) => RowFailed(m)
    case Ok(schemaText) =>
      var resp := MapData(svc, RowRequest(row, schemaText, targetSchema, mappingRules),
                          st.mappingId, st.processedAt, st.elapsedMs);
      if resp.status == Success then Mapped(resp.mappedData.value)
      else RowFailed(resp.errorMessage.GetOr(UnknownError))
  }

  function RowResults(svc: Service, rows: seq<seq<Field>>, schema: Json, targetSchema: Option<string>,
                      mappingRules: Option<string>, stamp: nat -> Stamp): (rs: seq<RowResult>)
    ensures |rs| == |rows|
    ensures forall i :: 0 <= i < |rows| ==> rs[i] == RunRow(svc, schema, targetSchema, mappingRules, rows[i], stamp(i))
  {
    seq(|rows|, i requires 0 <= i < |rows| => RunRow(svc, schema, targetSchema, mappingRules, rows[i], stamp(i)))
  }

  predicate NoneEscaped(rs: seq<RowResult>) {
    forall i :: 0 <= i < |rs| ==> !rs[i].Escaped?
  }

  /** The loop's counters and lists. */
  datatype Tally = Tally(successes: nat, failures: nat, mapped: seq<seq<Field>>, errors: seq<RowError>)

  /** Reference accounting over the results of the rows processed so far. */
  function TallyOf(rs: seq<RowResult>): Tally
    requires NoneEscaped(rs)
    decreases |rs|
  {
    if |rs| == 0 then Tally(0, 0, [], [])
    else
      var t := TallyOf(rs[..|rs| - 1]);
      match rs[|rs| - 1]
      case Mapped(d) => t.(successes := t.successes + 1, mapped := t.mapped + [d])
      case RowFailed(e) => t.(failures := t.failures + 1, errors := t.errors + [RowError(NatToDecimal(|rs| - 1), e)])
  }

  /** Positions of the failed rows, in increasing order. */
  function FailedPositions(rs: seq<RowResult>): (ps: seq<nat>)
    decreases |rs|
    ensures forall j :: 0 <= j < |ps| ==> ps[j] < |rs| && rs[ps[j]].RowFailed?
    ensures forall j, k :: 0 <= j < k < |ps| ==> ps[j] < ps[k]
  {
    if |rs| == 0 then []
    else
      var ps := FailedPositions(rs[..|rs| - 1]);
      if rs[|rs| - 1].RowFailed? then ps + [|rs| - 1] else ps
  }

  /** Results of the successful rows, in input order. */
  function SuccessfulData(rs: seq<RowResult>): seq<seq<Field>>
    decreases |rs|
  {
    if |rs| == 0 then []
    else
      var ds := SuccessfulData(rs[..|rs| - 1]);
      if rs[|rs| - 1].Mapped? then ds + [rs[|rs| - 1].data] else ds
  }

  /** Each row bumps exactly one counter, and each list grows with its
      counter. */
  lemma {:induction false} TallyCounts(rs: seq<RowResult>)
    requires NoneEscaped(rs)
    ensures var t := TallyOf(rs);
      && t.successes + t.failures == |rs|
      && |t.mapped| == t.successes
      && |t.errors| == t.failures
    decreases |rs|
  {
    if |rs| > 0 {
      var init := rs[..|rs| - 1];
      assert NoneEscaped(init) by {
        forall i | 0 <= i < |init| ensures !init[i].Escaped? {
          assert init[i] == rs[i];
        }
      }
      TallyCounts(init);
    }
  }

  /** Each row bumps exactly one counter; `mappedData` holds the successful
      rows' objects in order; `errors` has one entry per failed row, whose
      `row_index` is that row's decimal position and whose `error` is its
      message. */
  lemma {:induction false} TallyAccounting(rs: seq<RowResult>)
    requires NoneEscaped(rs)
    ensures var t := TallyOf(rs);
      && t.successes + t.failures == |rs|
      && t.mapped == SuccessfulData(rs)
      && |t.mapped| == t.successes
      && |t.errors| == t.failures == |FailedPositions(rs)|
      && forall j :: 0 <= j < |t.errors| ==>
           t.errors[j] == RowError(NatToDecimal(FailedPositions(rs)[j]), rs[FailedPositions(rs)[j]].error)
    decreases |rs|
  {
    if |rs| > 0 {
      var init := rs[..|rs| - 1];
      assert NoneEscaped(init) by {
        forall i | 0 <= i < |init| ensures !init[i].Escaped? {
          assert init[i] == rs[i];
        }
      }
      TallyAccounting(init);
      var ps := FailedPositions(init);
      forall j | 0 <= j < |ps| ensures rs[ps[j]] == init[ps[j]] {
      }
    }
  }

  /** One more row extends the tally by exactly one counter and at most
      one list entry. */
  lemma TallyStep(rs: seq<RowResult>, i: nat)
    requires i < |rs| && NoneEscaped(rs[..i]) && !rs[i].Escaped?
    ensures NoneEscaped(rs[..i + 1])
    ensures var t := TallyOf(rs[..i]);
      TallyOf(rs[..i + 1]) == match rs[i]
        case Mapped(d) => t.(successes := t.successes + 1, mapped := t.mapped + [d])
        case RowFailed(e) => t.(failures := t.failures + 1, errors := t.errors + [RowError(NatToDecimal(i), e)])
  {
    assert rs[..i + 1][..i] == rs[..i];
    var p := rs[..i + 1];
    assert NoneEscaped(p) by {
      forall k | 0 <= k < |p| ensures !p[k].Escaped? {
        if k < i {
          assert p[k] == rs[..i][k];
        }
      }
    }
  }

  /** The `row_index` entries are pairwise distinct. */
  lemma RowIndicesDistinct(rs: seq<RowResult>, j: nat, k: nat)
    requires NoneEscaped(rs)
    requires j < k < |TallyOf(rs).errors|
    ensures TallyOf(rs).errors[j].rowIndex != TallyOf(rs).errors[k].rowIndex
  {
    TallyAccounting(rs);
    var ps := FailedPositions(rs);
    if NatToDecimal(ps[j]) == NatToDecimal(ps[k]) {
      NatToDecimalInjective(ps[j], ps[k]);
    }
  }

  /** The body of the loop's `try` for one row: serialise the schema, map
      the row, and read the response; `Escaped` when the caught exception
      has no message. */
  method MapRow(svc: Service, schema: Json, targetSchema: Option<string>, mappingRules: Option<string>,
                row: seq<Field>, st: Stamp) returns (res: RowResult)
    ensures RowOutcome(svc, schema, targetSchema, mappingRules, row, st, res)
  {
    match svc.codec.write(schema) {
      case Err(m) =>
        if m.None? {
          return Escaped;
        }
        return RowFailed(m.value);
      case Ok(schemaText) =>
        var response := MapData(svc, RowRequest(row, schemaText, targetSchema, mappingRules),
                                st.mappingId, st.processedAt, st.elapsedMs);
        if response.status == Success {
          return Mapped(response.mappedData.value);
        }
        return RowFailed(if response.errorMessage.Some? then response.errorMessage.value else UnknownError);
    }
  }

  /** The result's counters and lists are the tally's; `errors` is null
      rather than empty when no row failed. */
  predicate Summarises(r: BatchResult, t: Tally, n: nat) {
    && r.totalRowsProcessed == n
    && r.successfulMappings == t.successes && r.failedMappings == t.failures
    && r.mappedData == t.mapped
    && (r.errors.None? <==> t.failures == 0)
    && (r.errors.Some? ==> r.errors.value == t.errors)
  }

  /** `mapBatch`, the loop as written. The batch id, the per-row stamps,
      the finishing clock reading and the elapsed time are inputs. */
  method MapBatch(svc: Service, fileName: string, rows: seq<seq<Field>>, sourceSchema: Json,
                  targetSchema: Option<string>, mappingRules: Option<string>,
                  batchId: string, stamp: nat -> Stamp, processedAt: int, elapsedMs: int)
    returns (out: BatchOutcome)
    ensures out.Completed? <==> NoneEscaped(RowResults(svc, rows, sourceSchema, targetSchema, mappingRules, stamp))
    ensures out.Aborted? ==>
      var rs := RowResults(svc, rows, sourceSchema, targetSchema, mappingRules, stamp);
      out.row < |rows| && rs[out.row].Escaped? && NoneEscaped(rs[..out.row])
    ensures out.Completed? ==>
      var rs := RowResults(svc, rows, sourceSchema, targetSchema, mappingRules, stamp);
      NoneEscaped(rs) && Summarises(out.result, TallyOf(rs), |rows|)
    ensures out.Completed? ==>
      && out.result.batchId == batchId && out.result.fileName == fileName
      && out.result.processingTimeMs == elapsedMs && out.result.processedAt == processedAt
      && out.result.downloadUrl == DownloadUrl(batchId)
  {
    ghost var rs := RowResults(svc, rows, sourceSchema, targetSchema, mappingRules, stamp);
    var mapped: seq<seq<Field>> := [];
    var errors: seq<RowError> := [];
    var successCount: nat := 0;
    var failureCount: nat := 0;
    var i := 0;
    while i < |rows|
      invariant 0 <= i <= |rows|
      invariant NoneEscaped(rs[..i])
      invariant TallyOf(rs[..i]) == Tally(successCount, failureCount, mapped, errors)
    {
      var res := MapRow(svc, sourceSchema, targetSchema, mappingRules, rows[i], stamp(i));
      RowOutcomeUnique(svc, sourceSchema, targetSchema, mappingRules, rows[i], stamp(i), res, rs[i]);
      match res {
        case Escaped =>
          return Aborted(i);
        case Mapped(data) =>
          TallyStep(rs, i);
          mapped := mapped + [data];
          successCount := successCount + 1;
        case RowFailed(message) =>
          TallyStep(rs, i);
          failureCount := failureCount + 1;
          errors := errors + [RowError(NatToDecimal(i), message)];
      }
      i := i + 1;
    }
    assert rs[..|rows|] == rs;
    ghost var t := Tally(successCount, failureCount, mapped, errors);
    assert NoneEscaped(rs) && TallyOf(rs) == t;
    TallyCounts(rs);
    out := Completed(BatchResult(
      batchId, fileName, |rows|, successCount, failureCount, mapped,
      if |errors| == 0 then None else Some(errors),
      elapsedMs, processedAt, DownloadUrl(batchId)));
  }

  // ---------------------------------------------------------------------
  // CSV export

  /** Double every '"', as section 2 rule 7 of RFC 4180 asks inside a
      quoted field. */
  function DoubleQuotes(s: string): (r: string)
    ensures |r| >= |s|
    decreases |s|
  {
    if |s| == 0 then ""
    else (if s[0] == '"' then "\"\"" else [s[0]]) + DoubleQuotes(s[1..])
  }

  /** A value wrapped in quotes with its own quotes doubled. */
  function Quote(s: string): string {
    "\"" + DoubleQuotes(s) + "\""
  }

  /** The text of one CSV value: `toString()`, or empty for null. */
  function CellText(v: Json): string {
    if v.JNull? then "" else Render(v)
  }

  /** One record: the row's values in the row's own key order, quoted and
      joined by ",". */
  function CsvRecord(row: seq<Field>): string {
    Join(",", seq(|row|, k requires 0 <= k < |row| => Quote(CellText(row[k].value))))
  }

  /** The export as lines: the unquoted header of the first row's keys, then
      one record per row, each line ending in "\n". */
  function CsvLines(data: seq<seq<Field>>): (ls: seq<string>)
    requires |data| > 0
    ensures |ls| == |data| + 1
    ensures ls[0] == Join(",", Keys(data[0])) + "\n"
    ensures forall j :: 0 <= j < |data| ==> ls[j + 1] == CsvRecord(data[j]) + "\n"
  {
    [Join(",", Keys(data[0])) + "\n"] + seq(|data|, j requires 0 <= j < |data| => CsvRecord(data[j]) + "\n")
  }

  /** The inner loop of `exportToCSV`: one row's quoted values. */
  method QuotedValues(row: seq<Field>) returns (values: seq<string>)
    ensures Join(",", values) == CsvRecord(row)
  {
    values := [];
    var k := 0;
    while k < |row|
      invariant 0 <= k <= |row|
      invariant values == seq(k, m requires 0 <= m < k => Quote(CellText(row[m].value)))
    {
      values := values + [Quote(CellText(row[k].value))];
      k := k + 1;
    }
  }

  /** One more line appended to the text of the lines before it. */
  lemma ConcatSnoc(lines: seq<string>, i: nat)
    requires i < |lines|
    ensures Concat(lines[..i + 1]) == Concat(lines[..i]) + lines[i]
  {
    assert lines[..i + 1][..i] == lines[..i];
  }

  /** `exportToCSV` as written, with its StringBuilder. */
  method ExportToCsv(data: seq<seq<Field>>) returns (csv: string)
    ensures |data| == 0 ==> csv == ""
    ensures |data| > 0 ==> csv == Concat(CsvLines(data))
    ensures csv == "" <==> |data| == 0
  {
    if |data| == 0 {
      return "";
    }
    ghost var lines := CsvLines(data);
    csv := Join(",", Keys(data[0])) + "\n";
    ConcatSnoc(lines, 0);
    var i := 0;
    while i < |data|
      invariant 0 <= i <= |data|
      invariant csv == Concat(lines[..i + 1])
    {
      var values := QuotedValues(data[i]);
      ConcatSnoc(lines, i + 1);
      csv := csv + (Join(",", values) + "\n");
      i := i + 1;
    }
    assert lines[..|data| + 1] == lines;
    assert |csv| > 0 by {
      ConcatPrefix(lines, 1);
    }
  }

  /** Undo the doubling: a pair of quotes reads as one. */
  function Undouble(s: string): string
    decreases |s|
  {
    if |s| == 0 then ""
    else if |s| >= 2 && s[0] == '"' && s[1] == '"' then "\"" + Undouble(s[2..])
    else [s[0]] + Undouble(s[1..])
  }

  /** Undoubling recovers the original text. */
  lemma {:induction false} UndoubleDoubleQuotes(s: string)
    ensures Undouble(DoubleQuotes(s)) == s
    decreases |s|
  {
    if |s| > 0 {
      UndoubleDoubleQuotes(s[1..]);
      var d := DoubleQuotes(s);
      if s[0] == '"' {
        assert d == "\"\"" + DoubleQuotes(s[1..]);
        assert d[2..] == DoubleQuotes(s[1..]);
      } else {
        assert d == [s[0]] + DoubleQuotes(s[1..]);
        assert d[1..] == DoubleQuotes(s[1..]);
      }
    }
  }

  /** Read one quoted field whose opening quote is already consumed: its
      text and what follows the closing quote. */
  function ReadQuoted(s: string): (r: Option<(string, string)>)
    decreases |s|
    ensures r.Some? ==> |r.value.1| < |s|
  {
    if |s| == 0 then None
    else if s[0] == '"' then
      if |s| >= 2 && s[1] == '"' then
        match ReadQuoted(s[2..])
        case None => None
        case Some((v, rest)) => Some(("\"" + v, rest))
      else Some(("", s[1..]))
    else
      match ReadQuoted(s[1..])
      case None => None
      case Some((v, rest)) => Some(([s[0]] + v, rest))
  }

  /** Read a record of quoted fields separated by ",". */
  function ReadRecord(s: string): Option<seq<string>>
    decreases |s|
  {
    if |s| == 0 || s[0] != '"' then None
    else
      match ReadQuoted(s[1..])
      case None => None
      case Some((v, rest)) =>
        if |rest| == 0 then Some([v])
        else if rest[0] != ',' then None
        else
          match ReadRecord(rest[1..])
          case None => None
          case Some(vs) => Some([v] + vs)
  }

  /** A doubled field followed by its closing quote reads back exactly. */
  lemma {:induction false} ReadQuotedDoubled(v: string, rest: string)
    requires |rest| == 0 || rest[0] != '"'
    ensures ReadQuoted(DoubleQuotes(v) + "\"" + rest) == Some((v, rest))
    decreases |v|
  {
    var s := DoubleQuotes(v) + "\"" + rest;
    if |v| == 0 {
      assert s == "\"" + rest;
      assert s[1..] == rest;
    } else {
      ReadQuotedDoubled(v[1..], rest);
      if v[0] == '"' {
        assert s == "\"\"" + (DoubleQuotes(v[1..]) + "\"" + rest);
        assert s[2..] == DoubleQuotes(v[1..]) + "\"" + rest;
        assert v == "\"" + v[1..];
      } else {
        assert s == [v[0]] + (DoubleQuotes(v[1..]) + "\"" + rest);
        assert s[1..] == DoubleQuotes(v[1..]) + "\"" + rest;
        assert v == [v[0]] + v[1..];
      }
    }
  }

  function QuotedJoin(vals: seq<string>): string {
    Join(",", seq(|vals|, k requires 0 <= k < |vals| => Quote(vals[k])))
  }

  /** Round trip: the quoted record of a non-empty list of values reads back
      as that list, whatever quotes or commas the values hold. */
  lemma {:induction false} RecordRoundTrip(vals: seq<string>)
    requires |vals| > 0
    ensures ReadRecord(QuotedJoin(vals)) == Some(vals)
    decreases |vals|
  {
    var qs := seq(|vals|, k requires 0 <= k < |vals| => Quote(vals[k]));
    var s := QuotedJoin(vals);
    if |vals| == 1 {
      assert s == "\"" + (DoubleQuotes(vals[0]) + "\"" + "");
      ReadQuotedDoubled(vals[0], "");
      assert s[1..] == DoubleQuotes(vals[0]) + "\"" + "";
      assert vals == [vals[0]];
    } else {
      var tail := QuotedJoin(vals[1..]);
      assert qs[1..] == seq(|vals[1..]|, k requires 0 <= k < |vals[1..]| => Quote(vals[1..][k]));
      assert s == qs[0] + "," + tail;
      var rest := "," + tail;
      assert s == "\"" + (DoubleQuotes(vals[0]) + "\"" + rest);
      ReadQuotedDoubled(vals[0], rest);
      assert s[1..] == DoubleQuotes(vals[0]) + "\"" + rest;
      RecordRoundTrip(vals[1..]);
      assert rest[1..] == tail;
      assert vals == [vals[0]] + vals[1..];
    }
  }

  /** Each exported record reads back as the row's cell texts. */
  lemma RecordsReadBack(row: seq<Field>)
    requires |row| > 0
    ensures ReadRecord(CsvRecord(row)) == Some(seq(|row|, k requires 0 <= k < |row| => CellText(row[k].value)))
  {
    var vals := seq(|row|, k requires 0 <= k < |row| => CellText(row[k].value));
    assert seq(|row|, k requires 0 <= k < |row| => Quote(CellText(row[k].value)))
        == seq(|vals|, k requires 0 <= k < |vals| => Quote(vals[k]));
    RecordRoundTrip(vals);
  }
}

=== FILE: errors.dfy ===
/** The product service's error responses: the body every error carries,
    the exceptions the services throw, and the controller advice that turns
    an exception into a status and a body. */
module ErrorHandling {
  import opened Wrappers
  import opened Text
  import opened Json

  /** HTTP status codes, named as in section 15 of RFC 9110. */
  const BadRequest := 400           // section 15.5.1
  const Unauthorized := 401         // section 15.5.2
  const NotFound := 404             // section 15.5.5
  const MethodNotAllowed := 405     // section 15.5.6
  const Conflict := 409             // section 15.5.10
  const InternalServerError := 500  // section 15.6.1

  const TenantRequiredMessage := "Tenant ID is required. Please provide X-Tenant-Id header."
  const ValidationFailedMessage := "Validation failed"
  const MethodNotSupportedMessage := "The request method is not supported for this endpoint"
  const EndpointMissingMessage := "The requested endpoint does not exist"
  const UnexpectedMessage := "An unexpected error occurred. Please contact support if the problem persists"

  /** The JSON error body, without its random id and its timestamp. */
  datatype ErrorBody = ErrorBody(
    status: int,
    code: Option<string>,
    message: Message,
    path: string,
    fieldErrors: Option<map<string, string>>)

  /** One bean-validation failure: the field and its constraint's message. */
  datatype FieldError = FieldError(field: string, message: string)

  /** The exceptions that reach the advice. */
  datatype Thrown =
    | ProductNotFound(message: Message)
    | ResourceNotFound(message: Message)
    | ArgumentNotValid(errors: seq<FieldError>)
    | ValidationFailure(message: Message, fields: Option<map<string, string>>)
    | BusinessFailure(message: Message, code: Option<string>)
    | ConflictFailure(message: Message, code: Option<string>)
    | UnauthorizedAccess(message: Message)
    | TenantMissing(message: Message)
    | MethodNotSupported(httpMethod: string)
    | NoHandlerFound(url: string)
    | IllegalArgument(message: Message)
    | IllegalState(message: Message)
    | NotReadable(message: Message)
      /** Spring's `InvalidDataAccessApiUsageException`: the repository
          proxy's translation of an illegal-argument failure raised inside
          a repository method. */
    | DataAccessFailure(message: Message)
    | OtherFailure(message: Message)

  /** `new ConflictException(message)`: the code defaults to "CONFLICT". */
  function ConflictOf(message: string): (t: Thrown)
    ensures t.ConflictFailure? && t.code == Some("CONFLICT") && t.message == Some(message)
  {
    ConflictFailure(Some(message), Some("CONFLICT"))
  }

  /** `new TenantMissingException()`: the tenant-missing class with the
      default text asking for the header. */
  function TenantMissingDefault(): (t: Thrown)
    ensures ClassOf(t) == TenantMissingClass
    ensures t.message == Some(TenantRequiredMessage)
  {
    TenantMissing(Some(TenantRequiredMessage))
  }

  /** The exception classes, each with its superclass. */
  datatype ExClass =
    | ProductNotFoundClass | ResourceNotFoundClass | ArgumentNotValidClass | ValidationClass
    | BusinessClass | ConflictClass | UnauthorizedClass | TenantMissingClass
    | MethodNotSupportedClass | NoHandlerFoundClass | ServletClass | IllegalArgumentClass
    | IllegalStateClass | NotReadableClass | DataAccessClass | RuntimeClass | ExceptionClass

  function ClassOf(t: Thrown): ExClass {
    match t
    case ProductNotFound(_) => ProductNotFoundClass
    case ResourceNotFound(_) => ResourceNotFoundClass
    case ArgumentNotValid(_) => ArgumentNotValidClass
    case ValidationFailure(_, _) => ValidationClass
    case BusinessFailure(_, _) => BusinessClass
    case ConflictFailure(_, _) => ConflictClass
    case UnauthorizedAccess(_) => UnauthorizedClass
    case TenantMissing(_) => TenantMissingClass
    case MethodNotSupported(_) => MethodNotSupportedClass
    case NoHandlerFound(_) => NoHandlerFoundClass
    case IllegalArgument(_) => IllegalArgumentClass
    case IllegalState(_) => IllegalStateClass
    case NotReadable(_) => NotReadableClass
    case DataAccessFailure(_) => DataAccessClass
    case OtherFailure(_) => RuntimeClass
  }

  function Parent(c: ExClass): Option<ExClass> {
    match c
    case ProductNotFoundClass => Some(ResourceNotFoundClass)
    case ArgumentNotValidClass => Some(ExceptionClass)
    case MethodNotSupportedClass => Some(ServletClass)
    case NoHandlerFoundClass => Some(ServletClass)
    case ServletClass => Some(ExceptionClass)
    case RuntimeClass => Some(ExceptionClass)
    case ExceptionClass => None
    case _ => Some(RuntimeClass)
  }

  /** Distance to the root class, which bounds the walk up the hierarchy. */
  function Rank(c: ExClass): nat {
    match c
    case ExceptionClass => 0
    case RuntimeClass => 1
    case ServletClass => 1
    case ProductNotFoundClass => 3
    case ArgumentNotValidClass => 1
    case MethodNotSupportedClass => 2
    case NoHandlerFoundClass => 2
    case _ => 2
  }

  lemma ParentRank(c: ExClass)
    ensures Parent(c).Some? ==> Rank(Parent(c).value) < Rank(c)
    ensures Parent(c).None? <==> c == ExceptionClass
  {
  }

  predicate IsAncestor(a: ExClass, c: ExClass)
    decreases Rank(c)
  {
    a == c || (ParentRank(c); Parent(c).Some? && IsAncestor(a, Parent(c).value))
  }

  /** The classes the advice declares a handler for. */
  predicate HasHandler(c: ExClass) {
    !(c == ServletClass || c == IllegalStateClass || c == NotReadableClass || c == DataAccessClass || c == RuntimeClass)
  }

  /** The handler Spring picks: the one declared for the nearest class on the
      way up from the thrown class. */
  function ResolveHandler(c: ExClass): (h: ExClass)
    decreases Rank(c)
    ensures HasHandler(h) && IsAncestor(h, c)
    ensures HasHandler(c) ==> h == c
  {
    if HasHandler(c) then c
    else
      ParentRank(c);
      ResolveHandler(Parent(c).value)
  }

  /** Every class that is not itself handled and whose ancestors up to the
      root are not handled falls to the catch-all. */
  lemma UnhandledFallToRoot()
    ensures ResolveHandler(IllegalStateClass) == ExceptionClass
    ensures ResolveHandler(NotReadableClass) == ExceptionClass
    ensures ResolveHandler(DataAccessClass) == ExceptionClass
    ensures ResolveHandler(RuntimeClass) == ExceptionClass
    ensures ResolveHandler(ServletClass) == ExceptionClass
  {
  }

  /** `fieldErrors.put(field, message)` over the failures in order: a later
      failure of the same field replaces the earlier one. */
  function FieldErrorMap(errors: seq<FieldError>): (m: map<string, string>)
    ensures m.Keys == set i | 0 <= i < |errors| :: errors[i].field
    ensures forall i :: 0 <= i < |errors| && (forall j :: i < j < |errors| ==> errors[j].field != errors[i].field) ==>
      m[errors[i].field] == errors[i].message
  {
    if |errors| == 0 then map[]
    else
      var last := errors[|errors| - 1];
      var m := FieldErrorMap(errors[..|errors| - 1])[last.field := last.message];
      assert forall i :: 0 <= i < |errors| - 1 ==> errors[..|errors| - 1][i] == errors[i];
      m
  }

  /** The status and the body the advice answers with. */
  datatype Answer = Answer(httpStatus: int, body: ErrorBody)

  function Reply(status: int, code: string, message: Message, path: string): Answer {
    Answer(status, ErrorBody(status, Some(code), message, path, None))
  }

  /** The advice: the resolved handler fixes status and code; most handlers
      pass the exception's message through, four use a fixed text. */
  function Handle(t: Thrown, uri: string): (a: Answer)
    ensures a.body.status == a.httpStatus && a.body.path == uri
    ensures ResolveHandler(ClassOf(t)) == ExceptionClass <==> a.httpStatus == InternalServerError
    ensures a.httpStatus == InternalServerError ==>
      a.body.code == Some("INTERNAL_SERVER_ERROR") && a.body.message == Some(UnexpectedMessage)
    ensures a.body.fieldErrors.Some? ==> t.ArgumentNotValid? || t.ValidationFailure?
  {
    var c := ResolveHandler(ClassOf(t));
    match c
    case ProductNotFoundClass => Reply(NotFound, "PRODUCT_NOT_FOUND", t.message, uri)
    case ResourceNotFoundClass => Reply(NotFound, "RESOURCE_NOT_FOUND", t.message, uri)
    case ArgumentNotValidClass =>
      Answer(BadRequest, ErrorBody(BadRequest, Some("VALIDATION_ERROR"), Some(ValidationFailedMessage), uri,
        Some(FieldErrorMap(t.errors))))
    case ValidationClass =>
      Answer(BadRequest, ErrorBody(BadRequest, Some("VALIDATION_ERROR"), t.message, uri, t.fields))
    case BusinessClass => Answer(BadRequest, ErrorBody(BadRequest, t.code, t.message, uri, None))
    case ConflictClass => Answer(Conflict, ErrorBody(Conflict, t.code, t.message, uri, None))
    case UnauthorizedClass => Reply(Unauthorized, "UNAUTHORIZED", t.message, uri)
    case TenantMissingClass => Reply(BadRequest, "TENANT_MISSING", t.message, uri)
    case MethodNotSupportedClass => Reply(MethodNotAllowed, "METHOD_NOT_ALLOWED", Some(MethodNotSupportedMessage), uri)
    case NoHandlerFoundClass => Reply(NotFound, "ENDPOINT_NOT_FOUND", Some(EndpointMissingMessage), uri)
    case IllegalArgumentClass => Reply(BadRequest, "INVALID_ARGUMENT", t.message, uri)
    case ExceptionClass => Reply(InternalServerError, "INTERNAL_SERVER_ERROR", Some(UnexpectedMessage), uri)
  }

  /** The handler table for the client errors that pass their message on. */
  lemma ClientErrorTable(uri: string, m: Message)
    ensures Handle(ProductNotFound(m), uri) == Reply(NotFound, "PRODUCT_NOT_FOUND", m, uri)
    ensures Handle(ResourceNotFound(m), uri) == Reply(NotFound, "RESOURCE_NOT_FOUND", m, uri)
    ensures Handle(UnauthorizedAccess(m), uri) == Reply(Unauthorized, "UNAUTHORIZED", m, uri)
    ensures Handle(TenantMissing(m), uri) == Reply(BadRequest, "TENANT_MISSING", m, uri)
    ensures Handle(IllegalArgument(m), uri) == Reply(BadRequest, "INVALID_ARGUMENT", m, uri)
  {
    NotFoundReplies(uri, m);
    BadRequestReplies(uri, m);
    assert Handle(UnauthorizedAccess(m), uri) == Reply(Unauthorized, "UNAUTHORIZED", m, uri);
  }

  /** The two not-found handlers pass the message on. */
  lemma NotFoundReplies(uri: string, m: Message)
    ensures Handle(ProductNotFound(m), uri) == Reply(NotFound, "PRODUCT_NOT_FOUND", m, uri)
    ensures Handle(ResourceNotFound(m), uri) == Reply(NotFound, "RESOURCE_NOT_FOUND", m, uri)
  {
  }

  /** The tenant-missing and illegal-argument handlers pass the message on. */
  lemma BadRequestReplies(uri: string, m: Message)
    ensures Handle(TenantMissing(m), uri) == Reply(BadRequest, "TENANT_MISSING", m, uri)
    ensures Handle(IllegalArgument(m), uri) == Reply(BadRequest, "INVALID_ARGUMENT", m, uri)
  {
  }

  /** Business and conflict failures carry their own code. */
  lemma OwnCodeTable(uri: string, m: Message, code: Option<string>)
    ensures Handle(BusinessFailure(m, code), uri) == Answer(BadRequest, ErrorBody(BadRequest, code, m, uri, None))
    ensures Handle(ConflictFailure(m, code), uri) == Answer(Conflict, ErrorBody(Conflict, code, m, uri, None))
  {
  }

  /** Exceptions without a handler of their own, such as the missing tenant
      of the strict reader, an unreadable body or a translated repository
      failure, become a 500 with a fixed text. */
  lemma ServerErrorTable(uri: string, m: Message)
    ensures Handle(IllegalState(m), uri) == Reply(InternalServerError, "INTERNAL_SERVER_ERROR", Some(UnexpectedMessage), uri)
    ensures Handle(NotReadable(m), uri) == Reply(InternalServerError, "INTERNAL_SERVER_ERROR", Some(UnexpectedMessage), uri)
    ensures Handle(DataAccessFailure(m), uri) == Reply(InternalServerError, "INTERNAL_SERVER_ERROR", Some(UnexpectedMessage), uri)
    ensures Handle(OtherFailure(m), uri) == Reply(InternalServerError, "INTERNAL_SERVER_ERROR", Some(UnexpectedMessage), uri)
  {
    CatchAllReply(IllegalState(m), uri);
    CatchAllReply(NotReadable(m), uri);
    CatchAllReply(DataAccessFailure(m), uri);
    CatchAllReply(OtherFailure(m), uri);
  }

  /** What the catch-all answers: exactly the exceptions of the unhandled
      classes reach it, whatever their message. */
  lemma CatchAllReply(t: Thrown, uri: string)
    requires t.IllegalState? || t.NotReadable? || t.DataAccessFailure? || t.OtherFailure?
    ensures Handle(t, uri) == Reply(InternalServerError, "INTERNAL_SERVER_ERROR", Some(UnexpectedMessage), uri)
  {
    UnhandledFallToRoot();
  }

  /** The routing errors carry fixed texts, whatever the method or URL. */
  lemma RoutingErrors(uri: string, httpMethod: string, url: string)
    ensures Handle(MethodNotSupported(httpMethod), uri) ==
      Reply(MethodNotAllowed, "METHOD_NOT_ALLOWED", Some(MethodNotSupportedMessage), uri)
    ensures Handle(NoHandlerFound(url), uri) == Reply(NotFound, "ENDPOINT_NOT_FOUND", Some(EndpointMissingMessage), uri)
  {
    MethodNotSupportedReply(uri, httpMethod);
    NoHandlerFoundReply(uri, url);
  }

  /** An unsupported method is answered 405 with the fixed text. */
  lemma MethodNotSupportedReply(uri: string, httpMethod: string)
    ensures Handle(MethodNotSupported(httpMethod), uri) ==
      Reply(MethodNotAllowed, "METHOD_NOT_ALLOWED", Some(MethodNotSupportedMessage), uri)
  {
  }

  /** An unknown endpoint is answered 404 with the fixed text. */
  lemma NoHandlerFoundReply(uri: string, url: string)
    ensures Handle(NoHandlerFound(url), uri) == Reply(NotFound, "ENDPOINT_NOT_FOUND", Some(EndpointMissingMessage), uri)
  {
  }

  /** A missing product is reported by its own handler, not by the one of
      its superclass, although both apply. */
  lemma ProductNotFoundTakesPrecedence(uri: string, m: Message)
    ensures IsAncestor(ResourceNotFoundClass, ProductNotFoundClass) && HasHandler(ResourceNotFoundClass)
    ensures Handle(ProductNotFound(m), uri).body.code == Some("PRODUCT_NOT_FOUND")
    ensures Handle(ProductNotFound(m), uri).body.code != Handle(ResourceNotFound(m), uri).body.code
  {
  }

  /** Bean-validation failures: the fixed "Validation failed" text and one
      entry per failing field. */
  lemma ArgumentNotValidBody(errors: seq<FieldError>, uri: string)
    ensures Handle(ArgumentNotValid(errors), uri).httpStatus == BadRequest
    ensures Handle(ArgumentNotValid(errors), uri).body.code == Some("VALIDATION_ERROR")
    ensures Handle(ArgumentNotValid(errors), uri).body.message == Some(ValidationFailedMessage)
    ensures Handle(ArgumentNotValid(errors), uri).body.fieldErrors.Some?
    ensures Handle(ArgumentNotValid(errors), uri).body.fieldErrors.value.Keys ==
      set i | 0 <= i < |errors| :: errors[i].field
  {
  }

  /** A conflict raised without a code answers 409 with "CONFLICT". */
  lemma ConflictDefaultCode(message: string, uri: string)
    ensures Handle(ConflictOf(message), uri) == Reply(Conflict, "CONFLICT", Some(message), uri)
  {
  }
}

=== FILE: fileparser.dfy ===
/** The upload parser of the integration service: picks a format from the
    file name, turns the parsed top level into a list of rows, infers a
    field-type schema from the first row and cuts a sample. */
module FileParser {
  import opened Wrappers
  import opened Text
  import opened Json
  import opened Patterns

  /** A multipart upload: the client's file name (possibly absent) and the
      bytes. */
  datatype Upload = Upload(originalFilename: Option<string>, content: seq<bv8>)

  /** The three parsers as oracles. `csv` is Commons CSV with the first
      record as header, one field list per record; `json` is Jackson's
      untyped read; `xml` is Jackson's XML read into a `Map`, `None` when it
      yields null. A failure carries the thrown exception's message. */
  datatype Readers = Readers(
    csv: seq<bv8> -> Result<seq<seq<Field>>, Message>,
    json: seq<bv8> -> Result<Json, Message>,
    xml: seq<bv8> -> Result<Option<seq<Field>>, Message>)

  datatype Format = Csv | JsonFile | Xml

  const InvalidFile := "Invalid file"
  const EmptyFilePrefix := "File is empty: "
  const UnsupportedPrefix := "Unsupported file format: "
  const NotArrayOrObject := "JSON must be an array or object"

  /** The format named by the file's suffix, compared after lower-casing. */
  function FormatOf(name: string): (f: Option<Format>)
    ensures f == Some(Csv) <==> EndsWith(AsciiLower(name), ".csv")
    ensures f == Some(JsonFile) <==> !EndsWith(AsciiLower(name), ".csv") && EndsWith(AsciiLower(name), ".json")
    ensures f == Some(Xml) <==>
      !EndsWith(AsciiLower(name), ".csv") && !EndsWith(AsciiLower(name), ".json") && EndsWith(AsciiLower(name), ".xml")
  {
    var lower := AsciiLower(name);
    if EndsWith(lower, ".csv") then Some(Csv)
    else if EndsWith(lower, ".json") then Some(JsonFile)
    else if EndsWith(lower, ".xml") then Some(Xml)
    else None
  }

  lemma AsciiLowerAppend(a: string, b: string)
    ensures AsciiLower(a + b) == AsciiLower(a) + AsciiLower(b)
  {
    var l := AsciiLower(a + b);
    var r := AsciiLower(a) + AsciiLower(b);
    forall i | 0 <= i < |l|
      ensures l[i] == r[i]
    {
      if i < |a| {
        assert (a + b)[i] == a[i];
      } else {
        assert (a + b)[i] == b[i - |a|];
      }
    }
  }

  lemma AsciiLowerIdempotent(s: string)
    ensures AsciiLower(AsciiLower(s)) == AsciiLower(s)
  {
  }

  /** The format is blind to letter case: a name and its lower-cased form
      select the same parser. */
  lemma FormatIgnoresCase(name: string)
    ensures FormatOf(AsciiLower(name)) == FormatOf(name)
  {
    AsciiLowerIdempotent(name);
  }

  /** Whatever precedes the suffix, ".csv", ".JSON", ".Xml" and their other
      spellings select their parser. */
  lemma SuffixSelectsFormat(stem: string, suffix: string)
    requires AsciiLower(suffix) in [".csv", ".json", ".xml"]
    ensures FormatOf(stem + suffix) ==
      Some(if AsciiLower(suffix) == ".csv" then Csv else if AsciiLower(suffix) == ".json" then JsonFile else Xml)
  {
    AsciiLowerAppend(stem, suffix);
    var lower := AsciiLower(stem + suffix);
    var ls := AsciiLower(suffix);
    assert lower[|lower| - |ls|..] == ls;
    if ls == ".json" {
      assert lower[|lower| - 4..] == ls[1..];
      assert !EndsWith(lower, ".csv");
    } else if ls == ".xml" {
      assert lower[|lower| - 4..] == ls;
      assert !EndsWith(lower, ".csv");
      if |lower| >= 5 {
        assert lower[|lower| - 5..][1..] == ls;
      }
      assert !EndsWith(lower, ".json");
    }
  }

  /** A JSON top level as a row list: an array gives its elements unchanged,
      an object a one-row list, a null top level fails on its class lookup
      (a null pointer, no message), anything else is refused. */
  function JsonRows(parsed: Json): (r: Result<seq<Json>, Message>)
    ensures r.Ok? <==> parsed.JArray? || parsed.JObject?
    ensures parsed.JArray? ==> r == Ok(parsed.items)
    ensures parsed.JObject? ==> r == Ok([parsed])
    ensures parsed.JNull? ==> r == Err(None)
    ensures r.Err? && !parsed.JNull? ==> r == Err(Some(NotArrayOrObject))
  {
    match parsed
    case JNull => Err(None)
    case JArray(items) => Ok(items)
    case JObject(_) => Ok([parsed])
    case _ => Err(Some(NotArrayOrObject))
  }

  /** Each CSV record as an object row. */
  function CsvRows(records: seq<seq<Field>>): (rows: seq<Json>)
    ensures |rows| == |records|
    ensures forall i :: 0 <= i < |records| ==> rows[i] == JObject(records[i])
  {
    seq(|records|, i requires 0 <= i < |records| => JObject(records[i]))
  }

  /** An XML document is always one row; a null map fails when put into
      the immutable one-element list. */
  function XmlRows(parsed: Option<seq<Field>>): (r: Result<seq<Json>, Message>)
    ensures parsed.None? <==> r == Err(None)
    ensures parsed.Some? ==> r == Ok([JObject(parsed.value)])
  {
    match parsed
    case None => Err(None)
    case Some(fields) => Ok([JObject(fields)])
  }

  /** `parseFile`: the name guard, then the emptiness guard, then the
      suffix dispatch; only the selected reader is consulted. */
  function ParseFile(readers: Readers, file: Upload): (r: Result<seq<Json>, Message>)
    ensures file.originalFilename.None? || IsBlank(file.originalFilename.value) ==>
      r == Err(Some(InvalidFile))
    ensures file.originalFilename.Some? && !IsBlank(file.originalFilename.value) && |file.content| == 0 ==>
      r == Err(Some(EmptyFilePrefix + file.originalFilename.value))
    ensures
      (file.originalFilename.Some? && !IsBlank(file.originalFilename.value) && |file.content| > 0 &&
       FormatOf(file.originalFilename.value).None?) ==>
      r == Err(Some(UnsupportedPrefix + file.originalFilename.value))
    ensures r.Ok? ==>
      file.originalFilename.Some? && !IsBlank(file.originalFilename.value) && |file.content| > 0 &&
      FormatOf(file.originalFilename.value).Some?
    ensures r.Ok? && FormatOf(file.originalFilename.value) == Some(Csv) ==>
      readers.csv(file.content).Ok? && r.value == CsvRows(readers.csv(file.content).value)
    ensures r.Ok? && FormatOf(file.originalFilename.value) == Some(JsonFile) ==>
      readers.json(file.content).Ok? && r == JsonRows(readers.json(file.content).value)
    ensures r.Ok? && FormatOf(file.originalFilename.value) == Some(Xml) ==>
      |r.value| == 1 && r.value[0].JObject?
  {
    match file.originalFilename
    case None => Err(Some(InvalidFile))
    case Some(name) =>
      if IsBlank(name) then Err(Some(InvalidFile))
      else if |file.content| == 0 then Err(Some(EmptyFilePrefix + name))
      else
        match FormatOf(name)
        case None => Err(Some(UnsupportedPrefix + name))
        case Some(Csv) =>
          (match readers.csv(file.content)
           case Err(m) => Err(m)
           case Ok(records) => Ok(CsvRows(records)))
        case Some(JsonFile) =>
          (match readers.json(file.content)
           case Err(m) => Err(m)
           case Ok(parsed) => JsonRows(parsed))
        case Some(Xml) =>
          (match readers.xml(file.content)
           case Err(m) => Err(m)
           case Ok(parsed) => XmlRows(parsed))
  }

  /** A reader's failure surfaces unchanged, with its own message. */
  lemma ReaderFailurePassesThrough(readers: Readers, file: Upload)
    requires file.originalFilename.Some? && !IsBlank(file.originalFilename.value) && |file.content| > 0
    ensures FormatOf(file.originalFilename.value) == Some(Csv) && readers.csv(file.content).Err? ==>
      ParseFile(readers, file) == Err(readers.csv(file.content).error)
    ensures FormatOf(file.originalFilename.value) == Some(JsonFile) && readers.json(file.content).Err? ==>
      ParseFile(readers, file) == Err(readers.json(file.content).error)
    ensures FormatOf(file.originalFilename.value) == Some(Xml) && readers.xml(file.content).Err? ==>
      ParseFile(readers, file) == Err(readers.xml(file.content).error)
  {
  }

  // ---------------------------------------------------------------------
  // Type detection

  const TypeNames: set<string> :=
    {"String", "Integer", "BigDecimal", "Boolean", "LocalDateTime", "UUID", "List", "Map"}

  /** Jackson binds an integral number to Integer or Long when it fits in
      64 bits, and to BigInteger otherwise. */
  predicate FitsLong(i: int) {
    -0x8000_0000_0000_0000 <= i < 0x8000_0000_0000_0000
  }

  predicate IsAsciiDigit(c: char) { '0' <= c <= '9' }

  predicate IsLowerHex(c: char) { '0' <= c <= '9' || 'a' <= c <= 'f' }

  predicate IsLineEnd(c: char) {
    c == '\n' || c == '\r' || c == '\U{85}' || c == '\U{2028}' || c == '\U{2029}'
  }

  /** Four digits, '-', two digits, '-', two digits, then anything on the
      same line. */
  predicate IsDateLike(s: string) {
    && |s| >= 10
    && (forall i :: 0 <= i < 10 ==> if i == 4 || i == 7 then s[i] == '-' else IsAsciiDigit(s[i]))
    && (forall i :: 10 <= i < |s| ==> !IsLineEnd(s[i]))
  }

  predicate IsUuidDash(i: int) { i == 8 || i == 13 || i == 18 || i == 23 }

  /** 36 chars: lower-case hex digits with dashes at 8, 13, 18 and 23. */
  predicate IsLowerUuid(s: string) {
    && |s| == 36
    && (forall i :: 0 <= i < 36 ==> if IsUuidDash(i) then s[i] == '-' else IsLowerHex(s[i]))
  }

  lemma AllInDigits(s: string, a: nat, b: nat)
    requires a <= b <= |s|
    ensures AllIn(AsciiDigit, s[a..b]) <==> forall i :: a <= i < b ==> IsAsciiDigit(s[i])
  {
    assert forall i :: a <= i < b ==> s[a..b][i - a] == s[i];
  }

  lemma AllInHex(s: string, a: nat, b: nat)
    requires a <= b <= |s|
    ensures AllIn(LowerHex, s[a..b]) <==> forall i :: a <= i < b ==> IsLowerHex(s[i])
  {
    assert forall i :: a <= i < b ==> s[a..b][i - a] == s[i];
  }

  lemma DashAt(s: string, a: nat)
    requires a < |s|
    ensures AllIn(Exactly('-'), s[a..a + 1]) <==> s[a] == '-'
  {
    assert s[a..a + 1][0] == s[a];
  }

  /** The date pattern needs ten characters before its final star. */
  lemma DatePatternTooShort(s: string)
    requires |s| < 10
    ensures !FullMatch(DatePattern, s)
  {
    var p := DatePattern;
    assert p == [p[0]] + p[1..] && p[1..] == [p[1]] + p[2..] && p[2..] == [p[2]] + p[3..];
    assert p[3..] == [p[3]] + p[4..] && p[4..] == [p[4]] + p[5..];
    LeadingRepeat(AsciiDigit, 4, p[1..], s);
    if |s| >= 4 {
      LeadingRepeat(Exactly('-'), 1, p[2..], s[4..]);
      if |s| >= 5 {
        LeadingRepeat(AsciiDigit, 2, p[3..], s[5..]);
        if |s| >= 7 {
          LeadingRepeat(Exactly('-'), 1, p[4..], s[7..]);
          if |s| >= 8 {
            LeadingRepeat(AsciiDigit, 2, p[5..], s[8..]);
          }
        }
      }
    }
  }

  /** On ten or more characters the date pattern reads piece by piece. */
  lemma DatePatternPieces(s: string)
    requires |s| >= 10
    ensures FullMatch(DatePattern, s) <==>
      AllIn(AsciiDigit, s[..4]) && AllIn(Exactly('-'), s[4..5]) && AllIn(AsciiDigit, s[5..7]) &&
      AllIn(Exactly('-'), s[7..8]) && AllIn(AsciiDigit, s[8..10]) && AllIn(AnyButLineEnd, s[10..])
  {
    var p := DatePattern;
    assert p == [p[0]] + p[1..] && p[1..] == [p[1]] + p[2..] && p[2..] == [p[2]] + p[3..];
    assert p[3..] == [p[3]] + p[4..] && p[4..] == [p[4]] + p[5..] && p[5..] == [Star(AnyButLineEnd)];
    assert s[4..][1..] == s[5..] && s[5..][2..] == s[7..] && s[7..][1..] == s[8..] && s[8..][2..] == s[10..];
    assert s[4..][..1] == s[4..5] && s[5..][..2] == s[5..7] && s[7..][..1] == s[7..8] && s[8..][..2] == s[8..10];
    LeadingRepeat(AsciiDigit, 4, p[1..], s);
    LeadingRepeat(Exactly('-'), 1, p[2..], s[4..]);
    LeadingRepeat(AsciiDigit, 2, p[3..], s[5..]);
    LeadingRepeat(Exactly('-'), 1, p[4..], s[7..]);
    LeadingRepeat(AsciiDigit, 2, p[5..], s[8..]);
    FinalStar(AnyButLineEnd, s[10..]);
  }

  /** `\d{4}-\d{2}-\d{2}.*` matches exactly the date-like texts. */
  lemma DatePatternMeaning(s: string)
    ensures FullMatch(DatePattern, s) <==> IsDateLike(s)
  {
    if |s| < 10 {
      DatePatternTooShort(s);
      return;
    }
    DatePatternPieces(s);
    AllInDigits(s, 0, 4);
    AllInDigits(s, 5, 7);
    AllInDigits(s, 8, 10);
    DashAt(s, 4);
    DashAt(s, 7);
    assert AllIn(AnyButLineEnd, s[10..]) <==> forall i :: 10 <= i < |s| ==> !IsLineEnd(s[i]) by {
      assert forall i :: 10 <= i < |s| ==> s[10..][i - 10] == s[i];
    }
  }

  /** A fixed-width run of lower hex digits followed by a dash and more. */
  lemma HexThenDash(s: string, a: nat, n: nat, rest: seq<Piece>)
    requires a + n < |s|
    ensures FullMatch([Repeat(LowerHex, n), Repeat(Exactly('-'), 1)] + rest, s[a..]) <==>
      (forall i :: a <= i < a + n ==> IsLowerHex(s[i])) && s[a + n] == '-' && FullMatch(rest, s[a + n + 1..])
  {
    var q := [Repeat(LowerHex, n), Repeat(Exactly('-'), 1)] + rest;
    assert q == [q[0]] + q[1..] && q[1..] == [Repeat(Exactly('-'), 1)] + rest;
    LeadingRepeat(LowerHex, n, q[1..], s[a..]);
    assert s[a..][..n] == s[a..a + n] && s[a..][n..] == s[a + n..];
    LeadingRepeat(Exactly('-'), 1, rest, s[a + n..]);
    assert s[a + n..][..1] == s[a + n..a + n + 1] && s[a + n..][1..] == s[a + n + 1..];
    AllInHex(s, a, a + n);
    DashAt(s, a + n);
  }

  /** The last group of twelve hex digits. */
  lemma FinalHex(s: string, a: nat)
    requires a <= |s|
    ensures FullMatch([Repeat(LowerHex, 12)], s[a..]) <==>
      |s| == a + 12 && forall i :: a <= i < a + 12 ==> IsLowerHex(s[i])
  {
    LeadingRepeat(LowerHex, 12, [], s[a..]);
    assert [Repeat(LowerHex, 12)] + [] == [Repeat(LowerHex, 12)];
    if |s| >= a + 12 {
      assert s[a..][..12] == s[a..a + 12];
      AllInHex(s, a, a + 12);
    }
  }

  /** Lower hex digits at every position of [a, b). */
  predicate HexRun(s: string, a: nat, b: nat)
    requires a <= b <= |s|
  {
    forall i :: a <= i < b ==> IsLowerHex(s[i])
  }

  /** The five dash-separated groups of a UUID text. */
  predicate UuidGroups(s: string) {
    && |s| == 36
    && HexRun(s, 0, 8) && s[8] == '-' && HexRun(s, 9, 13) && s[13] == '-'
    && HexRun(s, 14, 18) && s[18] == '-' && HexRun(s, 19, 23) && s[23] == '-'
    && HexRun(s, 24, 36)
  }

  lemma UuidGroupsMeaning(s: string)
    ensures UuidGroups(s) <==> IsLowerUuid(s)
  {
  }

  /** A pattern of fixed-count pieces only matches texts of its total width. */
  lemma {:induction false} FixedWidth(p: seq<Piece>, s: string)
    requires forall k :: 0 <= k < |p| ==> p[k].Repeat?
    ensures FullMatch(p, s) ==> |s| == Width(p)
    decreases |p|
  {
    if |p| > 0 && FullMatch(p, s) {
      FixedWidth(p[1..], s[p[0].n..]);
    }
  }

  function Width(p: seq<Piece>): nat
    requires forall k :: 0 <= k < |p| ==> p[k].Repeat?
  {
    if |p| == 0 then 0 else p[0].n + Width(p[1..])
  }

  lemma UuidPatternShape()
    ensures UuidPattern == [Repeat(LowerHex, 8), Repeat(Exactly('-'), 1)] + UuidPattern[2..]
    ensures UuidPattern[2..] == [Repeat(LowerHex, 4), Repeat(Exactly('-'), 1)] + UuidPattern[4..]
    ensures UuidPattern[4..] == [Repeat(LowerHex, 4), Repeat(Exactly('-'), 1)] + UuidPattern[6..]
    ensures UuidPattern[6..] == [Repeat(LowerHex, 4), Repeat(Exactly('-'), 1)] + UuidPattern[8..]
    ensures UuidPattern[8..] == [Repeat(LowerHex, 12)]
  {
  }

  /** On 36-char texts the pattern checks the five groups. */
  lemma UuidPatternGroups(s: string)
    requires |s| == 36
    ensures FullMatch(UuidPattern, s) <==> UuidGroups(s)
  {
    var p := UuidPattern;
    UuidPatternShape();
    assert s[0..] == s;
    HexThenDash(s, 0, 8, p[2..]);
    HexThenDash(s, 9, 4, p[4..]);
    HexThenDash(s, 14, 4, p[6..]);
    HexThenDash(s, 19, 4, p[8..]);
    FinalHex(s, 24);
  }

  /** The UUID pattern matches exactly the lower-case UUID texts. */
  lemma UuidPatternMeaning(s: string)
    ensures FullMatch(UuidPattern, s) <==> IsLowerUuid(s)
  {
    UuidGroupsMeaning(s);
    FixedWidth(UuidPattern, s);
    assert Width(UuidPattern) == 36;
    if |s| == 36 {
      UuidPatternGroups(s);
    }
  }

  /** `detectType`: the schema type name of one value. Strings are typed
      by the two patterns, the date pattern first. */
  function DetectType(v: Json): (t: string)
    ensures t in TypeNames
    ensures t == "Integer" <==> v.JInt? && FitsLong(v.i)
    ensures t == "BigDecimal" <==> v.JDecimal? || (v.JInt? && !FitsLong(v.i))
    ensures t == "Boolean" <==> v.JBool?
    ensures t == "List" <==> v.JArray?
    ensures t == "Map" <==> v.JObject?
    ensures t == "LocalDateTime" <==> v.JString? && FullMatch(DatePattern, v.s)
    ensures t == "UUID" <==> v.JString? && !FullMatch(DatePattern, v.s) && FullMatch(UuidPattern, v.s)
    ensures t == "String" <==>
      v.JNull? || (v.JString? && !FullMatch(DatePattern, v.s) && !FullMatch(UuidPattern, v.s))
  {
    match v
    case JNull => "String"
    case JInt(i) => if FitsLong(i) then "Integer" else "BigDecimal"
    case JDecimal(_) => "BigDecimal"
    case JBool(_) => "Boolean"
    case JString(s) =>
      DatePatternMeaning(s);
      UuidPatternMeaning(s);
      if IsDateLike(s) then "LocalDateTime"
      else if IsLowerUuid(s) then "UUID"
      else "String"
    case JArray(_) => "List"
    case JObject(_) => "Map"
  }

  /** An upper-case UUID is not recognised: it is typed as a plain string. */
  lemma UpperCaseUuidIsString()
    ensures DetectType(JString("123E4567-E89B-12D3-A456-426614174000")) == "String"
  {
    var s := "123E4567-E89B-12D3-A456-426614174000";
    assert s[3] == 'E' && !IsLowerHex(s[3]);
    assert s[2] == '3' && s[4] == '4' && !IsDateLike(s);
    UuidPatternMeaning(s);
    DatePatternMeaning(s);
  }

  /** A timestamp with a time part is a date; the same text with a line
      break after the date is not. */
  lemma DateLikeExamples()
    ensures DetectType(JString("2024-01-31T10:00:00")) == "LocalDateTime"
    ensures DetectType(JString("2024-01-31\n")) == "String"
  {
    var a := "2024-01-31T10:00:00";
    assert IsDateLike(a);
    DatePatternMeaning(a);
    var b := "2024-01-31\n";
    assert b[10] == '\n' && !IsDateLike(b);
    assert |b| != 36 && !IsLowerUuid(b);
    DatePatternMeaning(b);
    UuidPatternMeaning(b);
  }

  // ---------------------------------------------------------------------
  // Schema and sample

  /** One schema entry: a field name and its detected type name. */
  datatype Column = Column(name: string, typeName: string)

  /** `detectSchema`: empty for no rows; otherwise one column per field of
      the first row, in its order. `None` when the first row is not an
      object (the cast or the entry walk fails). */
  function DetectSchema(rows: Option<seq<Json>>): (r: Option<seq<Column>>)
    ensures rows.None? || |rows.value| == 0 ==> r == Some([])
    ensures rows.Some? && |rows.value| > 0 ==> (r.Some? <==> rows.value[0].JObject?)
    ensures rows.Some? && |rows.value| > 0 && r.Some? ==>
      |r.value| == |rows.value[0].fields| &&
      forall i :: 0 <= i < |r.value| ==>
        r.value[i].name == rows.value[0].fields[i].key && r.value[i].typeName in TypeNames
  {
    match rows
    case None => Some([])
    case Some(rs) =>
      if |rs| == 0 then Some([])
      else match rs[0]
        case JObject(fields) =>
          Some(seq(|fields|, i requires 0 <= i < |fields| =>
            Column(fields[i].key, DetectType(fields[i].value))))
        case _ => None
  }

  /** Only the first row is looked at: rows after it never change the
      schema, and each column's type is that of the first row's value. */
  lemma SchemaFromFirstRowOnly(first: Json, a: seq<Json>, b: seq<Json>)
    requires first.JObject?
    ensures DetectSchema(Some([first] + a)) == DetectSchema(Some([first] + b))
    ensures forall i :: 0 <= i < |first.fields| ==>
      DetectSchema(Some([first] + a)).value[i].typeName == DetectType(first.fields[i].value)
  {
    assert ([first] + a)[0] == first && ([first] + b)[0] == first;
  }

  /** `getSampleRows`: no rows give an empty sample; otherwise the first
      min(sampleSize, size) rows, and a negative size is refused by the
      sub-list range check. */
  function SampleRows<T>(rows: Option<seq<T>>, sampleSize: int): (r: Result<seq<T>, Message>)
    ensures rows.None? ==> r == Ok([])
    ensures rows.Some? ==> (r.Ok? <==> sampleSize >= 0)
    ensures r.Ok? && rows.Some? ==>
      |r.value| == (if sampleSize < |rows.value| then sampleSize else |rows.value|) &&
      r.value == rows.value[..|r.value|]
    ensures r.Err? ==> r == Err(Some("fromIndex(0) > toIndex(" + IntToDecimal(sampleSize) + ")"))
  {
    match rows
    case None => Ok([])
    case Some(rs) =>
      var size := if sampleSize < |rs| then sampleSize else |rs|;
      if size < 0 then Err(Some("fromIndex(0) > toIndex(" + IntToDecimal(size) + ")"))
      else Ok(rs[..size])
  }

  /** A sample of at least the row count is the whole list, and a sample
      never grows when the size shrinks. */
  lemma SampleBounds<T>(rows: seq<T>, small: nat, large: nat)
    requires small <= large
    ensures large >= |rows| ==> SampleRows(Some(rows), large) == Ok(rows)
    ensures SampleRows(Some(rows), small).value <= SampleRows(Some(rows), large).value
  {
    assert rows[..|rows|] == rows;
  }
}

=== FILE: json.dfy ===
/** The JSON trees that Jackson hands the services (`Map`, `List`, boxed
    scalars), and the Jackson calls themselves as an oracle. */
module Json {
  import opened Wrappers
  import opened Text

  /** An exception's `getMessage()`: `None` is a null message. */
  type Message = Option<string>

  /** A value as Jackson's untyped binding produces it. `JInt` covers
      Integer, Long and BigInteger; `JDecimal` a Double, kept as the text of
      its `toString()`. An object is a `LinkedHashMap`: an ordered list of
      fields. */
  datatype Json =
    | JNull
    | JBool(b: bool)
    | JInt(i: int)
    | JDecimal(text: string)
    | JString(s: string)
    | JArray(items: seq<Json>)
    | JObject(fields: seq<Field>)

  datatype Field = Field(key: string, value: Json)

  function Keys(fields: seq<Field>): (ks: seq<string>)
    ensures |ks| == |fields|
    ensures forall i :: 0 <= i < |fields| ==> ks[i] == fields[i].key
  {
    seq(|fields|, i requires 0 <= i < |fields| => fields[i].key)
  }

  /** `Map.get(key)` on a map whose entries are `fields`; `None` when absent. */
  function Get(fields: seq<Field>, key: string): (r: Option<Json>)
    ensures r.None? <==> key !in Keys(fields)
    ensures r.Some? ==> exists i :: 0 <= i < |fields| && fields[i] == Field(key, r.value)
  {
    if |fields| == 0 then None
    else if fields[0].key == key then Some(fields[0].value)
    else
      var r := Get(fields[1..], key);
      assert Keys(fields) == [fields[0].key] + Keys(fields[1..]);
      assert r.Some? ==> exists i :: 0 <= i < |fields[1..]| && fields[1..][i] == Field(key, r.value);
      r
  }

  /** `Object.toString()` of a non-null Jackson value: collections render as
      `[a, b]` and `{k=v}`, a nested null as "null". */
  function Render(j: Json): string
    decreases j
  {
    match j
    case JNull => "null"
    case JBool(b) => if b then "true" else "false"
    case JInt(i) => IntToDecimal(i)
    case JDecimal(t) => t
    case JString(s) => s
    case JArray(items) =>
      "[" + Join(", ", seq(|items|, k requires 0 <= k < |items| => Render(items[k]))) + "]"
    case JObject(fields) =>
      "{" + Join(", ", seq(|fields|, k requires 0 <= k < |fields| =>
        fields[k].key + "=" + Render(fields[k].value))) + "}"
  }

  /** The Jackson `ObjectMapper` as an oracle. `read` is
      `readValue(text, Object.class)`; `mismatch` is the message Jackson gives
      when `readValue(text, Map.class)` meets a non-object top level;
      `write` is `writeValueAsString`. Each failure carries the thrown
      exception's message. */
  datatype Codec = Codec(
    read: string -> Result<Json, Message>,
    mismatch: string -> string,
    write: Json -> Result<string, Message>)

  /** `readValue(text, Map.class)`: an object gives its fields, a JSON
      `null` gives a null map, any other top level is a mismatch. */
  function ReadMap(codec: Codec, text: string): (r: Result<Option<seq<Field>>, Message>)
    ensures r.Ok? && r.value.Some? <==> codec.read(text).Ok? && codec.read(text).value.JObject?
    ensures r.Ok? && r.value.Some? ==> r.value.value == codec.read(text).value.fields
    ensures r.Ok? && r.value.None? <==> codec.read(text) == Ok(JNull)
    ensures codec.read(text).Err? ==> r == Err(codec.read(text).error)
  {
    match codec.read(text)
    case Err(m) => Err(m)
    case Ok(JObject(fields)) => Ok(Some(fields))
    case Ok(JNull) => Ok(None)
    case Ok(_) => Err(Some(codec.mismatch(text)))
  }
}

=== FILE: mapping.dfy ===
/** `AiMappingService`: one mapping call end to end (prompt, generation
    endpoint, reply classification, response repair) and the mapping-rules
    call. The generation endpoint and Jackson are oracles. */
module AiMapping {
  import opened Wrappers
  import opened Text
  import opened Json
  import opened ResponseRepair

  /** What `postForObject(url, entity, Object.class)` hands back: a map, a
      string, a value of some other class (by its simple name), no body at
      all, or a `RestClientException` from the transport. */
  datatype Reply =
    | MapReply(fields: seq<Field>)
    | StringReply(s: string)
    | OtherReply(typeName: string)
    | NullReply
    | TransportError

  /** The request body sent to the endpoint (the temperature is left out). */
  datatype GenerateRequest = GenerateRequest(url: string, model: string, prompt: string, stream: bool)

  /** The configured service: host, model name, the JSON library and the
      generation endpoint. */
  datatype Service = Service(host: string, model: string, codec: Codec, endpoint: GenerateRequest -> Reply)

  const DefaultHost: string := "http://ollama:11434"
  const DefaultModel: string := "mistral"

  function GenerateUrl(host: string): string {
    host + "/api/generate"
  }

  /** The request sent for a prompt: never streamed. */
  function RequestFor(svc: Service, prompt: string): (q: GenerateRequest)
    ensures q.url == GenerateUrl(svc.host) && q.model == svc.model && q.prompt == prompt && !q.stream
  {
    GenerateRequest(GenerateUrl(svc.host), svc.model, prompt, false)
  }

  // ---------------------------------------------------------------------
  // Reply classification

  const InvalidResponsePrefix: string := "Invalid response from Ollama API: "
  const MissingResponseField: string := InvalidResponsePrefix + "missing 'response' field"
  const UnexpectedTypePrefix: string := InvalidResponsePrefix + "unexpected type "
  const OllamaPrefix: string := "Ollama "
  const HtmlInsteadOfJson: string :=
    OllamaPrefix + "returned HTML instead of JSON. " + "The service may be unavailable or misconfigured."
  const UnexpectedFormatPrefix: string := "Unexpected response format from Ollama API: "

  function UnavailableMessage(url: string, model: string): string {
    OllamaPrefix + UnavailableDetail(url, model)
  }

  function UnavailableDetail(url: string, model: string): string {
    "service is unavailable at " + url + ". Ensure the service is running and the model '"
      + model + "' is downloaded. " + "Run 'ollama pull " + model + "' to download the model."
  }

  /** The reply classes the client tells apart. */
  datatype ReplyKind =
    | TextKind | MissingFieldKind | NullFieldKind | HtmlKind | OtherTextKind
    | OtherTypeKind | NoBodyKind | UnavailableKind

  /** Reference classification of a reply. */
  function KindOf(reply: Reply): ReplyKind {
    match reply
    case MapReply(fields) =>
      (match Get(fields, "response")
       case None => MissingFieldKind
       case Some(JNull) => NullFieldKind
       case Some(_) => TextKind)
    case StringReply(s) => if StartsWith(s, "<") then HtmlKind else OtherTextKind
    case OtherReply(_) => OtherTypeKind
    case NullReply => NoBodyKind
    case TransportError => UnavailableKind
  }

  /** `callOllamaApi` after the post: the "response" entry's `toString()`,
      or the exception it throws. A null "response" value and a missing
      body fail with a message-less NullPointerException. */
  function ClassifyReply(reply: Reply, url: string, model: string): (r: Result<string, Message>)
    ensures r.Ok? <==> KindOf(reply) == TextKind
    ensures r.Ok? ==> r.value == Render(Get(reply.fields, "response").value)
    ensures r == Err(None) <==> KindOf(reply) == NullFieldKind || KindOf(reply) == NoBodyKind
    ensures r == Err(Some(UnavailableMessage(url, model))) <==> reply.TransportError?
  {
    match reply
    case MapReply(fields) =>
      (match Get(fields, "response")
       case None =>
         assert InvalidResponsePrefix[0] == 'I' && OllamaPrefix[0] == 'O';
         assert UnavailableMessage(url, model)[0] == 'O';
         Err(Some(MissingResponseField))
       case Some(JNull) => Err(None)
       case Some(v) => Ok(Render(v)))
    case StringReply(s) =>
      if StartsWith(s, "<") then Err(Some(HtmlInsteadOfJson))
      else
        assert UnexpectedFormatPrefix[0] == 'U' && OllamaPrefix[0] == 'O';
        assert UnavailableMessage(url, model)[0] == 'O';
        Err(Some(UnexpectedFormatPrefix + s))
    case OtherReply(t) =>
      assert InvalidResponsePrefix[0] == 'I' && OllamaPrefix[0] == 'O';
      assert UnavailableMessage(url, model)[0] == 'O';
      Err(Some(UnexpectedTypePrefix + t))
    case NullReply => Err(None)
    case TransportError => Err(Some(UnavailableMessage(url, model)))
  }

  /** Every failing class that carries a message carries its own: the
      message tells the class. */
  lemma ReplyMessagesIdentifyKind(a: Reply, b: Reply, url: string, model: string)
    requires ClassifyReply(a, url, model) == ClassifyReply(b, url, model)
    requires ClassifyReply(a, url, model).Err? && ClassifyReply(a, url, model).error.Some?
    ensures KindOf(a) == KindOf(b)
  {
    var m := ClassifyReply(a, url, model).error.value;
    if KindOf(a) != KindOf(b) {
      MessageOfKind(a, url, model);
      MessageOfKind(b, url, model);
      assert false;
    }
  }

  /** The first characters that tell the messages apart. */
  lemma MessageOfKind(reply: Reply, url: string, model: string)
    requires ClassifyReply(reply, url, model).Err? && ClassifyReply(reply, url, model).error.Some?
    ensures var m := ClassifyReply(reply, url, model).error.value;
      && |m| > 34
      && (m[0] == 'I' <==> KindOf(reply) == MissingFieldKind || KindOf(reply) == OtherTypeKind)
      && (m[0] == 'I' ==> (m[34] == 'm' <==> KindOf(reply) == MissingFieldKind))
      && (m[0] == 'U' <==> KindOf(reply) == OtherTextKind)
      && (m[0] == 'O' ==> (m[7] == 'r' <==> KindOf(reply) == HtmlKind))
      && (m[0] == 'O' || m[0] == 'I' || m[0] == 'U')
  {
    assert InvalidResponsePrefix[0] == 'I' && OllamaPrefix[0] == 'O' && |OllamaPrefix| == 7;
    match reply
    case MapReply(_) =>
      assert MissingResponseField[34] == "missing 'response' field"[0];
    case StringReply(s) =>
      assert HtmlInsteadOfJson[7] == "returned HTML instead of JSON. "[0];
      assert UnexpectedFormatPrefix[0] == 'U';
    case OtherReply(_) =>
      assert UnexpectedTypePrefix[34] == "unexpected type "[0];
    case NullReply =>
    case TransportError =>
      assert UnavailableDetail(url, model)[0] == 's';
  }

  // ---------------------------------------------------------------------
  // Prompts

  /** A mapping request; the target sample is read by the service although
      the request record declares no such field, so it is optional here. */
  datatype MappingRequest = MappingRequest(
    sourceData: Option<seq<Field>>,
    sourceSchema: Option<string>,
    targetSchema: Option<string>,
    mappingRules: Option<string>,
    targetSample: Option<string>)

  const PromptHead: string :=
    "CRITICAL: Return ONLY a JSON object. Do NOT include any introduction, explanation, text, or commentary. Start directly with { and end with }.\n\nYou are a data mapping expert. Map the following source data to the target schema.\n\nSOURCE SCHEMA (note the data types):\n"

  const TargetSchemaHeader: string := "\n\nTARGET SCHEMA:\n"
  const SampleHeader: string := "\nTARGET SAMPLE DATA (structure example):\n"
  const SourceDataHeader: string := "\n\nSOURCE DATA:\n"
  const MappingRulesHeader: string := "\n\nMAPPING RULES:\n"

  const PromptTail: string :=
    "\n\nINSTRUCTIONS FOR JSON GENERATION:\n1. Return ONLY a valid JSON object that EXACTLY matches the target schema structure\n2. Start with { and end with } - no text before or after\n3. IMPORTANT: Preserve data types from SOURCE SCHEMA when mapping:\n   - If source field is \"List\" type, map it as JSON array [] even if target name is different\n   - If source is array/list, the mapped target MUST also be an array\n   - Example: if \"categories\" is List type, \"category\" field should be [\"value1\",\"value2\"], NOT \"value1,value2\"\n4. CRITICAL FOR COMPLEX TYPES - Handle nested objects correctly:\n   - NEVER stringify objects or arrays - return them as proper JSON structures\n   - If source has nested object like {length: 30, width: 25, height: 2}, return it as: {\"length\": 30, \"width\": 25, \"height\": 2}\n   - WRONG: \"dimensions\": \"{ \"length\": '30', \"width\": '25' }\"\n   - CORRECT: \"dimensions\": {\"length\": 30, \"width\": 25}\n   - NEVER wrap objects or arrays in quotes\n5. Look at TARGET SAMPLE DATA to understand the correct structure\n6. If target sample shows a field as array, return it as JSON array, NOT as string\n7. If target sample shows a field as object/nested, return it as JSON object, NOT as string\n8. If target sample shows a field as number, return it as number, NOT as string\n9. Match the EXACT structure and types shown in TARGET SAMPLE DATA and SOURCE SCHEMA\n10. Do NOT include any markdown code blocks (no ``` or ~~~)\n11. Do NOT include any comments (no // or /* */)\n12. Do NOT include ANY explanation, introduction, or description text\n13. Use double quotes for all JSON strings, never single quotes\n14. Ensure all JSON braces and brackets are properly closed\n15. If a value is missing or cannot be determined, omit the field (don't include it) or use null\n\nTransform the source data according to the target schema and mapping rules.\nReturn ONLY: {the JSON object}"

  /** The target-sample section: empty unless a non-empty sample is given. */
  function SampleSection(sample: Option<string>): (r: string)
    ensures r == "" <==> sample.None? || sample.value == ""
    ensures r != "" ==> StartsWith(r, SampleHeader) && r[|SampleHeader|..] == sample.value
  {
    if sample.Some? && sample.value != "" then SampleHeader + sample.value else ""
  }

  /** The mapping prompt as template pieces and arguments, in order. */
  function PromptParts(ss: string, ts: string, sample: string, data: string, rules: string): seq<string> {
    [PromptHead, ss, TargetSchemaHeader, ts, "\n", sample, SourceDataHeader, data, MappingRulesHeader, rules, PromptTail]
  }

  function MappingPrompt(ss: string, ts: string, sample: string, data: string, rules: string): string {
    Concat(PromptParts(ss, ts, sample, data, rules))
  }

  /** The source data as the JSON value handed to `writeValueAsString`. */
  function SourceDataJson(request: MappingRequest): Json {
    match request.sourceData
    case None => JNull
    case Some(fields) => JObject(fields)
  }

  /** `buildMappingPrompt`: `String.format` renders null arguments as
      "null"; serialising the source data may fail. */
  function BuildPrompt(codec: Codec, request: MappingRequest): (r: Result<string, Message>)
    ensures r.Err? <==> codec.write(SourceDataJson(request)).Err?
    ensures r.Err? ==> r.error == codec.write(SourceDataJson(request)).error
    ensures r.Ok? ==> r.value == MappingPrompt(
      NullToText(request.sourceSchema), NullToText(request.targetSchema),
      SampleSection(request.targetSample), codec.write(SourceDataJson(request)).value,
      NullToText(request.mappingRules))
  {
    match codec.write(SourceDataJson(request))
    case Err(m) => Err(m)
    case Ok(data) =>
      Ok(MappingPrompt(
        NullToText(request.sourceSchema), NullToText(request.targetSchema),
        SampleSection(request.targetSample), data, NullToText(request.mappingRules)))
  }

  /** Pieces 1, 3, 5, 7 and 9 of an eleven-piece layout appear verbatim
      and in that order. */
  lemma OddPiecesInOrder(parts: seq<string>)
    requires |parts| == 11
    ensures var p := Concat(parts);
      && OccursAt(p, parts[1], Offset(parts, 1))
      && OccursAt(p, parts[3], Offset(parts, 3))
      && OccursAt(p, parts[5], Offset(parts, 5))
      && OccursAt(p, parts[7], Offset(parts, 7))
      && OccursAt(p, parts[9], Offset(parts, 9))
      && Offset(parts, 1) + |parts[1]| <= Offset(parts, 3)
      && Offset(parts, 3) + |parts[3]| <= Offset(parts, 5)
      && Offset(parts, 5) + |parts[5]| <= Offset(parts, 7)
      && Offset(parts, 7) + |parts[7]| <= Offset(parts, 9)
  {
    PiecesInOrder(parts, 1, 3);
    PiecesInOrder(parts, 3, 5);
    PiecesInOrder(parts, 5, 7);
    PiecesInOrder(parts, 7, 9);
  }

  /** The source schema, target schema, sample section, serialised data and
      rules appear verbatim and in that order. */
  lemma PromptKeepsArgumentsInOrder(ss: string, ts: string, sample: string, data: string, rules: string)
    ensures var p := MappingPrompt(ss, ts, sample, data, rules);
      var parts := PromptParts(ss, ts, sample, data, rules);
      && OccursAt(p, ss, Offset(parts, 1))
      && OccursAt(p, ts, Offset(parts, 3))
      && OccursAt(p, sample, Offset(parts, 5))
      && OccursAt(p, data, Offset(parts, 7))
      && OccursAt(p, rules, Offset(parts, 9))
      && Offset(parts, 1) + |ss| <= Offset(parts, 3)
      && Offset(parts, 3) + |ts| <= Offset(parts, 5)
      && Offset(parts, 5) + |sample| <= Offset(parts, 7)
      && Offset(parts, 7) + |data| <= Offset(parts, 9)
  {
    OddPiecesInOrder(PromptParts(ss, ts, sample, data, rules));
  }

  const RulesPromptHead: string :=
    "You are a data mapping expert. Analyze the source and target schemas, and generate mapping rules.\n\nSOURCE SCHEMA:\n"

  const RulesTargetHeader: string := "\n\nTARGET SCHEMA:\n"

  const RulesPromptTail: string :=
    "\n\nGenerate mapping rules in the following format (one rule per line):\n- Map [source_field] to [target_field]\n\nIMPORTANT RULES:\n1. Only include fields that have EXACT NAME MATCHES between source and target\n2. Do NOT map fields with similar but different names (e.g., 'source_amount' to 'amount' is NOT allowed)\n3. For fields in TARGET that don't have exact source matches, DO NOT include them in the rules\n4. These unmapped target fields will be identified separately for manual configuration\n5. Only output the mapping rules, nothing else - no explanations or comments"

  function RulesPromptParts(ss: string, ts: string): seq<string> {
    [RulesPromptHead, ss, RulesTargetHeader, ts, RulesPromptTail]
  }

  /** `buildMappingRulesPrompt`. */
  function RulesPrompt(ss: string, ts: string): string {
    Concat(RulesPromptParts(ss, ts))
  }

  /** Both schemas appear verbatim, the source schema first. */
  lemma RulesPromptKeepsSchemas(ss: string, ts: string)
    ensures var parts := RulesPromptParts(ss, ts);
      && OccursAt(RulesPrompt(ss, ts), ss, Offset(parts, 1))
      && OccursAt(RulesPrompt(ss, ts), ts, Offset(parts, 3))
      && Offset(parts, 1) + |ss| <= Offset(parts, 3)
  {
    PiecesInOrder(RulesPromptParts(ss, ts), 1, 3);
  }

  // ---------------------------------------------------------------------
  // The two entry points

  /** `callOllamaApi`: post the prompt and classify the reply. */
  function CallGeneration(svc: Service, prompt: string): (r: Result<string, Message>)
    ensures r.Ok? <==> KindOf(svc.endpoint(RequestFor(svc, prompt))) == TextKind
    ensures svc.endpoint(RequestFor(svc, prompt)).TransportError? ==>
      r == Err(Some(UnavailableMessage(GenerateUrl(svc.host), svc.model)))
  {
    ClassifyReply(svc.endpoint(RequestFor(svc, prompt)), GenerateUrl(svc.host), svc.model)
  }

  datatype MappingResponse = MappingResponse(
    mappingId: string,
    status: string,
    mappedData: Option<seq<Field>>,
    transformationDetails: Option<string>,
    errorMessage: Message,
    processedAt: int,
    executionTimeMs: int)

  const Success: string := "SUCCESS"
  const Failed: string := "FAILED"

  function FailedResponse(mappingId: string, m: Message, processedAt: int, elapsedMs: int): MappingResponse {
    MappingResponse(mappingId, Failed, None, None, m, processedAt, elapsedMs)
  }

  /** `mapData`: every failure is caught and reported as FAILED with the
      exception's message; success carries the repaired object and the raw
      generated text. The id, the clock reading and the elapsed time are
      drawn outside and passed in. */
  function MapData(svc: Service, request: MappingRequest, mappingId: string, processedAt: int, elapsedMs: int)
    : (r: MappingResponse)
    ensures r.mappingId == mappingId && r.processedAt == processedAt && r.executionTimeMs == elapsedMs
    ensures r.status == Success || r.status == Failed
    ensures r.status == Success ==> r.mappedData.Some? && r.transformationDetails.Some? && r.errorMessage.None?
    ensures r.status == Failed ==> r.mappedData.None? && r.transformationDetails.None?
    ensures r.status == Success <==>
      && BuildPrompt(svc.codec, request).Ok?
      && CallGeneration(svc, BuildPrompt(svc.codec, request).value).Ok?
      && ParseMappedData(svc.codec, CallGeneration(svc, BuildPrompt(svc.codec, request).value).value).Ok?
    ensures r.status == Success ==>
      var text := CallGeneration(svc, BuildPrompt(svc.codec, request).value).value;
      && r.transformationDetails == Some(text)
      && r.mappedData == Some(ParseMappedData(svc.codec, text).value)
    ensures BuildPrompt(svc.codec, request).Err? ==> r.errorMessage == BuildPrompt(svc.codec, request).error
    ensures BuildPrompt(svc.codec, request).Ok? && CallGeneration(svc, BuildPrompt(svc.codec, request).value).Err? ==>
      r.errorMessage == CallGeneration(svc, BuildPrompt(svc.codec, request).value).error
    ensures
      && BuildPrompt(svc.codec, request).Ok?
      && CallGeneration(svc, BuildPrompt(svc.codec, request).value).Ok?
      && ParseMappedData(svc.codec, CallGeneration(svc, BuildPrompt(svc.codec, request).value).value).Err?
      ==>
      r.errorMessage == Some(ParseMappedData(svc.codec, CallGeneration(svc, BuildPrompt(svc.codec, request).value).value).error)
  {
    match BuildPrompt(svc.codec, request)
    case Err(m) => FailedResponse(mappingId, m, processedAt, elapsedMs)
    case Ok(prompt) =>
      match CallGeneration(svc, prompt)
      case Err(m) => FailedResponse(mappingId, m, processedAt, elapsedMs)
      case Ok(text) =>
        match ParseMappedData(svc.codec, text)
        case Err(e) => FailedResponse(mappingId, Some(e), processedAt, elapsedMs)
        case Ok(fields) =>
          MappingResponse(mappingId, Success, Some(fields), Some(text), None, processedAt, elapsedMs)
  }

  /** A reply that repairs to an empty object is still a success. */
  lemma EmptyObjectIsSuccess(svc: Service, request: MappingRequest, mappingId: string, processedAt: int, elapsedMs: int)
    requires BuildPrompt(svc.codec, request).Ok?
    requires CallGeneration(svc, BuildPrompt(svc.codec, request).value).Ok?
    requires ParseMappedData(svc.codec, CallGeneration(svc, BuildPrompt(svc.codec, request).value).value) == Ok([])
    ensures MapData(svc, request, mappingId, processedAt, elapsedMs).status == Success
    ensures MapData(svc, request, mappingId, processedAt, elapsedMs).mappedData == Some([])
  {
  }

  /** An unreachable endpoint and an unparseable reply both end as FAILED:
      the first with the transport message, the second with the parser's
      own message, which carries the invalid-JSON prefix. */
  lemma FailuresAreReported(svc: Service, request: MappingRequest, mappingId: string, processedAt: int, elapsedMs: int)
    requires BuildPrompt(svc.codec, request).Ok?
    ensures var prompt := BuildPrompt(svc.codec, request).value;
      var r := MapData(svc, request, mappingId, processedAt, elapsedMs);
      && (svc.endpoint(RequestFor(svc, prompt)).TransportError? ==>
           r.status == Failed && r.errorMessage == Some(UnavailableMessage(GenerateUrl(svc.host), svc.model)))
      && (CallGeneration(svc, prompt).Ok? && ParseMappedData(svc.codec, CallGeneration(svc, prompt).value).Err? ==>
           && r.status == Failed
           && r.errorMessage == Some(ParseMappedData(svc.codec, CallGeneration(svc, prompt).value).error)
           && StartsWith(r.errorMessage.value, InvalidJsonPrefix))
  {
  }

  const RulesFailurePrefix: string := "Failed to generate mapping rules: "

  /** `generateMappingRules`: the raw generated text, or a failure whose
      message carries the rules prefix. Null schemas are formatted as
      "null". */
  function GenerateMappingRules(svc: Service, ss: Option<string>, ts: Option<string>): (r: Result<string, string>)
    ensures var reply := svc.endpoint(RequestFor(svc, RulesPrompt(NullToText(ss), NullToText(ts))));
      && (r.Ok? <==> KindOf(reply) == TextKind)
      && (r.Ok? ==> r.value == Render(Get(reply.fields, "response").value))
    ensures r.Err? ==> StartsWith(r.error, RulesFailurePrefix)
  {
    match CallGeneration(svc, RulesPrompt(NullToText(ss), NullToText(ts)))
    case Ok(text) => Ok(text)
    case Err(m) => Err(RulesFailurePrefix + NullToText(m))
  }
}

=== FILE: patterns.dfy ===
/** The two regular expressions of the type detector, as patterns of
    fixed-count and starred character classes, with `String.matches`
    (whole-text match) over them. */
module Patterns {

  /** The character classes that occur: `\d` (ASCII digits only, as Java
      reads it by default), `[0-9a-f]`, `[a-zA-Z0-9_-]`, a literal char, and
      `.` (any char but the line terminators \n, \r, U+0085, U+2028,
      U+2029). */
  datatype CharClass = AsciiDigit | LowerHex | IdChar | Exactly(c: char) | AnyButLineEnd

  predicate InClass(k: CharClass, c: char) {
    match k
    case AsciiDigit => '0' <= c <= '9'
    case LowerHex => '0' <= c <= '9' || 'a' <= c <= 'f'
    case IdChar => 'a' <= c <= 'z' || 'A' <= c <= 'Z' || '0' <= c <= '9' || c == '_' || c == '-'
    case Exactly(x) => c == x
    case AnyButLineEnd => !(c == '\n' || c == '\r' || c == '\U{85}' || c == '\U{2028}' || c == '\U{2029}')
  }

  /** `k{n}`, `k{lo,hi}` or `k*`. */
  datatype Piece = Repeat(k: CharClass, n: nat) | Between(k: CharClass, lo: nat, hi: nat) | Star(k: CharClass)

  predicate AllIn(k: CharClass, s: string) {
    forall i :: 0 <= i < |s| ==> InClass(k, s[i])
  }

  /** The whole of `s` matches the pieces in order; a star may take any
      number of chars. */
  predicate FullMatch(p: seq<Piece>, s: string)
    decreases |p|
  {
    if |p| == 0 then |s| == 0
    else match p[0]
      case Repeat(k, n) => n <= |s| && AllIn(k, s[..n]) && FullMatch(p[1..], s[n..])
      case Between(k, lo, hi) =>
        exists j | lo <= j <= hi && j <= |s| :: AllIn(k, s[..j]) && FullMatch(p[1..], s[j..])
      case Star(k) => exists j | 0 <= j <= |s| :: AllIn(k, s[..j]) && FullMatch(p[1..], s[j..])
  }

  /** A final star matches exactly the texts made of its class. */
  lemma FinalStar(k: CharClass, s: string)
    ensures FullMatch([Star(k)], s) <==> AllIn(k, s)
  {
    var p := [Star(k)];
    assert p[1..] == [];
    if AllIn(k, s) {
      assert s[..|s|] == s;
      assert AllIn(k, s[..|s|]) && FullMatch(p[1..], s[|s|..]);
    }
  }

  /** A lone bounded piece matches exactly the texts of its class whose
      length is within the bounds. */
  lemma LoneBetween(k: CharClass, lo: nat, hi: nat, s: string)
    ensures FullMatch([Between(k, lo, hi)], s) <==> lo <= |s| <= hi && AllIn(k, s)
  {
    var p := [Between(k, lo, hi)];
    assert p[1..] == [];
    if lo <= |s| <= hi && AllIn(k, s) {
      assert s[..|s|] == s;
      assert AllIn(k, s[..|s|]) && FullMatch(p[1..], s[|s|..]);
    }
  }

  /** A leading fixed-count piece consumes exactly its count. */
  lemma LeadingRepeat(k: CharClass, n: nat, rest: seq<Piece>, s: string)
    ensures FullMatch([Repeat(k, n)] + rest, s) <==> n <= |s| && AllIn(k, s[..n]) && FullMatch(rest, s[n..])
  {
    assert ([Repeat(k, n)] + rest)[1..] == rest;
  }

  /** `\d{4}-\d{2}-\d{2}.*` */
  const DatePattern: seq<Piece> := [
    Repeat(AsciiDigit, 4), Repeat(Exactly('-'), 1), Repeat(AsciiDigit, 2), Repeat(Exactly('-'), 1),
    Repeat(AsciiDigit, 2), Star(AnyButLineEnd)]

  /** `[0-9a-f]{8}-[0-9a-f]{4}-[0-9a-f]{4}-[0-9a-f]{4}-[0-9a-f]{12}`, the
      lower-case textual form of section 3 of RFC 4122. */
  const UuidPattern: seq<Piece> := [
    Repeat(LowerHex, 8), Repeat(Exactly('-'), 1), Repeat(LowerHex, 4), Repeat(Exactly('-'), 1),
    Repeat(LowerHex, 4), Repeat(Exactly('-'), 1), Repeat(LowerHex, 4), Repeat(Exactly('-'), 1),
    Repeat(LowerHex, 12)]
}

=== FILE: products.dfy ===
/** The product row and the two builders of history rows. A row is both a
    current product and, with an event type other than CREATED, an entry of
    some product's history. */
module Products {
  import opened Wrappers
  import opened Tenancy

  /** Time stamps are opaque ordered instants. */
  type Instant = int

  /** Every column may be null in memory; prices are taken as exact
      ordered values. */
  datatype Product = Product(
    id: Option<int>,
    name: Option<string>,
    description: Option<string>,
    category: Option<string>,
    price: Option<real>,
    stockQuantity: Option<int>,
    originalProductId: Option<int>,
    eventType: Option<string>,
    eventTime: Option<Instant>,
    tenantId: Option<string>)

  const Created := "CREATED"
  const Updated := "UPDATED"
  const Deleted := "DELETED"

  const EmptyProduct := Product(None, None, None, None, None, None, None, None, None, None)

  /** The `(name, price)` constructor: only name, price and the time are set. */
  function NewProduct(name: Option<string>, price: Option<real>, now: Instant): (p: Product)
    ensures p.name == name && p.price == price && p.eventTime == Some(now)
    ensures p.id.None? && p.description.None? && p.category.None? && p.stockQuantity.None?
    ensures p.originalProductId.None? && p.eventType.None? && p.tenantId.None?
  {
    EmptyProduct.(name := name, price := price, eventTime := Some(now))
  }

  /** The catalogue fields of two rows agree. */
  predicate SameCatalogueFields(a: Product, b: Product) {
    a.name == b.name && a.description == b.description && a.category == b.category &&
    a.price == b.price && a.stockQuantity == b.stockQuantity
  }

  /** The one-argument `createHistory`: a fresh row copying the catalogue
      fields and the event, pointing back at the source's id. */
  function History(source: Product): (h: Product)
    ensures h.id.None? && h.tenantId.None?
    ensures h.originalProductId == source.id
    ensures h.name == source.name && h.description == source.description && h.category == source.category
    ensures h.price == source.price && h.stockQuantity == source.stockQuantity
    ensures h.eventType == source.eventType && h.eventTime == source.eventTime
  {
    Product(None, source.name, source.description, source.category, source.price, source.stockQuantity,
      source.id, source.eventType, source.eventTime, None)
  }

  /** The two-argument `createHistory`: the same copy, stamped with the
      given event type and the current time. */
  function HistoryAs(source: Product, eventType: string, now: Instant): (h: Product)
    ensures h.eventType == Some(eventType) && h.eventTime == Some(now)
    ensures h.id.None? && h.tenantId.None?
    ensures h.originalProductId == source.id
    ensures SameCatalogueFields(h, source)
  {
    var base := History(source);
    base.(eventType := Some(eventType), eventTime := Some(now))
  }

  /** A history copy keeps the catalogue fields whichever builder made it,
      and the two builders differ in the event stamp only. */
  lemma HistoryBuildersAgree(source: Product, eventType: string, now: Instant)
    ensures SameCatalogueFields(History(source), source)
    ensures SameCatalogueFields(HistoryAs(source, eventType, now), source)
    ensures HistoryAs(source, eventType, now).originalProductId == History(source).originalProductId
    ensures HistoryAs(source, eventType, now).(eventType := source.eventType, eventTime := source.eventTime) ==
      History(source)
  {
  }

  /** The tenant listener on a product: only the tenant column may change. */
  function WithListenerTenant(ctx: TenantContext, p: Product): (q: Product)
    ensures q == p.(tenantId := q.tenantId)
    ensures p.tenantId.Some? ==> q == p
    ensures p.tenantId.None? ==> q.tenantId == ctx.tenant
  {
    p.(tenantId := FillTenant(ctx, p.tenantId))
  }

  /** The listener's outcome does not depend on the order of repeated
      runs: a second run changes nothing. */
  lemma ListenerIdempotent(ctx: TenantContext, other: TenantContext, p: Product)
    ensures WithListenerTenant(ctx, WithListenerTenant(ctx, p)) == WithListenerTenant(ctx, p)
    ensures ctx.tenant.Some? ==> WithListenerTenant(other, WithListenerTenant(ctx, p)) == WithListenerTenant(ctx, p)
  {
  }

  /** Overwrite the five catalogue fields of `target` with those of `from`. */
  function CopyCatalogueFields(target: Product, from: Product): (r: Product)
    ensures SameCatalogueFields(r, from)
    ensures r.id == target.id && r.tenantId == target.tenantId && r.originalProductId == target.originalProductId
    ensures r.eventType == target.eventType && r.eventTime == target.eventTime
  {
    target.(name := from.name, description := from.description, category := from.category,
      price := from.price, stockQuantity := from.stockQuantity)
  }
}

=== FILE: productservice.dfy ===
/** The product service: tenant-scoped reads, writes that keep a history
    row per change, and the handling of product events arriving from the
    message bus. Every call sees the table, the tenant cell and, where a
    time is stamped, the current instant. */
module ProductServices {
  import opened Wrappers
  import opened Text
  import opened Json
  import opened Tenancy
  import opened Products
  import opened ProductStore
  import opened ErrorHandling

  /** "Product with id <id> not found". */
  function NotFoundMessage(id: int): string {
    "Product with id " + IntToDecimal(id) + " not found"
  }

  /** The failure of the strict tenant reader, as thrown. */
  const TenantNotSet := IllegalState(Some(TenantNotSetMessage))

  /** A successful write: the table afterwards, the row the call returns,
      and the rows sent to the message bus, in order. */
  datatype Written = Written(store: Store, value: Product, published: seq<Product>)

  /** `getAllProducts`. */
  function GetAllProducts(s: Store, ctx: TenantContext): (r: Result<seq<Product>, Thrown>)
    ensures r.Err? <==> CurrentTenantId(ctx).Err?
    ensures r.Err? ==> r.error == TenantNotSet
    ensures r.Ok? ==> forall p :: p in r.value <==>
      p in s.rows && p.tenantId == ctx.tenant && IsCurrent(p)
  {
    match CurrentTenantId(ctx)
    case Err(_) => Err(TenantNotSet)
    case Ok(t) => Ok(FindCurrentProductsByTenant(s, t))
  }

  /** `getProductById`: another tenant's row looks exactly like a missing one. */
  function GetProductById(s: Store, ctx: TenantContext, id: int): (r: Result<Product, Thrown>)
    requires Valid(s)
    ensures CurrentTenantId(ctx).Err? ==> r == Err(TenantNotSet)
    ensures r.Ok? ==> r.value in s.rows && r.value.id == Some(id) && r.value.tenantId == ctx.tenant
    ensures CurrentTenantId(ctx).Ok? ==>
      (r.Ok? <==> exists i :: 0 <= i < |s.rows| && s.rows[i].id == Some(id) && s.rows[i].tenantId == ctx.tenant)
    ensures CurrentTenantId(ctx).Ok? && r.Err? ==> r.error == ProductNotFound(Some(NotFoundMessage(id)))
  {
    match CurrentTenantId(ctx)
    case Err(_) => Err(TenantNotSet)
    case Ok(t) =>
      match FindByIdAndTenantId(s, Some(id), t)
      case None => Err(ProductNotFound(Some(NotFoundMessage(id))))
      case Some(p) => Ok(p)
  }

  /** `getProductHistory`: the tenant's rows pointing back at `id`, newest
      first. */
  function GetProductHistory(s: Store, ctx: TenantContext, id: int): (r: Result<seq<Product>, Thrown>)
    ensures r.Err? <==> CurrentTenantId(ctx).Err?
    ensures r.Err? ==> r.error == TenantNotSet
    ensures r.Ok? ==> NewestFirst(r.value)
    ensures r.Ok? ==> forall p :: p in r.value <==>
      p in s.rows && p.originalProductId == Some(id) && p.tenantId == ctx.tenant
  {
    match CurrentTenantId(ctx)
    case Err(_) => Err(TenantNotSet)
    case Ok(t) => Ok(FindHistory(s, id, t))
  }

  /** `createProduct`: stamped CREATED at `now`, saved (the listener fills
      the tenant) and published. No tenant check of its own. */
  function CreateProduct(s: Store, ctx: TenantContext, product: Product, now: Instant): (w: Written)
    requires Valid(s)
    ensures Valid(w.store)
    ensures w.value.eventType == Some(Created) && w.value.eventTime == Some(now)
    ensures SameCatalogueFields(w.value, product)
    ensures w.value.tenantId == FillTenant(ctx, product.tenantId)
    ensures w.value in w.store.rows && w.published == [w.value]
    ensures forall p :: p in w.store.rows <==> (p in s.rows && p.id != w.value.id) || p == w.value
    ensures product.id.None? ==> w.value.id == Some(s.nextId) && |w.store.rows| == |s.rows| + 1
    ensures product.id.Some? && (exists i :: 0 <= i < |s.rows| && s.rows[i].id == product.id) ==>
      w.value.id == product.id && |w.store.rows| == |s.rows|
  {
    var stamped := product.(eventType := Some(Created), eventTime := Some(now));
    var (s2, saved) := Save(s, ctx, stamped);
    SaveFrame(s, ctx, stamped);
    Written(s2, saved, [saved])
  }

  /** `updateProduct`: on an owned row, an UPDATED copy of the row as it
      was is saved first, then exactly the five catalogue fields are
      overwritten; on any other id nothing is written. */
  function UpdateProduct(s: Store, ctx: TenantContext, id: int, updated: Product, now: Instant): (r: Result<Written, Thrown>)
    requires Valid(s)
    ensures r.Err? <==> GetProductById(s, ctx, id).Err?
    ensures r.Err? ==> r.error == GetProductById(s, ctx, id).error
    ensures r.Ok? ==> Valid(r.value.store)
    ensures r.Ok? ==>
      var before := GetProductById(s, ctx, id).value;
      && r.value.value == CopyCatalogueFields(before, updated)
      && r.value.published == [r.value.value]
      && r.value.value in r.value.store.rows
      && r.value.value.id == Some(id)
      && |r.value.store.rows| == |s.rows| + 1
      && forall p :: p in r.value.store.rows <==>
           (p in s.rows && p.id != Some(id)) || p == r.value.value
           || p == HistoryAs(before, Updated, now).(id := Some(s.nextId), tenantId := ctx.tenant)
  {
    match GetProductById(s, ctx, id)
    case Err(e) => Err(e)
    case Ok(existing) =>
      var (s1, h) := Save(s, ctx, HistoryAs(existing, Updated, now));
      SaveFrame(s, ctx, HistoryAs(existing, Updated, now));
      var changed := CopyCatalogueFields(existing, updated);
      var (s2, saved) := Save(s1, ctx, changed);
      assert existing in s1.rows;
      SaveFrame(s1, ctx, changed);
      assert forall p :: p in s.rows ==> p.id != h.id;
      Ok(Written(s2, saved, [saved]))
  }

  /** `deleteProduct`: on an owned row, a DELETED copy is saved and the row
      removed; the copy is published. On any other id nothing changes. */
  function DeleteProduct(s: Store, ctx: TenantContext, id: int, now: Instant): (r: Result<Written, Thrown>)
    requires Valid(s)
    ensures r.Err? <==> GetProductById(s, ctx, id).Err?
    ensures r.Err? ==> r.error == GetProductById(s, ctx, id).error
    ensures r.Ok? ==> Valid(r.value.store)
    ensures r.Ok? ==>
      var before := GetProductById(s, ctx, id).value;
      && r.value.value == HistoryAs(before, Deleted, now).(id := Some(s.nextId), tenantId := ctx.tenant)
      && r.value.published == [r.value.value]
      && (forall p :: p in r.value.store.rows <==> (p in s.rows && p.id != Some(id)) || p == r.value.value)
  {
    match GetProductById(s, ctx, id)
    case Err(e) => Err(e)
    case Ok(existing) =>
      var (s1, history) := Save(s, ctx, HistoryAs(existing, Deleted, now));
      match DeleteById(s1, Some(id))
      case Ok(s2) => Ok(Written(s2, history, [history]))
      case Err(_) => assert false; Err(TenantNotSet)
  }

  /** `processProductEvent`: CREATED saves the event; UPDATED copies the five
      fields onto the row only when a tenant is known and owns it; DELETED
      removes by id with no tenant check, and a null id is refused inside
      the repository, whose proxy translates the illegal argument into a
      data-access failure; other types do nothing. A null type fails the
      switch (a null pointer, no message). */
  function ProcessProductEvent(s: Store, ctx: TenantContext, event: Product): (r: Result<Store, Thrown>)
    requires Valid(s)
    ensures r.Ok? ==> Valid(r.value)
    ensures event.eventType.None? <==> r == Err(OtherFailure(None))
    ensures event.eventType == Some(Created) ==> r == Ok(Save(s, ctx, event).0)
    ensures event.eventType == Some(Deleted) ==>
      match DeleteById(s, event.id)
      case Ok(s2) => r == Ok(s2)
      case Err(m) => r == Err(DataAccessFailure(m))
    ensures event.eventType == Some(Updated) ==> r.Ok?
    ensures event.eventType == Some(Updated) && (if event.tenantId.Some? then event.tenantId else ctx.tenant).None? ==>
      r == Ok(s)
    ensures event.eventType.Some? && event.eventType.value !in {Created, Updated, Deleted} ==> r == Ok(s)
  {
    var tenant := if event.tenantId.Some? then event.tenantId else TenantIdOrNull(ctx);
    match event.eventType
    case None => Err(OtherFailure(None))
    case Some(kind) =>
      if kind == Created then Ok(Save(s, ctx, event).0)
      else if kind == Updated then
        if tenant.None? then Ok(s)
        else
          match FindByIdAndTenantId(s, event.id, tenant.value)
          case None => Ok(s)
          case Some(existing) => Ok(Save(s, ctx, CopyCatalogueFields(existing, event)).0)
      else if kind == Deleted then
        match DeleteById(s, event.id)
        case Ok(s2) => Ok(s2)
        case Err(m) => Err(DataAccessFailure(m))
      else Ok(s)
  }

  /** An UPDATED event changes only the owned row's five catalogue fields. */
  lemma UpdatedEventTouchesOwnedRowOnly(s: Store, ctx: TenantContext, event: Product, t: string)
    requires Valid(s) && event.eventType == Some(Updated)
    requires (if event.tenantId.Some? then event.tenantId else ctx.tenant) == Some(t)
    ensures FindByIdAndTenantId(s, event.id, t).None? ==> ProcessProductEvent(s, ctx, event) == Ok(s)
    ensures FindByIdAndTenantId(s, event.id, t).Some? ==>
      var existing := FindByIdAndTenantId(s, event.id, t).value;
      var k := PositionOf(s.rows, event.id.value).value;
      ProcessProductEvent(s, ctx, event) == Ok(s.(rows := s.rows[k := CopyCatalogueFields(existing, event)]))
  {
    if FindByIdAndTenantId(s, event.id, t).Some? {
      var existing := FindByIdAndTenantId(s, event.id, t).value;
      var changed := CopyCatalogueFields(existing, event);
      assert WithListenerTenant(ctx, changed) == changed;
    }
  }

  /** What escapes `handleProductEventFromKafka` when its transaction was
      marked rollback-only: Spring's `UnexpectedRollbackException`. */
  const SilentRollback := OtherFailure(Some("Transaction silently rolled back because it has been marked as rollback-only"))

  /** `handleProductEventFromKafka`, one transaction for the whole call (the
      class is `@Transactional`): a null event writes nothing; otherwise the
      event is stamped `now`, a history copy is saved, and the event is
      processed only when asked. The catch swallows every failure, but one
      raised inside a repository call (the null-id `deleteById` of a DELETED
      event) has already marked the transaction rollback-only: the commit
      then undoes the history write and the rollback escapes. A failure of
      the service's own code (the null event type) leaves the history. */
  function HandleProductEvent(s: Store, ctx: TenantContext, event: Option<Product>, processEvent: bool, now: Instant)
    : (r: Result<Store, Thrown>)
    requires Valid(s)
    ensures r.Ok? ==> Valid(r.value)
    ensures r.Err? <==> event.Some? && processEvent && event.value.eventType == Some(Deleted) && event.value.id.None?
    ensures r.Err? ==> r.error == SilentRollback
    ensures event.None? ==> r == Ok(s)
    ensures event.Some? ==>
      var stamped := event.value.(eventTime := Some(now));
      var afterHistory := Save(s, ctx, History(stamped)).0;
      && History(stamped).(id := Some(s.nextId), tenantId := FillTenant(ctx, None)) in afterHistory.rows
      && (!processEvent ==> r == Ok(afterHistory))
      && (processEvent && ProcessProductEvent(afterHistory, ctx, stamped).Ok? ==>
            r == ProcessProductEvent(afterHistory, ctx, stamped))
      && (processEvent && stamped.eventType.None? ==> r == Ok(afterHistory))
  {
    match event
    case None => Ok(s)
    case Some(e) =>
      var stamped := e.(eventTime := Some(now));
      var (s1, _) := Save(s, ctx, History(stamped));
      if !processEvent then Ok(s1)
      else
        match ProcessProductEvent(s1, ctx, stamped)
        case Ok(s2) => Ok(s2)
        case Err(DataAccessFailure(_)) => Err(SilentRollback)
        case Err(_) => Ok(s1)
  }

  /** A product created under a tenant is read back by that tenant, by id and
      in the full listing, and is invisible to every other tenant. */
  lemma CreatedProductIsVisibleToItsTenantOnly(s: Store, ctx: TenantContext, product: Product, now: Instant, other: TenantContext)
    requires Valid(s) && CurrentTenantId(ctx).Ok? && product.tenantId.None?
    requires CurrentTenantId(other).Ok? && other.tenant != ctx.tenant
    ensures var w := CreateProduct(s, ctx, product, now);
      && GetProductById(w.store, ctx, w.value.id.value) == Ok(w.value)
      && w.value in GetAllProducts(w.store, ctx).value
      && GetProductById(w.store, other, w.value.id.value).Err?
  {
    var w := CreateProduct(s, ctx, product, now);
    var t := ctx.tenant.value;
    assert w.value.tenantId == Some(t);
    var stamped := product.(eventType := Some(Created), eventTime := Some(now));
    SavedRowIsFound(s, ctx, stamped, t, other.tenant.value);
  }

  /** After an update the product reads back with the new catalogue fields,
      and its history holds the UPDATED copy of the row as it was. */
  lemma UpdatedProductReadsBack(s: Store, ctx: TenantContext, id: int, updated: Product, now: Instant)
    requires Valid(s) && UpdateProduct(s, ctx, id, updated, now).Ok?
    ensures var w := UpdateProduct(s, ctx, id, updated, now).value;
      && GetProductById(w.store, ctx, id) == Ok(w.value)
      && SameCatalogueFields(w.value, updated)
      && HistoryAs(GetProductById(s, ctx, id).value, Updated, now).(id := Some(s.nextId), tenantId := ctx.tenant)
           in GetProductHistory(w.store, ctx, id).value
  {
    var w := UpdateProduct(s, ctx, id, updated, now).value;
    var before := GetProductById(s, ctx, id).value;
    var found := FindByIdAndTenantId(w.store, Some(id), ctx.tenant.value);
    assert w.value.tenantId == ctx.tenant;
    assert found.Some? by {
      var k :| 0 <= k < |w.store.rows| && w.store.rows[k] == w.value;
    }
    assert found.value == w.value by {
      assert found.value.id == Some(id) && found.value in w.store.rows;
      assert s.nextId != id;
    }
  }

  /** After a delete the product is gone for its tenant, and its history
      holds the DELETED copy. */
  lemma DeletedProductIsGone(s: Store, ctx: TenantContext, id: int, now: Instant)
    requires Valid(s) && DeleteProduct(s, ctx, id, now).Ok?
    ensures GetProductById(DeleteProduct(s, ctx, id, now).value.store, ctx, id).Err?
    ensures DeleteProduct(s, ctx, id, now).value.value in GetProductHistory(DeleteProduct(s, ctx, id, now).value.store, ctx, id).value
  {
  }

  /** With processing switched off, an event only adds its history copy. */
  lemma UnprocessedEventOnlyRecordsHistory(s: Store, ctx: TenantContext, e: Product, now: Instant)
    requires Valid(s)
    ensures HandleProductEvent(s, ctx, Some(e), false, now).Ok?
    ensures |HandleProductEvent(s, ctx, Some(e), false, now).value.rows| == |s.rows| + 1
    ensures HandleProductEvent(s, ctx, Some(e), false, now).value.rows[..|s.rows|] == s.rows
  {
  }

  /** How the service's failures reach the client: an unknown id is a 404
      carrying the service's message, while a missing tenant (an illegal
      state, not the tenant-missing exception) falls to the generic 500. */
  lemma ServiceFailuresAsAnswered(s: Store, ctx: TenantContext, id: int, uri: string)
    requires Valid(s)
    ensures CurrentTenantId(ctx).Err? ==>
      Handle(GetProductById(s, ctx, id).error, uri).httpStatus == InternalServerError
    ensures CurrentTenantId(ctx).Ok? && GetProductById(s, ctx, id).Err? ==>
      Handle(GetProductById(s, ctx, id).error, uri) ==
        Reply(NotFound, "PRODUCT_NOT_FOUND", Some(NotFoundMessage(id)), uri)
  {
    ClientErrorTable(uri, Some(NotFoundMessage(id)));
    ServerErrorTable(uri, Some(TenantNotSetMessage));
  }
}

=== FILE: repair.dfy ===
/** The response repair pipeline of the AI mapping service: fence
    stripping, first-brace extraction with a brace-balance scan, the Jackson
    parse, and the recursive un-stringification of quoted nested JSON. */
module ResponseRepair {
  import opened Wrappers
  import opened Text
  import opened Json

  const InvalidJsonPrefix: string := "AI mapping returned invalid JSON: "

  /** `t` without `prefix`, when it starts with it. */
  function DropPrefix(t: string, prefix: string): string {
    if StartsWith(t, prefix) then t[|prefix|..] else t
  }

  /** `t` without `suffix`, when it ends with it. */
  function DropSuffix(t: string, suffix: string): string {
    if EndsWith(t, suffix) then t[..|t| - |suffix|] else t
  }

  /** Fence stripping on already trimmed text: a leading "```json", then,
      independently, a leading "```", then a trailing "```". */
  function StripFences(t: string): string {
    DropSuffix(DropPrefix(DropPrefix(t, "```json"), "```"), "```")
  }

  /** Fence stripping only cuts text off the ends. */
  lemma StripFencesIsSlice(t: string) returns (i: int)
    ensures OccursAt(t, StripFences(t), i)
  {
    var a := DropPrefix(t, "```json");
    var b := DropPrefix(a, "```");
    i := |t| - |b|;
  }

  /** Trim, strip fences, trim again. */
  function CleanResponse(raw: string): string {
    Trim(StripFences(Trim(raw)))
  }

  /** +1 for '{', -1 for '}', 0 otherwise. */
  function Step(c: char): int {
    if c == '{' then 1 else if c == '}' then -1 else 0
  }

  /** Opening minus closing braces in `t`, quoted or not. */
  function Depth(t: string): int {
    if |t| == 0 then 0 else Depth(t[..|t| - 1]) + Step(t[|t| - 1])
  }

  lemma DepthSnoc(s: string, k: nat, i: nat)
    requires k <= i < |s|
    ensures Depth(s[k..i + 1]) == Depth(s[k..i]) + Step(s[i])
  {
    assert s[k..i + 1][..i - k] == s[k..i];
  }

  /** The first end position `j > i` of a '}' at which the braces of
      `s[k..j]` balance, if any; `depth` is the brace depth of `s[k..i]`. */
  function CloseFrom(s: string, k: nat, i: nat, depth: int): (r: Option<nat>)
    requires k <= i <= |s|
    decreases |s| - i
    ensures r.Some? ==> i < r.value <= |s|
  {
    if i == |s| then None
    else if s[i] == '}' && depth - 1 == 0 then Some(i + 1)
    else CloseFrom(s, k, i + 1, depth + Step(s[i]))
  }

  /** `extractJsonFromResponse(s, k)` where `k` is the first '{': the text
      from `k` to the brace closing it, or the whole rest of `s`. */
  function ExtractJson(s: string, k: nat): string
    requires k < |s| && s[k] == '{'
  {
    match CloseFrom(s, k, k, 0)
    case Some(j) => s[k..j]
    case None => s[k..]
  }

  /** The scan keeps the depth positive until it stops. */
  lemma {:induction false} CloseFromSpec(s: string, k: nat, i: nat, depth: int)
    requires k < i <= |s|
    requires depth == Depth(s[k..i])
    requires forall m :: k < m <= i ==> Depth(s[k..m]) > 0
    ensures CloseFrom(s, k, i, depth).Some? ==>
      var j := CloseFrom(s, k, i, depth).value;
      && s[j - 1] == '}' && Depth(s[k..j]) == 0
      && forall m :: k < m < j ==> Depth(s[k..m]) > 0
    ensures CloseFrom(s, k, i, depth).None? ==> forall m :: k < m <= |s| ==> Depth(s[k..m]) > 0
    decreases |s| - i
  {
    if i < |s| {
      DepthSnoc(s, k, i);
      if !(s[i] == '}' && depth - 1 == 0) {
        assert Depth(s[k..i + 1]) > 0;
        CloseFromSpec(s, k, i + 1, depth + Step(s[i]));
      }
    }
  }

  /** The extracted text starts at the first '{' and is the shortest prefix
      of the rest whose braces balance (depth at least 1 on every shorter
      prefix, last char '}'), or the whole rest when the depth never returns
      to zero. */
  lemma ExtractJsonIsShortestBalanced(s: string, k: nat)
    requires k < |s| && s[k] == '{'
    ensures var r := ExtractJson(s, k);
      && 1 <= |r| <= |s| - k && r == s[k..k + |r|] && r[0] == '{'
      && (|| (Depth(r) == 0 && r[|r| - 1] == '}' && forall m :: 0 < m < |r| ==> Depth(r[..m]) > 0)
          || (r == s[k..] && forall m :: 0 < m <= |r| ==> Depth(r[..m]) > 0))
  {
    DepthSnoc(s, k, k);
    assert s[k..k] == [];
    assert CloseFrom(s, k, k, 0) == CloseFrom(s, k, k + 1, 1);
    CloseFromSpec(s, k, k + 1, 1);
    var r := ExtractJson(s, k);
    forall m | 0 < m <= |r|
      ensures r[..m] == s[k..k + m]
    {
    }
  }

  /** The Java loop of `extractJsonFromResponse`, called with the position
      of the first '{'. */
  method ExtractJsonFromResponse(response: string, startIndex: nat) returns (r: string)
    requires startIndex < |response| && response[startIndex] == '{'
    ensures r == ExtractJson(response, startIndex)
    ensures 1 <= |r| <= |response| - startIndex && r == response[startIndex..startIndex + |r|]
    ensures Depth(r) == 0 || r == response[startIndex..]
  {
    ExtractJsonIsShortestBalanced(response, startIndex);
    var braceCount := 0;
    var startPos := -1;
    var i := startIndex;
    while i < |response|
      invariant startIndex <= i <= |response|
      invariant i == startIndex ==> startPos == -1
      invariant i > startIndex ==> startPos == startIndex
      invariant braceCount == Depth(response[startIndex..i])
      invariant CloseFrom(response, startIndex, startIndex, 0) == CloseFrom(response, startIndex, i, braceCount)
    {
      DepthSnoc(response, startIndex, i);
      var c := response[i];
      if c == '{' {
        if startPos == -1 {
          startPos := i;
        }
        braceCount := braceCount + 1;
      } else if c == '}' {
        braceCount := braceCount - 1;
        if braceCount == 0 && startPos != -1 {
          return response[startPos..i + 1];
        }
      }
      i := i + 1;
    }
    return response[startIndex..];
  }

  /** The text handed to the parser: the cleaned response, narrowed to the
      balanced object only when the first '{' is not at position 0. */
  function Candidate(raw: string): string {
    var t := CleanResponse(raw);
    var firstBrace := IndexOf(t, '{');
    Trim(if firstBrace > 0 then ExtractJson(t, firstBrace) else t)
  }

  /** A string value the repair re-parses: it starts with '{' and ends with
      '}', or starts with '[' and ends with ']', untrimmed. */
  predicate LooksStringified(s: string) {
    (StartsWith(s, "{") && EndsWith(s, "}")) || (StartsWith(s, "[") && EndsWith(s, "]"))
  }

  /** One value of `fixStringifiedNestedObjects`: a stringified value that
      parses is replaced by the parsed tree (not visited again), a map is
      repaired recursively, everything else is kept. */
  function FixValue(codec: Codec, v: Json): (r: Json)
    decreases v
    ensures v.JString? && LooksStringified(v.s) && codec.read(v.s).Ok? ==> r == codec.read(v.s).value
    ensures v.JString? && !(LooksStringified(v.s) && codec.read(v.s).Ok?) ==> r == v
    ensures v.JObject? ==> r.JObject? && Keys(r.fields) == Keys(v.fields)
    ensures !v.JString? && !v.JObject? ==> r == v
  {
    match v
    case JString(s) =>
      if LooksStringified(s) then
        match codec.read(s)
        case Ok(parsed) => parsed
        case Err(_) => v
      else v
    case JObject(fields) =>
      JObject(seq(|fields|, i requires 0 <= i < |fields| =>
        Field(fields[i].key, FixValue(codec, fields[i].value))))
    case _ => v
  }

  /** `fixStringifiedNestedObjects`: same keys in the same order. */
  function FixStringified(codec: Codec, fields: seq<Field>): (r: seq<Field>)
    ensures Keys(r) == Keys(fields)
    ensures forall i :: 0 <= i < |fields| ==> r[i].value == FixValue(codec, fields[i].value)
  {
    var fixed := FixValue(codec, JObject(fields));
    fixed.fields
  }

  /** No string at any map depth would be re-parsed. */
  predicate NothingStringified(codec: Codec, v: Json)
    decreases v
  {
    match v
    case JString(s) => !(LooksStringified(s) && codec.read(s).Ok?)
    case JObject(fields) =>
      forall i :: 0 <= i < |fields| ==> NothingStringified(codec, fields[i].value)
    case _ => true
  }

  /** The repair is a no-op on trees with nothing to un-stringify. */
  lemma {:induction false} FixValueNoOp(codec: Codec, v: Json)
    requires NothingStringified(codec, v)
    ensures FixValue(codec, v) == v
    decreases v
  {
    match v
    case JObject(fields) =>
      forall i | 0 <= i < |fields|
        ensures FixValue(codec, fields[i].value) == fields[i].value
      {
        FixValueNoOp(codec, fields[i].value);
      }
      assert FixValue(codec, v).fields == fields;
    case _ =>
  }

  /** `parseMappedData`: every failure is rethrown with the invalid-JSON
      prefix; a JSON `null` top level fails in the repair step with a
      message-less NullPointerException. */
  function ParseMappedData(codec: Codec, raw: string): (r: Result<seq<Field>, string>)
    ensures r.Ok? <==> ReadMap(codec, Candidate(raw)).Ok? && ReadMap(codec, Candidate(raw)).value.Some?
    ensures r.Ok? ==> Keys(r.value) == Keys(ReadMap(codec, Candidate(raw)).value.value)
    ensures r.Err? ==> StartsWith(r.error, InvalidJsonPrefix)
  {
    match ReadMap(codec, Candidate(raw))
    case Err(m) => Err(InvalidJsonPrefix + NullToText(m))
    case Ok(None) => Err(InvalidJsonPrefix + NullToText(None))
    case Ok(Some(fields)) => Ok(FixStringified(codec, fields))
  }
  /** A trimmed response that is already bounded by '{' and '}' reaches the
      parser unchanged. */
  lemma CandidateOfCleanObject(raw: string)
    requires var t := Trim(raw); |t| > 0 && t[0] == '{' && t[|t| - 1] == '}'
    ensures Candidate(raw) == Trim(raw)
  {
    var t := Trim(raw);
    assert !StartsWith(t, "```json") && !StartsWith(t, "```") && !EndsWith(t, "```");
    assert StripFences(t) == t;
    TrimNoOp(t);
  }

  /** Brace extraction runs only when the first '{' is past position 0: a
      cleaned text that starts with '{' (even with trailing prose) or has no
      '{' at all goes to the parser as it is. */
  lemma CandidateWithoutExtraction(raw: string)
    requires IndexOf(CleanResponse(raw), '{') <= 0
    ensures Candidate(raw) == CleanResponse(raw)
  {
    var t := CleanResponse(raw);
    assert t == Trim(StripFences(Trim(raw)));
    TrimNoOp(t);
  }

  /** When the first '{' is past position 0, the parser sees the balanced
      object that starts there. */
  lemma CandidateWithExtraction(raw: string)
    requires IndexOf(CleanResponse(raw), '{') > 0
    ensures var t := CleanResponse(raw);
      Candidate(raw) == Trim(ExtractJson(t, IndexOf(t, '{')))
  {
  }

  /** The first char of text whose trim starts with '{' is trim-space or '{'. */
  lemma FirstCharOfBraced(body: string)
    requires var t := Trim(body); |t| > 0 && t[0] == '{'
    ensures |body| > 0 && (IsTrimSpace(body[0]) || body[0] == '{')
  {
    var t := Trim(body);
    var i := TrimOffset(body);
    TrimDropsOnlySpace(body);
    if i == 0 {
      assert body[0] == t[0];
    } else {
      assert IsTrimSpace(body[0]);
    }
  }

  /** A fenced text keeps its fences through the first trim. */
  lemma FencedTrim(fence: string, body: string)
    requires StartsWith(fence, "```")
    ensures Trim(fence + body + "```") == fence + body + "```"
  {
    var x := fence + body + "```";
    assert x[0] == '`' && x[|x| - 1] == '`';
    TrimNoOp(x);
  }

  lemma StripJsonFence(body: string)
    requires |body| > 0 && body[0] != '`'
    ensures StripFences("```json" + body + "```") == body
  {
    var x := "```json" + body + "```";
    assert StartsWith(x, "```json");
    var a := x[7..];
    assert a == body + "```";
    assert !StartsWith(a, "```") by { assert a[0] == body[0]; }
    assert EndsWith(a, "```");
    assert a[..|a| - 3] == body;
  }

  lemma StripBareFence(body: string)
    requires |body| > 0 && body[0] != '`' && body[0] != 'j'
    ensures StripFences("```" + body + "```") == body
  {
    var y := "```" + body + "```";
    assert !StartsWith(y, "```json") by { assert y[3] == body[0]; }
    assert StartsWith(y, "```");
    var b := y[3..];
    assert b == body + "```";
    assert !StartsWith(b, "```") by { assert b[0] == body[0]; }
    assert EndsWith(b, "```");
    assert b[..|b| - 3] == body;
  }

  /** Cleaning removes a "```json" fence around text that trims to an object. */
  lemma JsonFenceCleans(body: string)
    requires var t := Trim(body); |t| > 0 && t[0] == '{' && t[|t| - 1] == '}'
    ensures CleanResponse("```json" + body + "```") == Trim(body)
  {
    FirstCharOfBraced(body);
    FencedTrim("```json", body);
    StripJsonFence(body);
  }

  /** Cleaned text that starts with '{' reaches the parser unchanged. */
  lemma BracedCandidate(raw: string)
    requires var t := CleanResponse(raw); |t| > 0 && t[0] == '{'
    ensures Candidate(raw) == CleanResponse(raw)
  {
    assert IndexOf(CleanResponse(raw), '{') == 0;
    CandidateWithoutExtraction(raw);
  }

  /** An object wrapped in a "```json" fence gives the same parser input
      as the unwrapped text. */
  lemma JsonFenceIsTransparent(body: string)
    requires var t := Trim(body); |t| > 0 && t[0] == '{' && t[|t| - 1] == '}'
    ensures Candidate("```json" + body + "```") == Candidate(body) == Trim(body)
  {
    CandidateOfCleanObject(body);
    JsonFenceCleans(body);
    BracedCandidate("```json" + body + "```");
  }

  /** The same for a bare "```" fence. */
  lemma BareFenceIsTransparent(body: string)
    requires var t := Trim(body); |t| > 0 && t[0] == '{' && t[|t| - 1] == '}'
    ensures Candidate("```" + body + "```") == Candidate(body) == Trim(body)
  {
    FirstCharOfBraced(body);
    CandidateOfCleanObject(body);
    FencedTrim("```", body);
    StripBareFence(body);
    var y := "```" + body + "```";
    assert CleanResponse(y) == Trim(body);
    assert IndexOf(CleanResponse(y), '{') == 0;
    CandidateWithoutExtraction(y);
  }

  /** A balanced object: starts with '{', ends with '}', and its braces
      balance for the first time at its end. */
  predicate BalancedObject(obj: string) {
    && |obj| > 0 && obj[0] == '{' && obj[|obj| - 1] == '}'
    && Depth(obj) == 0
    && forall m :: 0 < m < |obj| ==> Depth(obj[..m]) > 0
  }

  /** Walking through a balanced object the scan does not stop before its
      closing brace and stops right after it. */
  lemma {:induction false} CloseFromWalk(s: string, k: nat, i: nat, obj: string)
    requires BalancedObject(obj)
    requires k + |obj| <= |s| && s[k..k + |obj|] == obj
    requires k <= i < k + |obj|
    ensures CloseFrom(s, k, i, Depth(s[k..i])) == Some(k + |obj|)
    decreases k + |obj| - i
  {
    DepthSnoc(s, k, i);
    assert s[k..i + 1] == obj[..i + 1 - k];
    if i == k + |obj| - 1 {
      assert obj[..i + 1 - k] == obj;
      assert s[i] == '}';
    } else {
      assert Depth(s[k..i + 1]) > 0;
      CloseFromWalk(s, k, i + 1, obj);
    }
  }

  /** The brace scan recovers a balanced object from behind prose, whatever
      follows it. */
  lemma ExtractJsonAfterProse(prose: string, obj: string, tail: string)
    requires BalancedObject(obj)
    ensures ExtractJson(prose + obj + tail, |prose|) == obj
  {
    var s := prose + obj + tail;
    var k := |prose|;
    assert s[k..k + |obj|] == obj;
    assert s[k..k] == [];
    CloseFromWalk(s, k, k, obj);
  }

  lemma FirstBraceAfterProse(prose: string, rest: string)
    requires '{' !in prose && |rest| > 0 && rest[0] == '{'
    ensures IndexOf(prose + rest, '{') == |prose|
  {
    var t := prose + rest;
    assert t[|prose|] == '{';
    assert forall i :: 0 <= i < |prose| ==> t[i] == prose[i];
  }

  /** In text made of brace-free prose, a balanced object and a tail, the
      first '{' opens the object and the scan cuts out exactly the object. */
  lemma ObjectAfterProse(prose: string, obj: string, tail: string)
    requires '{' !in prose
    requires BalancedObject(obj)
    ensures var t := prose + obj + tail;
      && IndexOf(t, '{') == |prose|
      && ExtractJson(t, |prose|) == obj
  {
    assert prose + obj + tail == prose + (obj + tail);
    FirstBraceAfterProse(prose, obj + tail);
    ExtractJsonAfterProse(prose, obj, tail);
  }

  /** Prose before a balanced object and anything after it are cut away
      before parsing. */
  lemma ProseAroundObjectIsCut(raw: string, prose: string, obj: string, tail: string)
    requires CleanResponse(raw) == prose + obj + tail
    requires |prose| > 0 && '{' !in prose
    requires BalancedObject(obj)
    ensures Candidate(raw) == obj
  {
    ObjectAfterProse(prose, obj, tail);
    CandidateWithExtraction(raw);
    TrimNoOp(obj);
  }

  /** Idempotence on clean input: a plain object text with nothing
      stringified in it is returned exactly as the parser read it. */
  lemma CleanObjectParsesAsIs(codec: Codec, raw: string, fields: seq<Field>)
    requires var t := Trim(raw); |t| > 0 && t[0] == '{' && t[|t| - 1] == '}'
    requires codec.read(Trim(raw)) == Ok(JObject(fields))
    requires NothingStringified(codec, JObject(fields))
    ensures ParseMappedData(codec, raw) == Ok(fields)
  {
    CandidateOfCleanObject(raw);
    FixValueNoOp(codec, JObject(fields));
  }

  /** A slice of a text without '{' has none either. */
  lemma SliceHasNoBrace(s: string, r: string, i: int)
    requires OccursAt(s, r, i) && '{' !in s
    ensures '{' !in r
  {
  }

  lemma TrimAddsNoBrace(s: string)
    requires '{' !in s
    ensures '{' !in Trim(s)
  {
    SliceHasNoBrace(s, Trim(s), TrimOffset(s));
  }

  lemma FencesAddNoBrace(t: string)
    requires '{' !in t
    ensures '{' !in StripFences(t)
  {
    var i := StripFencesIsSlice(t);
    SliceHasNoBrace(t, StripFences(t), i);
  }

  /** Cleaning never introduces a '{'. */
  lemma CleaningAddsNoBrace(raw: string)
    requires '{' !in raw
    ensures '{' !in CleanResponse(raw)
  {
    TrimAddsNoBrace(raw);
    FencesAddNoBrace(Trim(raw));
    TrimAddsNoBrace(StripFences(Trim(raw)));
  }

  /** A response with no '{' at all fails with the invalid-JSON prefix,
      for any parser that reads objects only from text containing '{'. */
  lemma NoBraceFails(codec: Codec, raw: string)
    requires forall t :: codec.read(t).Ok? && codec.read(t).value.JObject? ==> '{' in t
    requires '{' !in raw
    ensures ParseMappedData(codec, raw).Err?
    ensures StartsWith(ParseMappedData(codec, raw).error, InvalidJsonPrefix)
  {
    CleaningAddsNoBrace(raw);
    assert IndexOf(CleanResponse(raw), '{') == -1;
    CandidateWithoutExtraction(raw);
    assert '{' !in Candidate(raw);
  }
}

=== FILE: search.dfy ===
/** The catalogue search: the filter the client sends, the criteria it
    turns into (read as a predicate on one row), the SQL `LIKE` matching the
    text search relies on, and the sort built from the same filter in both
    generations of the service. */
module ProductSearch {
  import opened Wrappers
  import opened Text
  import opened Json
  import opened Products
  import opened ProductStore

  /** The search filter; every field may be null. */
  datatype Filter = Filter(
    search: Option<string>,
    category: Option<string>,
    minPrice: Option<real>,
    maxPrice: Option<real>,
    minStock: Option<int>,
    maxStock: Option<int>,
    sortBy: Option<string>,
    sortOrder: Option<string>,
    page: Option<int>,
    size: Option<int>)

  const SortByName := "name"
  const SortAsc := "asc"
  const SortDesc := "desc"
  const DefaultPage := 0
  const DefaultSize := 20

  /** A filter built with nothing set: only the builder defaults. */
  const DefaultFilter := Filter(None, None, None, None, None, None,
    Some(SortByName), Some(SortAsc), Some(DefaultPage), Some(DefaultSize))

  /** SQL `LIKE`: '%' matches any run of characters, '_' exactly one, and
      every other character itself. No escape character is in effect. */
  predicate LikeMatch(pattern: string, text: string)
    decreases |pattern| + |text|
  {
    if |pattern| == 0 then |text| == 0
    else if pattern[0] == '%' then
      LikeMatch(pattern[1..], text) || (|text| > 0 && LikeMatch(pattern, text[1..]))
    else
      |text| > 0 && (pattern[0] == '_' || pattern[0] == text[0]) && LikeMatch(pattern[1..], text[1..])
  }

  /** Text with no `LIKE` wildcard in it. */
  predicate Literal(w: string) {
    forall i :: 0 <= i < |w| ==> w[i] != '%' && w[i] != '_'
  }

  /** A lone '%' matches everything. */
  lemma {:induction false} PercentMatchesAll(t: string)
    ensures LikeMatch("%", t)
    decreases |t|
  {
    if |t| > 0 {
      PercentMatchesAll(t[1..]);
    } else {
      assert "%"[1..] == [];
    }
  }

  /** A literal followed by '%' matches exactly the texts it starts. */
  lemma {:induction false} LiteralThenPercent(w: string, t: string)
    requires Literal(w)
    ensures LikeMatch(w + "%", t) <==> StartsWith(t, w)
    decreases |w|
  {
    if |w| == 0 {
      assert w + "%" == "%";
      PercentMatchesAll(t);
    } else {
      var p := w + "%";
      assert p[0] == w[0] && p[1..] == w[1..] + "%";
      LiteralThenPercent(w[1..], if |t| > 0 then t[1..] else t);
      if |t| > 0 {
        assert StartsWith(t, w) <==> t[0] == w[0] && StartsWith(t[1..], w[1..]) by {
          if StartsWith(t, w) {
            assert t[1..][..|w| - 1] == t[..|w|][1..];
          }
          if t[0] == w[0] && StartsWith(t[1..], w[1..]) {
            assert t[..|w|] == [t[0]] + t[1..][..|w| - 1];
          }
        }
      }
    }
  }

  /** A pattern led by '%' matches exactly when the rest matches some
      suffix of the text. */
  lemma {:induction false} PercentThen(q: string, t: string)
    ensures LikeMatch("%" + q, t) <==> exists i | 0 <= i <= |t| :: LikeMatch(q, t[i..])
    decreases |t|
  {
    var p := "%" + q;
    assert p[0] == '%' && p[1..] == q;
    assert t[0..] == t;
    if |t| > 0 {
      PercentThen(q, t[1..]);
      if exists i | 0 <= i <= |t| :: LikeMatch(q, t[i..]) {
        var i :| 0 <= i <= |t| && LikeMatch(q, t[i..]);
        if i > 0 {
          assert t[1..][i - 1..] == t[i..];
        }
      }
      if exists i | 0 <= i <= |t[1..]| :: LikeMatch(q, t[1..][i..]) {
        var i :| 0 <= i <= |t[1..]| && LikeMatch(q, t[1..][i..]);
        assert t[1..][i..] == t[i + 1..];
      }
    }
  }

  /** `'%' + w + '%'` with a wildcard-free `w` is substring search. */
  lemma LikeIsContains(w: string, t: string)
    requires Literal(w)
    ensures LikeMatch("%" + w + "%", t) <==> Contains(t, w)
  {
    assert "%" + w + "%" == "%" + (w + "%");
    PercentThen(w + "%", t);
    forall i | 0 <= i <= |t|
      ensures LikeMatch(w + "%", t[i..]) <==> OccursAt(t, w, i)
    {
      LiteralThenPercent(w, t[i..]);
      if StartsWith(t[i..], w) {
        assert t[i..][..|w|] == t[i..i + |w|];
      }
      if OccursAt(t, w, i) {
        assert t[i..][..|w|] == t[i..i + |w|];
      }
    }
  }

  /** The text and category criteria apply only when set and not blank. */
  predicate Active(s: Option<string>) {
    s.Some? && !IsBlank(s.value)
  }

  /** The lower-cased search text between two '%'. */
  function SearchPattern(q: string): string {
    "%" + AsciiLower(q) + "%"
  }

  /** `lower(column) LIKE pattern`; a null column never matches. */
  predicate ColumnLike(column: Option<string>, pattern: string) {
    column.Some? && LikeMatch(pattern, AsciiLower(column.value))
  }

  /** An inclusive bound; a null bound is no bound, a null value fails it. */
  predicate AtLeast(v: Option<real>, bound: Option<real>) {
    bound.None? || (v.Some? && v.value >= bound.value)
  }

  predicate AtMost(v: Option<real>, bound: Option<real>) {
    bound.None? || (v.Some? && v.value <= bound.value)
  }

  predicate AtLeastInt(v: Option<int>, bound: Option<int>) {
    bound.None? || (v.Some? && v.value >= bound.value)
  }

  predicate AtMostInt(v: Option<int>, bound: Option<int>) {
    bound.None? || (v.Some? && v.value <= bound.value)
  }

  /** `buildSearchSpecification`, as a predicate on one row: the conjunction
      of the tenant, current-row, text, category and bound criteria. */
  predicate SpecMatches(f: Filter, tenantId: string, p: Product) {
    && p.tenantId == Some(tenantId)
    && IsCurrent(p)
    && (Active(f.search) ==>
          ColumnLike(p.name, SearchPattern(f.search.value)) ||
          ColumnLike(p.description, SearchPattern(f.search.value)))
    && (Active(f.category) ==> p.category == f.category)
    && AtLeast(p.price, f.minPrice) && AtMost(p.price, f.maxPrice)
    && AtLeastInt(p.stockQuantity, f.minStock) && AtMostInt(p.stockQuantity, f.maxStock)
  }

  /** The rows the specification selects, in table order. */
  function Search(s: Store, f: Filter, tenantId: string): (r: seq<Product>)
    ensures forall p :: p in r <==> p in s.rows && SpecMatches(f, tenantId, p)
    ensures forall p :: p in r ==> p.tenantId == Some(tenantId) && IsCurrent(p)
  {
    Select(s.rows, (p: Product) => SpecMatches(f, tenantId, p))
  }

  /** No text, category or bound criterion is in effect. */
  predicate NoCriteria(f: Filter) {
    !Active(f.search) && !Active(f.category) &&
    f.minPrice.None? && f.maxPrice.None? && f.minStock.None? && f.maxStock.None?
  }

  /** Selecting with two predicates that agree gives the same rows. */
  lemma {:induction false} SelectAgrees(rows: seq<Product>, k1: Product -> bool, k2: Product -> bool)
    requires forall p :: k1(p) == k2(p)
    ensures Select(rows, k1) == Select(rows, k2)
    decreases |rows|
  {
    if |rows| > 0 {
      SelectAgrees(rows[..|rows| - 1], k1, k2);
    }
  }

  /** An empty filter returns exactly the current-products listing, in the
      same order. */
  lemma EmptyFilterIsCurrentListing(s: Store, f: Filter, tenantId: string)
    requires NoCriteria(f)
    ensures Search(s, f, tenantId) == FindCurrentProductsByTenant(s, tenantId)
  {
    SelectAgrees(s.rows, (p: Product) => SpecMatches(f, tenantId, p),
      (p: Product) => p.tenantId == Some(tenantId) && IsCurrent(p));
  }

  /** `narrow` keeps every criterion of `wide` in effect, with bounds at
      least as tight. */
  predicate Narrows(wide: Filter, narrow: Filter) {
    && (Active(wide.search) ==> narrow.search == wide.search)
    && (Active(wide.category) ==> narrow.category == wide.category)
    && (wide.minPrice.Some? ==> narrow.minPrice.Some? && narrow.minPrice.value >= wide.minPrice.value)
    && (wide.maxPrice.Some? ==> narrow.maxPrice.Some? && narrow.maxPrice.value <= wide.maxPrice.value)
    && (wide.minStock.Some? ==> narrow.minStock.Some? && narrow.minStock.value >= wide.minStock.value)
    && (wide.maxStock.Some? ==> narrow.maxStock.Some? && narrow.maxStock.value <= wide.maxStock.value)
  }

  /** Criteria are conjoined: adding or tightening one never enlarges the
      result, and no search crosses tenants. */
  lemma NarrowerFilterFindsLess(s: Store, wide: Filter, narrow: Filter, tenantId: string)
    requires Narrows(wide, narrow)
    ensures forall p :: p in Search(s, narrow, tenantId) ==> p in Search(s, wide, tenantId)
    ensures forall p :: p in Search(s, narrow, tenantId) ==> p in FindCurrentProductsByTenant(s, tenantId)
  {
  }

  /** The text criterion of a wildcard-free search is a case-insensitive
      substring test on the name or the description. */
  lemma LiteralSearchIsSubstring(f: Filter, tenantId: string, p: Product)
    requires Active(f.search) && Literal(AsciiLower(f.search.value))
    ensures (ColumnLike(p.name, SearchPattern(f.search.value)) || ColumnLike(p.description, SearchPattern(f.search.value))) <==>
      (p.name.Some? && Contains(AsciiLower(p.name.value), AsciiLower(f.search.value))) ||
      (p.description.Some? && Contains(AsciiLower(p.description.value), AsciiLower(f.search.value)))
  {
    var w := AsciiLower(f.search.value);
    if p.name.Some? {
      LikeIsContains(w, AsciiLower(p.name.value));
    }
    if p.description.Some? {
      LikeIsContains(w, AsciiLower(p.description.value));
    }
  }

  /** The wildcards are not escaped: a search for "%" finds every row
      that has a name. */
  lemma PercentSearchFindsAll(name: string)
    ensures ColumnLike(Some(name), SearchPattern("%"))
  {
    var t := AsciiLower(name);
    assert SearchPattern("%") == "%" + "%%";
    assert "%%" == "%" + "%";
    PercentMatchesAll(t);
    assert t[0..] == t;
    PercentThen("%", t);
    PercentThen("%%", t);
  }

  /** '_' stands for any one character, but for exactly one. */
  lemma UnderscoreMatchesOneChar()
    ensures LikeMatch(SearchPattern("a_c"), "xabcx")
    ensures !LikeMatch(SearchPattern("a_c"), "xacx")
  {
    assert SearchPattern("a_c") == "%" + "a_c%";
    UnderscoreHit();
    PercentThen("a_c%", "xabcx");
    assert "xabcx"[1..] == "abcx";
    PercentThen("a_c%", "xacx");
    forall i | 0 <= i <= |"xacx"|
      ensures !LikeMatch("a_c%", "xacx"[i..])
    {
      var t := "xacx"[i..];
      if |t| >= 3 {
        assert t[0] != 'a' || t[2] != 'c';
      }
    }
  }

  lemma UnderscoreHit()
    ensures LikeMatch("a_c%", "abcx")
  {
    PercentMatchesAll("x");
    assert "a_c%"[1..] == "_c%" && "_c%"[1..] == "c%" && "c%"[1..] == "%";
    assert "abcx"[1..] == "bcx" && "bcx"[1..] == "cx" && "cx"[1..] == "x";
  }

  /** A sort direction. */
  datatype Direction = Asc | Desc

  /** One sort order: a direction on a property. */
  datatype Order = Order(direction: Direction, property: string)

  /** Spring's message when a sort property has no text. */
  const PropertyMissingMessage := "Property must not be null or empty"

  /** `"desc".equalsIgnoreCase(s)`. Java compares char by char after
      upper-casing (and, failing that, lower-casing the upper case), so
      besides the ASCII cases the long s U+017F, whose upper case is 'S',
      also stands for 's'; no other character upper-cases to D, E, S or C. */
  predicate IsDescIgnoringCase(s: string) {
    && |s| == 4
    && (s[0] == 'd' || s[0] == 'D')
    && (s[1] == 'e' || s[1] == 'E')
    && (s[2] == 's' || s[2] == 'S' || s[2] == 'ſ')
    && (s[3] == 'c' || s[3] == 'C')
  }

  /** The direction a sort-order text selects. */
  function DirectionOf(sortOrder: string): (d: Direction)
    ensures d == Desc <==> IsDescIgnoringCase(sortOrder)
    ensures sortOrder == SortDesc ==> d == Desc
  {
    if IsDescIgnoringCase(sortOrder) then Desc else Asc
  }

  /** `Sort.by(direction, property)`: one order; a property with no
      non-whitespace character is refused. */
  function SortBy(d: Direction, property: string): (r: Result<seq<Order>, Message>)
    ensures r.Ok? <==> !IsBlank(property)
    ensures r.Ok? ==> r.value == [Order(d, property)]
    ensures r.Err? ==> r.error == Some(PropertyMissingMessage)
  {
    if IsBlank(property) then Err(Some(PropertyMissingMessage)) else Ok([Order(d, property)])
  }

  /** `buildSort` of the current service: null fields default to "name"
      and "asc"; the property is passed on unchecked. */
  function BuildSort(f: Filter): (r: Result<seq<Order>, Message>)
    ensures r.Ok? ==> |r.value| == 1 && r.value[0].property == f.sortBy.GetOr(SortByName)
    ensures r.Ok? ==> (r.value[0].direction == Desc <==> f.sortOrder.Some? && IsDescIgnoringCase(f.sortOrder.value))
    ensures r.Err? <==> f.sortBy.Some? && IsBlank(f.sortBy.value)
    ensures r.Err? ==> r.error == Some(PropertyMissingMessage)
  {
    assert !IsBlank(SortByName) by { assert SortByName[0] == 'n'; }
    var sortBy := if f.sortBy.Some? then f.sortBy.value else SortByName;
    var sortOrder := if f.sortOrder.Some? then f.sortOrder.value else SortAsc;
    SortBy(DirectionOf(sortOrder), sortBy)
  }

  /** `buildSort` of the older service, written out separately. */
  function LegacyBuildSort(f: Filter): (r: Result<seq<Order>, Message>)
    ensures r.Ok? ==> |r.value| == 1 && r.value[0].property == f.sortBy.GetOr(SortByName)
    ensures r.Ok? ==> (r.value[0].direction == Desc <==> f.sortOrder.Some? && IsDescIgnoringCase(f.sortOrder.value))
    ensures r.Err? <==> f.sortBy.Some? && IsBlank(f.sortBy.value)
    ensures r.Err? ==> r.error == Some(PropertyMissingMessage)
  {
    assert !IsBlank(SortByName) by { assert SortByName[0] == 'n'; }
    var sortBy := f.sortBy.GetOr(SortByName);
    var direction := if IsDescIgnoringCase(f.sortOrder.GetOr(SortAsc)) then Desc else Asc;
    SortBy(direction, sortBy)
  }

  /** The two generations build the same sort from every filter. */
  lemma SortBuildersAgree(f: Filter)
    ensures BuildSort(f) == LegacyBuildSort(f)
  {
  }

  /** The defaults give name ascending; case is ignored for "desc" only;
      an unknown order falls back to ascending; the property is not
      checked against the sortable columns. */
  lemma SortExamples(f: Filter)
    ensures BuildSort(DefaultFilter) == Ok([Order(Asc, "name")])
    ensures BuildSort(f.(sortBy := None, sortOrder := None)) == Ok([Order(Asc, "name")])
    ensures BuildSort(f.(sortBy := Some("price"), sortOrder := Some("DESC"))) == Ok([Order(Desc, "price")])
    ensures BuildSort(f.(sortBy := Some("price"), sortOrder := Some("deſc"))) == Ok([Order(Desc, "price")])
    ensures BuildSort(f.(sortBy := Some("price"), sortOrder := Some("descending"))) == Ok([Order(Asc, "price")])
    ensures BuildSort(f.(sortBy := Some("weight"), sortOrder := None)) == Ok([Order(Asc, "weight")])
    ensures BuildSort(f.(sortBy := Some(" "), sortOrder := None)) == Err(Some(PropertyMissingMessage))
  {
    assert !IsBlank("name") by { assert "name"[0] == 'n'; }
    assert !IsBlank("price") by { assert "price"[0] == 'p'; }
    assert !IsBlank("weight") by { assert "weight"[0] == 'w'; }
    assert IsBlank(" ");
    assert !IsDescIgnoringCase("asc");
  }
}

=== FILE: store.dfy ===
/** The product table behind the repository: rows in insertion order with
    database-assigned ids, the four declared queries, and the two inherited
    writes the service uses (`save` and `deleteById`). */
module ProductStore {
  import opened Wrappers
  import opened Json
  import opened Tenancy
  import opened Products

  /** The table: rows in ascending id order, and the next id to assign. */
  datatype Store = Store(rows: seq<Product>, nextId: int)

  /** Every row has an id; ids ascend strictly and stay below `nextId`. */
  predicate Valid(s: Store) {
    && (forall i :: 0 <= i < |s.rows| ==> s.rows[i].id.Some? && s.rows[i].id.value < s.nextId)
    && (forall i, j :: 0 <= i < j < |s.rows| ==> s.rows[i].id.value < s.rows[j].id.value)
  }

  const EmptyStore := Store([], 1)

  /** The position of the row with id `id`. */
  function PositionOf(rows: seq<Product>, id: int): (k: Option<nat>)
    ensures k.Some? ==> k.value < |rows| && rows[k.value].id == Some(id)
    ensures k.None? ==> forall i :: 0 <= i < |rows| ==> rows[i].id != Some(id)
  {
    if |rows| == 0 then None
    else if rows[|rows| - 1].id == Some(id) then Some(|rows| - 1)
    else PositionOf(rows[..|rows| - 1], id)
  }

  /** The rows `keep` accepts, in table order. */
  function Select(rows: seq<Product>, keep: Product -> bool): (r: seq<Product>)
    ensures |r| <= |rows|
    ensures forall p :: p in r <==> p in rows && keep(p)
    ensures multiset(r) <= multiset(rows)
  {
    if |rows| == 0 then []
    else
      var init := Select(rows[..|rows| - 1], keep);
      var last := rows[|rows| - 1];
      assert rows == rows[..|rows| - 1] + [last];
      if keep(last) then init + [last] else init
  }

  predicate IsCurrent(p: Product) {
    p.eventType.None? || p.eventType == Some(Created)
  }

  /** `findCurrentProductsByTenant`: the tenant's rows that are not history
      entries (no event type, or CREATED). */
  function FindCurrentProductsByTenant(s: Store, tenantId: string): (r: seq<Product>)
    ensures forall p :: p in r <==> p in s.rows && p.tenantId == Some(tenantId) && IsCurrent(p)
  {
    Select(s.rows, (p: Product) => p.tenantId == Some(tenantId) && IsCurrent(p))
  }

  /** `findAllByTenantId`: every row of the tenant, history included. */
  function FindAllByTenantId(s: Store, tenantId: string): (r: seq<Product>)
    ensures forall p :: p in r <==> p in s.rows && p.tenantId == Some(tenantId)
  {
    Select(s.rows, (p: Product) => p.tenantId == Some(tenantId))
  }

  /** `findByIdAndTenantId`: present exactly when the id exists and the row
      belongs to the tenant; a null id matches nothing. */
  function FindByIdAndTenantId(s: Store, id: Option<int>, tenantId: string): (r: Option<Product>)
    requires Valid(s)
    ensures r.Some? <==> id.Some? && exists i :: 0 <= i < |s.rows| && s.rows[i].id == id && s.rows[i].tenantId == Some(tenantId)
    ensures r.Some? ==> r.value in s.rows && r.value.id == id && r.value.tenantId == Some(tenantId)
  {
    match id
    case None => None
    case Some(i) =>
      match PositionOf(s.rows, i)
      case None => None
      case Some(k) =>
        if s.rows[k].tenantId == Some(tenantId) then Some(s.rows[k])
        else
          assert forall j :: 0 <= j < |s.rows| && s.rows[j].id == id ==> j == k;
          None
  }

  /** Row `a` is at least as recent as row `b`; a row without time sorts
      after every row with one. */
  predicate NotOlder(a: Product, b: Product) {
    b.eventTime.None? || (a.eventTime.Some? && a.eventTime.value >= b.eventTime.value)
  }

  predicate NewestFirst(r: seq<Product>) {
    forall i, j :: 0 <= i < j < |r| ==> NotOlder(r[i], r[j])
  }

  /** Insert `p` into a newest-first list, after the rows at least as new. */
  function InsertByTime(p: Product, sorted: seq<Product>): (r: seq<Product>)
    ensures multiset(r) == multiset(sorted) + multiset{p}
  {
    if |sorted| == 0 then [p]
    else if NotOlder(sorted[0], p) then
      assert sorted == [sorted[0]] + sorted[1..];
      [sorted[0]] + InsertByTime(p, sorted[1..])
    else
      [p] + sorted
  }

  /** Inserting keeps a list newest first. */
  lemma {:induction false} InsertKeepsOrder(p: Product, sorted: seq<Product>)
    requires NewestFirst(sorted)
    ensures NewestFirst(InsertByTime(p, sorted))
  {
    if |sorted| == 0 {
    } else if NotOlder(sorted[0], p) {
      var tail := InsertByTime(p, sorted[1..]);
      InsertKeepsOrder(p, sorted[1..]);
      forall j | 0 <= j < |tail|
        ensures NotOlder(sorted[0], tail[j])
      {
        assert tail[j] in multiset(tail);
        if tail[j] != p {
          assert tail[j] in multiset(sorted[1..]);
          var k :| 0 <= k < |sorted[1..]| && sorted[1..][k] == tail[j];
          assert sorted[k + 1] == tail[j];
        }
      }
      var r := [sorted[0]] + tail;
      forall i, j | 0 <= i < j < |r|
        ensures NotOlder(r[i], r[j])
      {
        if i > 0 {
          assert r[i] == tail[i - 1] && r[j] == tail[j - 1];
        }
      }
    } else {
      var r := [p] + sorted;
      forall i, j | 0 <= i < j < |r|
        ensures NotOlder(r[i], r[j])
      {
        if i == 0 {
          assert NotOlder(sorted[0], sorted[j - 1]) || j - 1 == 0;
        }
      }
    }
  }

  /** A stable sort of `rows`, newest first. */
  function SortNewestFirst(rows: seq<Product>): (r: seq<Product>)
    ensures multiset(r) == multiset(rows)
    ensures NewestFirst(r)
  {
    if |rows| == 0 then []
    else
      assert rows == rows[..|rows| - 1] + [rows[|rows| - 1]];
      var init := SortNewestFirst(rows[..|rows| - 1]);
      InsertKeepsOrder(rows[|rows| - 1], init);
      InsertByTime(rows[|rows| - 1], init)
  }

  /** `findByOriginalProductIdAndTenantIdOrderByEventTimeDesc`. */
  function FindHistory(s: Store, originalProductId: int, tenantId: string): (r: seq<Product>)
    ensures forall p :: p in r <==> p in s.rows && p.originalProductId == Some(originalProductId) && p.tenantId == Some(tenantId)
    ensures NewestFirst(r)
  {
    var hits := Select(s.rows, (p: Product) => p.originalProductId == Some(originalProductId) && p.tenantId == Some(tenantId));
    var r := SortNewestFirst(hits);
    forall p
      ensures p in r <==> p in hits
    {
      assert p in r <==> p in multiset(r);
      assert p in hits <==> p in multiset(hits);
    }
    r
  }

  /** `save`: the tenant listener runs, then a row with an existing id is
      replaced and any other row is inserted under a fresh id. The saved
      row is returned. */
  function Save(s: Store, ctx: TenantContext, p: Product): (r: (Store, Product))
    requires Valid(s)
    ensures Valid(r.0)
    ensures r.1 == WithListenerTenant(ctx, p).(id := r.1.id) && r.1.id.Some?
    ensures r.1 in r.0.rows
    ensures p.id.Some? && PositionOf(s.rows, p.id.value).Some? ==>
      r.1.id == p.id && r.0 == s.(rows := s.rows[PositionOf(s.rows, p.id.value).value := r.1])
    ensures !(p.id.Some? && PositionOf(s.rows, p.id.value).Some?) ==>
      r.1.id == Some(s.nextId) && r.0 == Store(s.rows + [r.1], s.nextId + 1)
  {
    var q := WithListenerTenant(ctx, p);
    if p.id.Some? && PositionOf(s.rows, p.id.value).Some? then
      var k := PositionOf(s.rows, p.id.value).value;
      assert q.id == p.id;
      assert s.rows[k := q][k] == q;
      (s.(rows := s.rows[k := q]), q)
    else
      var inserted := q.(id := Some(s.nextId));
      (Store(s.rows + [inserted], s.nextId + 1), inserted)
  }

  const NullIdMessage := "The given id must not be null"

  /** `deleteById`: a null id is refused; a missing id is ignored. */
  function DeleteById(s: Store, id: Option<int>): (r: Result<Store, Message>)
    requires Valid(s)
    ensures id.None? <==> r.Err?
    ensures r.Err? ==> r.error == Some(NullIdMessage)
    ensures r.Ok? ==> Valid(r.value) && r.value.nextId == s.nextId
    ensures r.Ok? ==> forall p :: p in r.value.rows <==> p in s.rows && p.id != id
  {
    match id
    case None => Err(Some(NullIdMessage))
    case Some(i) =>
      match PositionOf(s.rows, i)
      case None => Ok(s)
      case Some(k) =>
        var rest := s.rows[..k] + s.rows[k + 1..];
        assert forall j :: 0 <= j < |s.rows| && s.rows[j].id == id ==> j == k;
        assert forall j :: 0 <= j < |rest| ==> rest[j] == if j < k then s.rows[j] else s.rows[j + 1];
        Ok(s.(rows := rest))
  }

  /** Queries never cross tenants, and the current rows are among all the
      tenant's rows. */
  lemma QueriesStayInTenant(s: Store, t: string, id: Option<int>)
    requires Valid(s)
    ensures forall p :: p in FindCurrentProductsByTenant(s, t) ==> p in FindAllByTenantId(s, t)
    ensures forall p :: p in FindAllByTenantId(s, t) ==> p.tenantId == Some(t)
    ensures FindByIdAndTenantId(s, id, t).Some? ==> FindByIdAndTenantId(s, id, t).value in FindAllByTenantId(s, t)
  {
  }

  /** A row saved under a tenant is found again by its id under that tenant
      and under no other. */
  lemma SavedRowIsFound(s: Store, ctx: TenantContext, p: Product, t: string, other: string)
    requires Valid(s) && WithListenerTenant(ctx, p).tenantId == Some(t) && other != t
    ensures FindByIdAndTenantId(Save(s, ctx, p).0, Save(s, ctx, p).1.id, t) == Some(Save(s, ctx, p).1)
    ensures FindByIdAndTenantId(Save(s, ctx, p).0, Save(s, ctx, p).1.id, other).None?
  {
    var (s2, q) := Save(s, ctx, p);
    var k :| 0 <= k < |s2.rows| && s2.rows[k] == q;
    assert forall j :: 0 <= j < |s2.rows| && s2.rows[j].id == q.id ==> j == k;
  }

  /** What `save` leaves in the table: every row whose id differs from the
      saved row's, and the saved row itself. A row without an id, or with
      an id the table lacks, takes an id no row has. */
  lemma SaveFrame(s: Store, ctx: TenantContext, p: Product)
    requires Valid(s)
    ensures var (s2, q) := Save(s, ctx, p);
      forall x :: x in s2.rows <==> (x in s.rows && x.id != q.id) || x == q
    ensures var (s2, q) := Save(s, ctx, p);
      (p.id.None? || forall i :: 0 <= i < |s.rows| ==> s.rows[i].id != p.id) ==>
        q.id == Some(s.nextId) && |s2.rows| == |s.rows| + 1
    ensures var (s2, q) := Save(s, ctx, p);
      (p.id.Some? && exists i :: 0 <= i < |s.rows| && s.rows[i].id == p.id) ==>
        q.id == p.id && |s2.rows| == |s.rows|
  {
    var (s2, q) := Save(s, ctx, p);
    if p.id.Some? && PositionOf(s.rows, p.id.value).Some? {
      var k := PositionOf(s.rows, p.id.value).value;
      forall x
        ensures x in s2.rows <==> (x in s.rows && x.id != q.id) || x == q
      {
        if x in s2.rows && x != q {
          var j :| 0 <= j < |s2.rows| && s2.rows[j] == x;
          assert j != k && s.rows[j] == x;
          assert x.id != q.id by {
            if j < k {
              assert s.rows[j].id.value < s.rows[k].id.value;
            } else {
              assert s.rows[k].id.value < s.rows[j].id.value;
            }
          }
        }
        if x in s.rows && x.id != q.id {
          var j :| 0 <= j < |s.rows| && s.rows[j] == x;
          assert j != k && s2.rows[j] == x;
        }
      }
    } else {
      forall x
        ensures x in s2.rows <==> (x in s.rows && x.id != q.id) || x == q
      {
        if x in s.rows {
          var j :| 0 <= j < |s.rows| && s.rows[j] == x;
          assert s2.rows[j] == x;
        }
      }
    }
  }
}

=== FILE: tenancy.dfy ===
/** Tenant identification in the product service: the id format check, the
    per-request tenant cell and the two ways of reading it. */
module Tenancy {
  import opened Wrappers
  import opened Text
  import opened Patterns

  const MaxTenantLength := 50

  /** `[a-zA-Z0-9_-]{1,50}`, matched against the whole id. */
  const TenantIdPattern: seq<Piece> := [Between(IdChar, 1, MaxTenantLength)]

  const InvalidTenantMessage :=
    "Invalid tenant ID format. Must be alphanumeric with optional hyphens and underscores, max 50 chars."

  const TenantNotSetMessage :=
    "Tenant ID is not set in context. Make sure X-Tenant-Id header is provided."

  /** Letters, digits, '_' and '-' (ASCII only). */
  predicate IsTenantChar(c: char) {
    || 'a' <= c <= 'z'
    || 'A' <= c <= 'Z'
    || '0' <= c <= '9'
    || c == '_'
    || c == '-'
  }

  /** `isValidTenant`: null and blank ids are refused up front, the rest by
      the pattern. */
  function IsValidTenant(tenantId: Option<string>): (ok: bool)
    ensures ok <==>
      tenantId.Some? && 1 <= |tenantId.value| <= MaxTenantLength &&
      forall i :: 0 <= i < |tenantId.value| ==> IsTenantChar(tenantId.value[i])
  {
    match tenantId
    case None => false
    case Some(s) =>
      if IsBlank(s) then
        assert |s| > 0 ==> IsJavaWhitespace(s[0]) && !IsTenantChar(s[0]);
        false
      else
        LoneBetween(IdChar, 1, MaxTenantLength, s);
        FullMatch(TenantIdPattern, s)
  }

  /** The blank pre-check decides nothing the pattern would not: on a
      present id the answer is the pattern match alone. */
  lemma BlankCheckSubsumed(s: string)
    ensures IsValidTenant(Some(s)) == FullMatch(TenantIdPattern, s)
  {
    LoneBetween(IdChar, 1, MaxTenantLength, s);
  }

  /** Ids on both sides of the boundaries. */
  lemma TenantIdExamples()
    ensures IsValidTenant(Some("a")) && IsValidTenant(Some("tenant-1"))
    ensures IsValidTenant(Some("TENANT_A")) && IsValidTenant(Some("tenant123"))
    ensures !IsValidTenant(None) && !IsValidTenant(Some("")) && !IsValidTenant(Some("   "))
    ensures !IsValidTenant(Some("tenant@1")) && !IsValidTenant(Some("tenant#2")) && !IsValidTenant(Some("tenant.1"))
    ensures !IsValidTenant(Some(seq(51, _ => 'a')))
    ensures IsValidTenant(Some(seq(50, _ => 'a')))
  {
    assert "tenant@1"[6] == '@';
    assert "tenant#2"[6] == '#';
    assert "tenant.1"[6] == '.';
    assert "   "[0] == ' ';
  }

  /** `validateTenantId`: an IllegalArgumentException with the fixed
      message exactly when the id is not valid. */
  function ValidateTenantId(tenantId: Option<string>): (r: Result<(), string>)
    ensures r.Ok? <==> IsValidTenant(tenantId)
    ensures r.Err? ==> r.error == InvalidTenantMessage
  {
    if IsValidTenant(tenantId) then Ok(()) else Err(InvalidTenantMessage)
  }

  /** The tenant cell of the running request: one explicit value in place
      of the thread-local. */
  datatype TenantContext = TenantContext(tenant: Option<string>)

  const FreshContext := TenantContext(None)

  /** `setTenantId`: a null id leaves the cell as it was. */
  function SetTenant(ctx: TenantContext, tenantId: Option<string>): (c: TenantContext)
    ensures tenantId.Some? ==> c.tenant == tenantId
    ensures tenantId.None? ==> c == ctx
  {
    if tenantId.Some? then TenantContext(tenantId) else ctx
  }

  /** `clear`. */
  function ClearTenant(ctx: TenantContext): (c: TenantContext)
    ensures c.tenant.None?
  {
    FreshContext
  }

  /** `getCurrentTenantId`: the tenant, unless it is absent or blank, in
      which case an IllegalStateException. */
  function CurrentTenantId(ctx: TenantContext): (r: Result<string, string>)
    ensures r.Ok? <==> ctx.tenant.Some? && !IsBlank(ctx.tenant.value)
    ensures r.Ok? ==> r.value == ctx.tenant.value
    ensures r.Err? ==> r.error == TenantNotSetMessage
  {
    match ctx.tenant
    case Some(t) => if IsBlank(t) then Err(TenantNotSetMessage) else Ok(t)
    case None => Err(TenantNotSetMessage)
  }

  /** `getTenantIdOrNull`: the cell as it stands, blank or absent included. */
  function TenantIdOrNull(ctx: TenantContext): (r: Option<string>)
    ensures r.None? <==> ctx.tenant.None?
    ensures r.Some? ==> r.value == ctx.tenant.value
  {
    ctx.tenant
  }

  /** The cell's life cycle: a set value is read back, a null set keeps the
      old value, a clear forgets it, and a fresh cell holds nothing. */
  lemma ContextLifeCycle(ctx: TenantContext, t: string)
    ensures TenantIdOrNull(SetTenant(ctx, Some(t))) == Some(t)
    ensures TenantIdOrNull(SetTenant(ctx, None)) == TenantIdOrNull(ctx)
    ensures TenantIdOrNull(ClearTenant(SetTenant(ctx, Some(t)))) == None
    ensures CurrentTenantId(FreshContext).Err?
  {
  }

  /** The two readers agree whenever the strict one succeeds, and a blank
      tenant is returned by the lenient one but refused by the strict one. */
  lemma ReadersAgree(ctx: TenantContext)
    ensures CurrentTenantId(ctx).Ok? ==> TenantIdOrNull(ctx) == Some(CurrentTenantId(ctx).value)
    ensures CurrentTenantId(TenantContext(Some("   "))) == Err(TenantNotSetMessage)
    ensures TenantIdOrNull(TenantContext(Some("   "))) == Some("   ")
  {
    assert IsJavaWhitespace("   "[0]) && IsJavaWhitespace("   "[1]) && IsJavaWhitespace("   "[2]);
  }

  /** A valid id stored in any cell is what the strict reader returns. */
  lemma ValidTenantIsCurrent(ctx: TenantContext, t: string)
    requires IsValidTenant(Some(t))
    ensures CurrentTenantId(SetTenant(ctx, Some(t))) == Ok(t)
  {
    assert IsTenantChar(t[0]) && !IsJavaWhitespace(t[0]);
  }

  /** The persist/update listener on a tenant-owned entity: it fills an
      unset tenant from the cell and never overwrites one; a blank cell
      value is copied as it is. */
  function FillTenant(ctx: TenantContext, entityTenant: Option<string>): (r: Option<string>)
    ensures entityTenant.Some? ==> r == entityTenant
    ensures entityTenant.None? ==> r == ctx.tenant
  {
    if ctx.tenant.Some? && entityTenant.None? then ctx.tenant else entityTenant
  }
}

=== FILE: tenantfilter.dfy ===
/** The servlet filter that puts the request's tenant into the tenant cell
    for the rest of the chain, in its current form (with a skip list for
    static content) and in the older form without one. */
module TenantFilters {
  import opened Wrappers
  import opened Text
  import opened Json
  import opened Tenancy
  import opened ErrorHandling

  /** What the rest of the chain does, given the tenant it finds in the
      cell: it completes, throws an IllegalArgumentException (with its
      message), or throws anything else. */
  datatype ChainOutcome = ChainDone | ChainIllegalArgument(message: Message) | ChainFailed

  /** How the request ends at the filter: the chain's own response, an
      error body written by the filter, or an exception leaving it. */
  datatype Response = Forwarded | ErrorSent(body: ErrorBody) | Propagated

  /** One run: the response, how often the chain ran, the tenant the chain
      found in the cell, and the cell afterwards. */
  datatype FilterRun = FilterRun(response: Response, chainCalls: nat, chainTenant: Option<string>, after: TenantContext)

  const SkipExact: seq<string> := ["/", "/index.html"]
  const SkipPrefixes: seq<string> := ["/static/", "/css/", "/js/", "/images/", "/favicon"]
  const SkipSuffixes: seq<string> :=
    [".css", ".js", ".png", ".jpg", ".jpeg", ".gif", ".svg", ".ico", ".woff", ".woff2", ".ttf"]

  /** `shouldSkipTenantValidation`: the landing page and static content. */
  predicate ShouldSkip(uri: string) {
    || uri in SkipExact
    || (exists i | 0 <= i < |SkipPrefixes| :: StartsWith(uri, SkipPrefixes[i]))
    || (exists i | 0 <= i < |SkipSuffixes| :: EndsWith(uri, SkipSuffixes[i]))
  }

  function ErrorReply(code: string, message: Message, uri: string): Response {
    ErrorSent(ErrorBody(BadRequest, Some(code), message, uri, None))
  }

  /** A missing or blank header: 400 TENANT_MISSING, before any change to
      the cell. */
  predicate HeaderMissing(header: Option<string>) {
    header.None? || IsBlank(header.value)
  }

  /** The header check and the guarded chain run shared by both filters.
      The catch covers the validator and the chain alike; the cell is
      cleared on every way out of the guarded block. */
  function CheckedRun(uri: string, header: Option<string>, ctx: TenantContext, chain: Option<string> -> ChainOutcome): (run: FilterRun)
    ensures HeaderMissing(header) ==>
      run == FilterRun(ErrorReply("TENANT_MISSING", Some(TenantRequiredMessage), uri), 0, None, ctx)
    ensures !HeaderMissing(header) && !IsValidTenant(header) ==>
      run == FilterRun(ErrorReply("INVALID_TENANT_ID", Some(InvalidTenantMessage), uri), 0, None, FreshContext)
    ensures !HeaderMissing(header) && IsValidTenant(header) ==>
      run.chainCalls == 1 && run.chainTenant == header && run.after == FreshContext
    ensures !HeaderMissing(header) && IsValidTenant(header) ==>
      match chain(header)
      case ChainDone => run.response == Forwarded
      case ChainIllegalArgument(m) => run.response == ErrorReply("INVALID_TENANT_ID", m, uri)
      case ChainFailed => run.response == Propagated
  {
    if header.None? || IsBlank(header.value) then
      FilterRun(ErrorReply("TENANT_MISSING", Some(TenantRequiredMessage), uri), 0, None, ctx)
    else
      match ValidateTenantId(header)
      case Err(m) => FilterRun(ErrorReply("INVALID_TENANT_ID", Some(m), uri), 0, None, ClearTenant(ctx))
      case Ok(_) =>
        var inside := SetTenant(ctx, header);
        var response :=
          match chain(inside.tenant)
          case ChainDone => Forwarded
          case ChainIllegalArgument(m) => ErrorReply("INVALID_TENANT_ID", m, uri)
          case ChainFailed => Propagated;
        FilterRun(response, 1, inside.tenant, ClearTenant(inside))
  }

  /** `doFilter` of the current filter. */
  function DoFilter(uri: string, header: Option<string>, ctx: TenantContext, chain: Option<string> -> ChainOutcome): (run: FilterRun)
    ensures ShouldSkip(uri) ==>
      run.chainCalls == 1 && run.chainTenant == ctx.tenant && run.after == ctx &&
      run.response == (if chain(ctx.tenant).ChainDone? then Forwarded else Propagated)
    ensures !ShouldSkip(uri) && HeaderMissing(header) ==>
      run.chainCalls == 0 && run.after == ctx &&
      run.response == ErrorReply("TENANT_MISSING", Some(TenantRequiredMessage), uri)
    ensures !ShouldSkip(uri) && !HeaderMissing(header) && !IsValidTenant(header) ==>
      run.chainCalls == 0 && run.after.tenant.None? &&
      run.response == ErrorReply("INVALID_TENANT_ID", Some(InvalidTenantMessage), uri)
    ensures !ShouldSkip(uri) && IsValidTenant(header) ==>
      run.chainCalls == 1 && run.chainTenant == header && run.after.tenant.None?
  {
    if ShouldSkip(uri) then
      var response := if chain(ctx.tenant).ChainDone? then Forwarded else Propagated;
      FilterRun(response, 1, ctx.tenant, ctx)
    else
      CheckedRun(uri, header, ctx, chain)
  }

  /** `doFilter` of the older filter: no skip list. */
  function LegacyDoFilter(uri: string, header: Option<string>, ctx: TenantContext, chain: Option<string> -> ChainOutcome): (run: FilterRun)
    ensures HeaderMissing(header) ==>
      run.chainCalls == 0 && run.after == ctx &&
      run.response == ErrorReply("TENANT_MISSING", Some(TenantRequiredMessage), uri)
    ensures !HeaderMissing(header) && !IsValidTenant(header) ==>
      run.chainCalls == 0 && run.after.tenant.None? &&
      run.response == ErrorReply("INVALID_TENANT_ID", Some(InvalidTenantMessage), uri)
    ensures IsValidTenant(header) ==>
      run.chainCalls == 1 && run.chainTenant == header && run.after.tenant.None?
  {
    CheckedRun(uri, header, ctx, chain)
  }

  /** Away from the skip list the two filters behave the same; on it the
      older one still demands the header. */
  lemma FiltersAgreeOffTheSkipList(uri: string, header: Option<string>, ctx: TenantContext, chain: Option<string> -> ChainOutcome)
    ensures !ShouldSkip(uri) ==> DoFilter(uri, header, ctx, chain) == LegacyDoFilter(uri, header, ctx, chain)
    ensures ShouldSkip(uri) && HeaderMissing(header) ==>
      DoFilter(uri, header, ctx, chain).chainCalls == 1 && LegacyDoFilter(uri, header, ctx, chain).chainCalls == 0
  {
  }

  /** A valid id reaches the chain as the current tenant, and the strict
      reader sees it there. */
  lemma ChainSeesValidTenant(uri: string, t: string, ctx: TenantContext, chain: Option<string> -> ChainOutcome)
    requires !ShouldSkip(uri) && IsValidTenant(Some(t))
    ensures DoFilter(uri, Some(t), ctx, chain).chainTenant == Some(t)
    ensures CurrentTenantId(TenantContext(DoFilter(uri, Some(t), ctx, chain).chainTenant)) == Ok(t)
    ensures chain(Some(t)).ChainDone? ==> DoFilter(uri, Some(t), ctx, chain).response == Forwarded
  {
    ValidTenantIsCurrent(ctx, t);
    assert !IsBlank(t) by { assert IsTenantChar(t[0]); }
  }

  /** An IllegalArgumentException from further down is reported as an
      invalid tenant id although the id was valid and the chain ran. */
  lemma DownstreamIllegalArgumentLooksLikeBadTenant(uri: string, t: string, ctx: TenantContext, m: Message)
    requires !ShouldSkip(uri) && IsValidTenant(Some(t))
    ensures DoFilter(uri, Some(t), ctx, _ => ChainIllegalArgument(m)) ==
      FilterRun(ErrorReply("INVALID_TENANT_ID", m, uri), 1, Some(t), FreshContext)
  {
    assert !IsBlank(t) by { assert IsTenantChar(t[0]); }
  }

  /** The filter answers a missing header itself, with the very body the
      advice would give the default tenant-missing exception: 400,
      TENANT_MISSING, the same text and the same path. */
  lemma MissingHeaderAnswersLikeTheAdvice(uri: string, header: Option<string>, ctx: TenantContext,
                                          chain: Option<string> -> ChainOutcome)
    requires HeaderMissing(header)
    ensures Handle(TenantMissingDefault(), uri).httpStatus == BadRequest
    ensures CheckedRun(uri, header, ctx, chain).response == ErrorSent(Handle(TenantMissingDefault(), uri).body)
  {
    ClientErrorTable(uri, Some(TenantRequiredMessage));
  }

  /** Static content and the landing page pass without a header, and so
      does any path with a static suffix. */
  lemma SkippedExamples()
    ensures ShouldSkip("/") && ShouldSkip("/index.html") && ShouldSkip("/static/app.js")
    ensures ShouldSkip("/favicon.ico") && ShouldSkip("/fonts/a.woff2")
    ensures ShouldSkip("/api/products/report.css")
  {
    assert StartsWith("/static/app.js", SkipPrefixes[0]);
    assert StartsWith("/favicon.ico", SkipPrefixes[4]);
    assert EndsWith("/fonts/a.woff2", SkipSuffixes[9]);
    assert EndsWith("/api/products/report.css", SkipSuffixes[0]);
  }

  /** The product API itself is checked. */
  lemma ApiPathChecked()
    ensures !ShouldSkip("/api/products")
  {
    var u := "/api/products";
    assert u[1] == 'a' && u[|u| - 1] == 's' && u[|u| - 2] == 't';
    forall i | 0 <= i < |SkipPrefixes|
      ensures !StartsWith(u, SkipPrefixes[i])
    {
      assert SkipPrefixes[i][1] != 'a';
    }
    forall i | 0 <= i < |SkipSuffixes|
      ensures !EndsWith(u, SkipSuffixes[i])
    {
      var s := SkipSuffixes[i];
      assert s[|s| - 1] != 's' || s[|s| - 2] != 't';
    }
  }
}

=== FILE: text.dfy ===
/** Java `String` operations the services rely on, over `seq<char>`. */
module Text {
  import opened Wrappers

  /** `String.trim()` removes every leading and trailing char whose code is at most U+0020. */
  predicate IsTrimSpace(c: char) {
    c <= ' '
  }

  /** `Character.isWhitespace`, which `String.isBlank()` uses: the ASCII
      controls TAB..CR and FS..US, the space, and the Unicode space, line and
      paragraph separators other than the three non-breaking spaces. */
  predicate IsJavaWhitespace(c: char) {
    || ('\t' <= c <= '\r')
    || ('\U{1C}' <= c <= ' ')
    || c == '\U{1680}'
    || ('\U{2000}' <= c <= '\U{2006}')
    || ('\U{2008}' <= c <= '\U{200A}')
    || c == '\U{2028}' || c == '\U{2029}' || c == '\U{205F}' || c == '\U{3000}'
  }

  /** `String.isBlank()`: empty or whitespace only. */
  predicate IsBlank(s: string) {
    forall i :: 0 <= i < |s| ==> IsJavaWhitespace(s[i])
  }

  predicate StartsWith(s: string, prefix: string) {
    |prefix| <= |s| && s[..|prefix|] == prefix
  }

  predicate EndsWith(s: string, suffix: string) {
    |suffix| <= |s| && s[|s| - |suffix|..] == suffix
  }

  /** `sub` occurs in `s` starting at position `i`. */
  predicate OccursAt(s: string, sub: string, i: int) {
    0 <= i <= |s| - |sub| && s[i..i + |sub|] == sub
  }

  /** `s.contains(sub)`. */
  predicate Contains(s: string, sub: string) {
    exists i | 0 <= i <= |s| - |sub| :: OccursAt(s, sub, i)
  }

  function TrimStart(s: string): (r: string)
    ensures |r| <= |s| && r == s[|s| - |r|..]
    ensures forall i :: 0 <= i < |s| - |r| ==> IsTrimSpace(s[i])
    ensures r == [] || !IsTrimSpace(r[0])
  {
    if |s| > 0 && IsTrimSpace(s[0]) then TrimStart(s[1..]) else s
  }

  function TrimEnd(s: string): (r: string)
    ensures |r| <= |s| && r == s[..|r|]
    ensures forall i :: |r| <= i < |s| ==> IsTrimSpace(s[i])
    ensures r == [] || !IsTrimSpace(r[|r| - 1])
  {
    if |s| > 0 && IsTrimSpace(s[|s| - 1]) then TrimEnd(s[..|s| - 1]) else s
  }

  /** Where the text kept by `Trim(s)` begins. */
  function TrimOffset(s: string): (i: nat)
    ensures i <= |s|
  {
    |s| - |TrimStart(s)|
  }

  /** `String.trim()`: the slice left after dropping trim-space at both ends. */
  function Trim(s: string): (r: string)
    ensures TrimOffset(s) + |r| <= |s| && r == s[TrimOffset(s)..TrimOffset(s) + |r|]
    ensures r == [] || (!IsTrimSpace(r[0]) && !IsTrimSpace(r[|r| - 1]))
  {
    TrimEnd(TrimStart(s))
  }

  /** Only trim-space is dropped, on either side. */
  lemma TrimDropsOnlySpace(s: string)
    ensures forall k :: 0 <= k < TrimOffset(s) ==> IsTrimSpace(s[k])
    ensures forall k :: TrimOffset(s) + |Trim(s)| <= k < |s| ==> IsTrimSpace(s[k])
  {
    var a := TrimStart(s);
    var r := TrimEnd(a);
    forall k | TrimOffset(s) + |r| <= k < |s|
      ensures IsTrimSpace(s[k])
    {
      assert s[k] == a[k - TrimOffset(s)];
    }
  }

  /** Text with no trim-space at either end is its own trim. */
  lemma TrimNoOp(t: string)
    requires t == [] || (!IsTrimSpace(t[0]) && !IsTrimSpace(t[|t| - 1]))
    ensures Trim(t) == t
  {
    assert TrimStart(t) == t;
    assert TrimEnd(t) == t;
  }

  /** `s.indexOf(c)`: the first position of `c`, or -1. */
  function IndexOf(s: string, c: char): (r: int)
    ensures -1 <= r < |s|
    ensures r == -1 <==> (forall i :: 0 <= i < |s| ==> s[i] != c)
    ensures r >= 0 ==> s[r] == c && forall i :: 0 <= i < r ==> s[i] != c
  {
    if |s| == 0 then -1
    else if s[0] == c then 0
    else var k := IndexOf(s[1..], c); if k == -1 then -1 else k + 1
  }

  function AsciiLowerChar(c: char): char {
    if 'A' <= c <= 'Z' then (c as int + 32) as char else c
  }

  /** Lower-casing, restricted to the ASCII letters (see README). */
  function AsciiLower(s: string): (r: string)
    ensures |r| == |s|
    ensures forall i :: 0 <= i < |s| ==> r[i] == AsciiLowerChar(s[i])
  {
    if |s| == 0 then [] else [AsciiLowerChar(s[0])] + AsciiLower(s[1..])
  }

  /** Java string concatenation renders a null operand as "null". */
  function NullToText(o: Option<string>): (r: string)
    ensures o.Some? ==> r == o.value
    ensures o.None? ==> r == "null"
  {
    o.GetOr("null")
  }

  /** `String.join(sep, parts)`. */
  function Join(sep: string, parts: seq<string>): string {
    if |parts| == 0 then ""
    else if |parts| == 1 then parts[0]
    else parts[0] + sep + Join(sep, parts[1..])
  }

  function DigitChar(d: nat): char
    requires d < 10
  {
    ('0' as int + d) as char
  }

  /** `String.valueOf(n)` for a non-negative integer. */
  function NatToDecimal(n: nat): (r: string)
    decreases n
    ensures 1 <= |r|
    ensures forall i :: 0 <= i < |r| ==> '0' <= r[i] <= '9'
  {
    if n < 10 then [DigitChar(n)] else NatToDecimal(n / 10) + [DigitChar(n % 10)]
  }

  /** `String.valueOf(i)` / `Long.toString(i)`. */
  function IntToDecimal(i: int): string {
    if i < 0 then "-" + NatToDecimal(-i) else NatToDecimal(i)
  }

  /** Distinct row positions get distinct decimal texts. */
  lemma {:induction false} NatToDecimalInjective(a: nat, b: nat)
    requires NatToDecimal(a) == NatToDecimal(b)
    ensures a == b
    decreases a
  {
    var ra, rb := NatToDecimal(a), NatToDecimal(b);
    if a < 10 && b < 10 {
      assert ra[0] == rb[0];
    } else if a >= 10 && b >= 10 {
      assert ra[|ra| - 1] == rb[|rb| - 1];
      assert DigitChar(a % 10) == DigitChar(b % 10);
      assert a % 10 == b % 10;
      assert NatToDecimal(a / 10) == ra[..|ra| - 1] == rb[..|rb| - 1] == NatToDecimal(b / 10);
      NatToDecimalInjective(a / 10, b / 10);
    }
  }
  /** Concatenation of a list of pieces, as `String.format` lays out a
      template and its arguments. */
  function Concat(parts: seq<string>): string
    decreases |parts|
  {
    if |parts| == 0 then "" else Concat(parts[..|parts| - 1]) + parts[|parts| - 1]
  }

  /** Where piece `k` starts in `Concat(parts)`. */
  function Offset(parts: seq<string>, k: nat): nat
    requires k <= |parts|
  {
    |Concat(parts[..k])|
  }

  /** Concatenating a prefix of the pieces gives a prefix of the text. */
  lemma {:induction false} ConcatPrefix(parts: seq<string>, k: nat)
    requires k <= |parts|
    ensures Offset(parts, k) <= |Concat(parts)|
    ensures Concat(parts)[..Offset(parts, k)] == Concat(parts[..k])
    decreases |parts| - k
  {
    if k == |parts| {
      assert parts[..k] == parts;
    } else {
      ConcatPrefix(parts, k + 1);
      assert parts[..k + 1][..k] == parts[..k];
      var c := Concat(parts[..k + 1]);
      assert c == Concat(parts[..k]) + parts[k];
      assert c[..|Concat(parts[..k])|] == Concat(parts[..k]);
    }
  }

  /** Every piece appears verbatim at its offset, and the pieces follow one
      another in list order. */
  lemma PieceAtOffset(parts: seq<string>, k: nat)
    requires k < |parts|
    ensures Offset(parts, k) + |parts[k]| == Offset(parts, k + 1)
    ensures OccursAt(Concat(parts), parts[k], Offset(parts, k))
  {
    assert parts[..k + 1][..k] == parts[..k];
    var c := Concat(parts[..k + 1]);
    assert c == Concat(parts[..k]) + parts[k];
    ConcatPrefix(parts, k + 1);
    var whole := Concat(parts);
    var o := Offset(parts, k);
    assert whole[o..o + |parts[k]|] == c[o..];
  }

  /** Offsets grow with the piece index. */
  lemma {:induction false} OffsetMonotone(parts: seq<string>, i: nat, j: nat)
    requires i <= j <= |parts|
    ensures Offset(parts, i) <= Offset(parts, j)
    decreases j - i
  {
    if i < j {
      PieceAtOffset(parts, i);
      OffsetMonotone(parts, i + 1, j);
    }
  }
  /** Two pieces both appear at their offsets, the earlier one ending
      before the later one starts. */
  lemma PiecesInOrder(parts: seq<string>, i: nat, j: nat)
    requires i < j < |parts|
    ensures OccursAt(Concat(parts), parts[i], Offset(parts, i))
    ensures OccursAt(Concat(parts), parts[j], Offset(parts, j))
    ensures Offset(parts, i) + |parts[i]| <= Offset(parts, j)
  {
    PieceAtOffset(parts, i);
    PieceAtOffset(parts, j);
    OffsetMonotone(parts, i + 1, j);
  }
}

=== FILE: validation.dfy ===
/** Bean-validation constraints, as predicates: on the product request, on
    the search filter and on the product entity. Each failing constraint
    yields one field error carrying its message. */
module Validation {
  import opened Wrappers
  import opened Text
  import opened Json
  import opened Products
  import opened ProductStore
  import opened ErrorHandling
  import opened ProductSearch

  const NameRequired := "Product name is required"
  const DescriptionRequired := "Product description is required"
  const CategoryRequired := "Product category is required"
  const PriceRequired := "Product price is required"
  const PricePositive := "Price must be greater than 0"
  const StockRequired := "Stock quantity is required"
  const StockNonNegative := "Stock quantity cannot be negative"

  /** The product request body; any field may be missing. */
  datatype ProductRequest = ProductRequest(
    name: Option<string>,
    description: Option<string>,
    category: Option<string>,
    price: Option<real>,
    stockQuantity: Option<int>)

  /** Some character above the space: what "not blank" means once the
      text is trimmed. */
  predicate HasNonSpace(s: string) {
    exists i :: 0 <= i < |s| && !IsTrimSpace(s[i])
  }

  /** `@NotBlank`: present, and something is left after `trim()`. */
  predicate NotBlank(v: Option<string>) {
    v.Some? && |Trim(v.value)| > 0
  }

  lemma NotBlankMeaning(v: Option<string>)
    ensures NotBlank(v) <==> v.Some? && HasNonSpace(v.value)
  {
    if v.Some? {
      var s := v.value;
      TrimDropsOnlySpace(s);
      if |Trim(s)| > 0 {
        assert s[TrimOffset(s)] == Trim(s)[0];
      }
    }
  }

  /** `@Size(min, max)`: a missing value passes. */
  predicate SizeWithin(v: Option<string>, min: nat, max: nat) {
    v.None? || min <= |v.value| <= max
  }

  /** `@DecimalMin("0.0", inclusive = false)`: a missing value passes. */
  predicate Positive(v: Option<real>) {
    v.None? || v.value > 0.0
  }

  /** `@PositiveOrZero` and `@Min(0)`: a missing value passes. */
  predicate NonNegative(v: Option<int>) {
    v.None? || v.value >= 0
  }

  /** `@DecimalMin("0.0")`, inclusive. */
  predicate NonNegativeReal(v: Option<real>) {
    v.None? || v.value >= 0.0
  }

  /** One constraint: no error when it holds, else its field and message. */
  function Check(ok: bool, field: string, message: string): (e: seq<FieldError>)
    ensures ok <==> e == []
    ensures !ok ==> e == [FieldError(field, message)]
  {
    if ok then [] else [FieldError(field, message)]
  }

  /** Some error concerns `field`. */
  predicate Fails(errors: seq<FieldError>, field: string) {
    exists i :: 0 <= i < |errors| && errors[i].field == field
  }

  lemma FailsAppend(a: seq<FieldError>, b: seq<FieldError>, field: string)
    ensures Fails(a + b, field) <==> Fails(a, field) || Fails(b, field)
  {
    if Fails(a, field) {
      var i :| 0 <= i < |a| && a[i].field == field;
      assert (a + b)[i] == a[i];
    }
    if Fails(b, field) {
      var i :| 0 <= i < |b| && b[i].field == field;
      assert (a + b)[|a| + i] == b[i];
    }
    if Fails(a + b, field) {
      var i :| 0 <= i < |a + b| && (a + b)[i].field == field;
      if i < |a| {
        assert a[i] == (a + b)[i];
      } else {
        assert b[i - |a|] == (a + b)[i];
      }
    }
  }

  /** A text field that is required and bounded: present, not blank, at
      most `max` characters. */
  predicate RequiredText(v: Option<string>, max: nat) {
    v.Some? && HasNonSpace(v.value) && |v.value| <= max
  }

  /** The request constraints, stated directly. */
  predicate RequestValid(r: ProductRequest) {
    && RequiredText(r.name, 255)
    && RequiredText(r.description, 2000)
    && RequiredText(r.category, 100)
    && r.price.Some? && r.price.value > 0.0
    && r.stockQuantity.Some? && r.stockQuantity.value >= 0
  }

  /** The errors of one required, size-bounded text field. */
  function TextErrors(v: Option<string>, max: nat, field: string, required: string, sizeMessage: string): (e: seq<FieldError>)
    ensures e == [] <==> RequiredText(v, max)
    ensures forall i :: 0 <= i < |e| ==> e[i].field == field
  {
    NotBlankMeaning(v);
    assert v.Some? && HasNonSpace(v.value) ==> |v.value| >= 1;
    Check(NotBlank(v), field, required) + Check(SizeWithin(v, 1, max), field, sizeMessage)
  }

  const RequestFields := {"name", "description", "category", "price", "stockQuantity"}

  /** The violations of a product request, field by field in declaration
      order. */
  function RequestViolations(r: ProductRequest): (v: seq<FieldError>)
    ensures v == [] <==> RequestValid(r)
    ensures forall i :: 0 <= i < |v| ==> v[i].field in RequestFields
    ensures Fails(v, "name") <==> !RequiredText(r.name, 255)
    ensures Fails(v, "description") <==> !RequiredText(r.description, 2000)
    ensures Fails(v, "category") <==> !RequiredText(r.category, 100)
    ensures Fails(v, "price") <==> !(r.price.Some? && r.price.value > 0.0)
    ensures Fails(v, "stockQuantity") <==> !(r.stockQuantity.Some? && r.stockQuantity.value >= 0)
  {
    var name := TextErrors(r.name, 255, "name", NameRequired, "Product name must be between 1 and 255 characters");
    var description := TextErrors(r.description, 2000, "description", DescriptionRequired,
      "Product description must be between 1 and 2000 characters");
    var category := TextErrors(r.category, 100, "category", CategoryRequired,
      "Product category must be between 1 and 100 characters");
    var price := PriceErrors(r.price);
    var stock := StockErrors(r.stockQuantity);
    FieldsOfFive(name, description, category, price, stock);
    name + description + category + price + stock
  }

  /** `@NotNull` and `@DecimalMin("0.0", inclusive = false)` on the price. */
  function PriceErrors(price: Option<real>): (e: seq<FieldError>)
    ensures e == [] <==> price.Some? && price.value > 0.0
    ensures forall i :: 0 <= i < |e| ==> e[i].field == "price"
  {
    Check(price.Some?, "price", PriceRequired) + Check(Positive(price), "price", PricePositive)
  }

  /** `@NotNull` and `@PositiveOrZero` on the stock quantity. */
  function StockErrors(stock: Option<int>): (e: seq<FieldError>)
    ensures e == [] <==> stock.Some? && stock.value >= 0
    ensures forall i :: 0 <= i < |e| ==> e[i].field == "stockQuantity"
  {
    Check(stock.Some?, "stockQuantity", StockRequired) + Check(NonNegative(stock), "stockQuantity", StockNonNegative)
  }

  lemma FieldsOfFive(name: seq<FieldError>, description: seq<FieldError>, category: seq<FieldError>,
                     price: seq<FieldError>, stock: seq<FieldError>)
    requires forall i :: 0 <= i < |name| ==> name[i].field == "name"
    requires forall i :: 0 <= i < |description| ==> description[i].field == "description"
    requires forall i :: 0 <= i < |category| ==> category[i].field == "category"
    requires forall i :: 0 <= i < |price| ==> price[i].field == "price"
    requires forall i :: 0 <= i < |stock| ==> stock[i].field == "stockQuantity"
    ensures Fails(name + description + category + price + stock, "name") <==> name != []
    ensures Fails(name + description + category + price + stock, "description") <==> description != []
    ensures Fails(name + description + category + price + stock, "category") <==> category != []
    ensures Fails(name + description + category + price + stock, "price") <==> price != []
    ensures Fails(name + description + category + price + stock, "stockQuantity") <==> stock != []
    ensures forall i :: 0 <= i < |name + description + category + price + stock| ==>
      (name + description + category + price + stock)[i].field in RequestFields
    ensures name + description + category + price + stock == [] <==>
      name == [] && description == [] && category == [] && price == [] && stock == []
  {
    var fields := ["name", "description", "category", "price", "stockQuantity"];
    forall f | f in fields
      ensures Fails(name + description + category + price + stock, f) <==>
        (f == "name" && name != []) || (f == "description" && description != []) ||
        (f == "category" && category != []) || (f == "price" && price != []) ||
        (f == "stockQuantity" && stock != [])
    {
      FailsAppend(name, description, f);
      FailsAppend(name + description, category, f);
      FailsAppend(name + description + category, price, f);
      FailsAppend(name + description + category + price, stock, f);
      if name != [] { assert name[0].field == "name"; }
      if description != [] { assert description[0].field == "description"; }
      if category != [] { assert category[0].field == "category"; }
      if price != [] { assert price[0].field == "price"; }
      if stock != [] { assert stock[0].field == "stockQuantity"; }
    }
    assert "name" in fields && "description" in fields && "category" in fields;
    assert "price" in fields && "stockQuantity" in fields;
  }

  /** Several fields fail at once and each is reported: the body of the 400
      answer lists exactly the failing fields. */
  lemma SeveralFieldsFailTogether(uri: string)
    ensures var v := RequestViolations(ProductRequest(Some(""), Some("Missing category and price"), Some(""), Some(-10.0), Some(-5)));
      var fieldErrors := Handle(ArgumentNotValid(v), uri).body.fieldErrors;
      fieldErrors.Some? && fieldErrors.value.Keys == {"name", "category", "price", "stockQuantity"}
  {
    var r := ProductRequest(Some(""), Some("Missing category and price"), Some(""), Some(-10.0), Some(-5));
    var v := RequestViolations(r);
    assert !RequiredText(r.name, 255) && !RequiredText(r.category, 100);
    assert RequiredText(r.description, 2000) by {
      assert !IsTrimSpace(r.description.value[0]);
    }
    assert Fails(v, "name") && Fails(v, "category") && Fails(v, "price") && Fails(v, "stockQuantity");
    assert !Fails(v, "description");
    ArgumentNotValidBody(v, uri);
    KeysAreFailingFields(v);
    AllButDescriptionFail(v);
  }

  /** When every request field but the description fails, those four are
      the failing fields. */
  lemma AllButDescriptionFail(v: seq<FieldError>)
    requires Fails(v, "name") && Fails(v, "category") && Fails(v, "price") && Fails(v, "stockQuantity")
    requires !Fails(v, "description")
    ensures (set f | f in RequestFields && Fails(v, f)) == {"name", "category", "price", "stockQuantity"}
  {
  }

  /** The fields named by a request's violations. */
  lemma KeysAreFailingFields(v: seq<FieldError>)
    requires forall i :: 0 <= i < |v| ==> v[i].field in RequestFields
    ensures (set i | 0 <= i < |v| :: v[i].field) == set f | f in RequestFields && Fails(v, f)
  {
  }

  /** Boundaries: a zero price is refused, a zero stock accepted. */
  lemma RequestBoundaries(r: ProductRequest)
    requires RequestValid(r)
    ensures !RequestValid(r.(price := Some(0.0))) && !RequestValid(r.(price := Some(-1.5)))
    ensures RequestValid(r.(stockQuantity := Some(0))) && !RequestValid(r.(stockQuantity := Some(-10)))
    ensures !RequestValid(r.(name := Some("   "))) && !RequestValid(r.(name := None))
  {
  }

  /** The entity constraints, stated directly. */
  predicate EntityValid(p: Product) {
    && p.name.Some? && HasNonSpace(p.name.value)
    && p.description.Some? && HasNonSpace(p.description.value)
    && p.category.Some? && HasNonSpace(p.category.value)
    && p.price.Some? && p.price.value > 0.0
    && p.stockQuantity.Some? && p.stockQuantity.value >= 0
  }

  /** The violations of a product entity. Identity, history and tenant
      columns carry no bean constraint. */
  function EntityViolations(p: Product): (v: seq<FieldError>)
    ensures v == [] <==> EntityValid(p)
    ensures forall i :: 0 <= i < |v| ==> v[i].field in RequestFields
    ensures Fails(v, "name") <==> !(p.name.Some? && HasNonSpace(p.name.value))
    ensures Fails(v, "description") <==> !(p.description.Some? && HasNonSpace(p.description.value))
    ensures Fails(v, "category") <==> !(p.category.Some? && HasNonSpace(p.category.value))
    ensures Fails(v, "price") <==> !(p.price.Some? && p.price.value > 0.0)
    ensures Fails(v, "stockQuantity") <==> !(p.stockQuantity.Some? && p.stockQuantity.value >= 0)
  {
    NotBlankMeaning(p.name);
    NotBlankMeaning(p.description);
    NotBlankMeaning(p.category);
    var name := Check(NotBlank(p.name), "name", NameRequired);
    var description := Check(NotBlank(p.description), "description", DescriptionRequired);
    var category := Check(NotBlank(p.category), "category", CategoryRequired);
    var price := PriceErrors(p.price);
    var stock := StockErrors(p.stockQuantity);
    FieldsOfFive(name, description, category, price, stock);
    name + description + category + price + stock
  }

  /** Only the catalogue fields are constrained: rows that agree on them
      (a product and its history copies, say) fail alike. */
  lemma ViolationsFollowCatalogueFields(p: Product, q: Product)
    requires SameCatalogueFields(p, q)
    ensures EntityViolations(p) == EntityViolations(q)
  {
  }

  /** The entity built from a valid request is a valid entity; the entity
      alone does not bound the text lengths. */
  lemma ValidRequestMakesValidEntity(r: ProductRequest, p: Product)
    requires RequestValid(r)
    requires p.name == r.name && p.description == r.description && p.category == r.category
    requires p.price == r.price && p.stockQuantity == r.stockQuantity
    ensures EntityValid(p)
    ensures EntityViolations(p) == []
  {
  }

  /** A history copy of a valid entity is valid, so the history rows the
      service writes pass the entity constraints whenever the source does. */
  lemma HistoryCopyStaysValid(source: Product, eventType: string, now: Instant)
    requires EntityValid(source)
    ensures EntityValid(History(source)) && EntityValid(HistoryAs(source, eventType, now))
  {
  }

  /** The `(name, price)` constructor leaves description, category and
      stock empty, so its product never passes the entity constraints. */
  lemma ShortConstructorIsInvalid(name: Option<string>, price: Option<real>, now: Instant)
    ensures !EntityValid(NewProduct(name, price, now))
    ensures Fails(EntityViolations(NewProduct(name, price, now)), "stockQuantity")
  {
  }

  const SortableProperties := {"name", "price", "stockQuantity", "eventTime"}

  const FilterFields :=
    {"search", "category", "minPrice", "maxPrice", "minStock", "maxStock", "sortBy", "sortOrder", "page", "size"}

  /** The filter constraints, stated directly; nothing relates a minimum
      to its maximum. */
  predicate FilterValid(f: Filter) {
    && (f.search.None? || |f.search.value| <= 255)
    && (f.category.None? || |f.category.value| <= 100)
    && NonNegativeReal(f.minPrice) && NonNegativeReal(f.maxPrice)
    && NonNegative(f.minStock) && NonNegative(f.maxStock)
    && (f.sortBy.None? || f.sortBy.value in SortableProperties)
    && (f.sortOrder.None? || f.sortOrder.value == SortAsc || f.sortOrder.value == SortDesc)
    && NonNegative(f.page)
    && (f.size.None? || 1 <= f.size.value <= 100)
  }

  /** The length limits on the two texts and the four bounds. */
  function CriteriaViolations(f: Filter): (v: seq<FieldError>)
    ensures v == [] <==>
      SizeWithin(f.search, 0, 255) && SizeWithin(f.category, 0, 100) &&
      NonNegativeReal(f.minPrice) && NonNegativeReal(f.maxPrice) &&
      NonNegative(f.minStock) && NonNegative(f.maxStock)
    ensures forall i :: 0 <= i < |v| ==> v[i].field in FilterFields
  {
    Check(SizeWithin(f.search, 0, 255), "search", "Search query must not exceed 255 characters")
    + Check(SizeWithin(f.category, 0, 100), "category", "Category must not exceed 100 characters")
    + Check(NonNegativeReal(f.minPrice), "minPrice", "Minimum price must be greater than or equal to 0")
    + Check(NonNegativeReal(f.maxPrice), "maxPrice", "Maximum price must be greater than or equal to 0")
    + Check(NonNegative(f.minStock), "minStock", "Minimum stock must be greater than or equal to 0")
    + Check(NonNegative(f.maxStock), "maxStock", "Maximum stock must be greater than or equal to 0")
  }

  /** The two anchored patterns, matched against the whole text and
      case-sensitively, and the paging limits. */
  function PagingViolations(f: Filter): (v: seq<FieldError>)
    ensures v == [] <==>
      (f.sortBy.None? || f.sortBy.value in SortableProperties) &&
      (f.sortOrder.None? || f.sortOrder.value == SortAsc || f.sortOrder.value == SortDesc) &&
      NonNegative(f.page) && (f.size.None? || 1 <= f.size.value <= 100)
    ensures forall i :: 0 <= i < |v| ==> v[i].field in FilterFields
  {
    Check(f.sortBy.None? || f.sortBy.value in SortableProperties, "sortBy",
        "Sort by must be one of: name, price, stockQuantity, eventTime")
    + Check(f.sortOrder.None? || f.sortOrder.value == SortAsc || f.sortOrder.value == SortDesc, "sortOrder",
        "Sort order must be 'asc' or 'desc'")
    + Check(NonNegative(f.page), "page", "Page number must be greater than or equal to 0")
    + Check(f.size.None? || f.size.value >= 1, "size", "Page size must be at least 1")
    + Check(f.size.None? || f.size.value <= 100, "size", "Page size must not exceed 100")
  }

  /** The violations of a search filter, in declaration order. */
  function FilterViolations(f: Filter): (v: seq<FieldError>)
    ensures v == [] <==> FilterValid(f)
    ensures forall i :: 0 <= i < |v| ==> v[i].field in FilterFields
  {
    CriteriaViolations(f) + PagingViolations(f)
  }

  /** The builder defaults pass validation. */
  lemma DefaultFilterIsValid()
    ensures FilterViolations(DefaultFilter) == []
  {
  }

  /** A valid filter always yields a sort on a sortable column, descending
      exactly when the order is "desc". */
  lemma ValidFilterSorts(f: Filter)
    requires FilterValid(f)
    ensures BuildSort(f).Ok?
    ensures BuildSort(f).value[0].property in SortableProperties
    ensures BuildSort(f).value[0].direction == Desc <==> f.sortOrder == Some(SortDesc)
  {
    if f.sortBy.Some? {
      var b := f.sortBy.value;
      assert b[0] != ' ' && !IsJavaWhitespace(b[0]);
    }
    if f.sortOrder == Some(SortAsc) {
      assert !IsDescIgnoringCase(SortAsc);
    }
  }

  /** The validator and the sort builder disagree on case: "DESC" is
      refused by one and sorts descending in the other. */
  lemma OrderCaseDisagreement(f: Filter)
    requires FilterValid(f.(sortOrder := None))
    ensures !FilterValid(f.(sortOrder := Some("DESC")))
    ensures BuildSort(f.(sortOrder := Some("DESC"))).Ok?
    ensures BuildSort(f.(sortOrder := Some("DESC"))).value[0].direction == Desc
  {
  }

  /** A minimum above the maximum passes validation and finds nothing. */
  lemma CrossedBoundsFindNothing(s: Store, f: Filter, tenantId: string)
    requires FilterValid(f) && f.minPrice.Some? && f.maxPrice.Some? && f.minPrice.value > f.maxPrice.value
    ensures forall p :: p !in Search(s, f, tenantId)
  {
  }
}

=== FILE: wrappers.dfy ===
/** Failure-compatible wrappers shared by every module: Java's nullable
    references become `Option`, thrown exceptions become `Result`. */
module Wrappers {

  /** A Java reference that may be null. */
  datatype Option<+T> = None | Some(value: T) {
    function GetOr(default: T): T {
      match this
      case Some(v) => v
      case None => default
    }
  }

  /** The outcome of a Java call that either returns a value or throws. */
  datatype Result<+T, +E> = Ok(value: T) | Err(error: E) {
    predicate IsFailure() {
      Err?
    }

    function PropagateFailure<U>(): Result<U, E>
      requires Err?
    {
      Err(error)
    }

    function Extract(): T
      requires Ok?
    {
      value
    }

    /** The value, or `default` when the call threw. */
    function GetOr(default: T): T {
      match this
      case Ok(v) => v
      case Err(_) => default
    }
  }
}
